=== FILE: README.md ===
# Wildlife-on-screen dashboards: the data-reshaping pipeline in Dafny

The repository is three Streamlit pages over one spreadsheet of animal
appearances in wildlife documentaries, one row per species (or subspecies)
per episode:

- `general.py` is the overview page: a filtered species table and two charts;
- `animal.py` is the page for one animal;
- `main.py` is an older stand-alone summary.

All three reshape the sheet the same way. They rename the columns, derive a
binomial name from the scientific name and map status codes to labels. They
drop the "sp." animals and take each species' first and last appearance. They
then filter by multi-selects whose options cascade, sort (by IUCN status
through the fixed categorical order), deduplicate and number from 1.

This project models that pipeline as pure functions over `seq<Row>`. `Option`
stands for a missing (NaN/None) cell. The proofs cover:

- filtering;
- sort order;
- grouping and distinct-species counts;
- country-id resolution;
- the rendering rules that decide what each cell shows.

Modules, in dependency order:

| file | module | what it holds |
|---|---|---|
| wrappers.dfy | Wrappers | `Option` |
| seqs.dfy | Seqs | boolean-mask filtering, `drop_duplicates`, 1-based numbering, `map` |
| sorting.dfy | Sorting | a sort outcome: a permutation ordered by a total preorder; insertion sort is one admissible outcome |
| text.dfy | Text | Python's `str.split()`, `" ".join`, `in`, `replace(' ', '%20')`, `lstrip('0')` and `int` |
| collation.dfy | Collation | code-point string order, NaN-last orders, `sorted(col.dropna().unique())` |
| dates.dfy | Dates | calendar dates and their order |
| status.dfy | Status | the nine IUCN codes, their labels and the categorical display order |
| records.dfy | Records | the sheet row and the column renames |
| countries.dfy | Countries | ISO 3166-1 alpha-3 to numeric ids, and the override-then-ISO name resolution |
| normalize.dfy | Normalize | binomial name, status labels, ISO id, "sp." exclusion |
| aggregate.dfy | Aggregate | first/last appearance per binomial name, and distinct-species counts per group |
| filters.dfy | Filters | the four-way multi-select filter and the cascading option lists |
| overview.dfy | Overview | `general.py`: the species table, the status chart data, the country chart and map data |
| animal_page.dfy | AnimalPage | `animal.py`: animal choice, header, "Updated" date, gallery, map points, subspecies switch |
| appearance_table.dfy | AppearanceTable | `animal.py`: the "List of Appearances" with its episode merge and "Watch now" cell |
| summary.dfy | Summary | `main.py`: last-appearance merge, country/family filter, the deduplicated two-key table |

A single-key `sort_values` uses pandas' default quicksort, which is not
stable, so no tie order is promised for those sorts. A sort is modelled as
"some permutation ordered by the key" (`Sorting.SortOutcome`), and every
contract holds for any such outcome. Where the source computes a maximum
through a sort, the maximum is stated in terms of the dates, not of a
particular row. The sorts on two keys (the overview's "IUCN status" and
"# Times Featured" choices, and the summary's family-then-binomial order) are
stable in pandas; the model states their order but not their tie order (see
"Left out").

Some behaviours of the code worth knowing:

- A scientific name of one word gives that word as its binomial name, and a
  name of only whitespace gives the empty string
  (`Normalize.BinomialOfShortName`).
- "# Times Featured" is the `Appearance_number` of the species' latest
  appearance that has one (`general.py:142-153`, `general.py:207`).
  `groupby().first()` skips empty cells, so an empty number on the latest row
  is taken from an earlier row. A species with no number at all shows 0
  (`Overview.TimesFeaturedOfMerge`).
- A row whose episode is missing from the episodes sheet shows a Netflix link
  to "nan" in the "Watch now" column; the model shows an empty cell there
  (see Findings).

## Model

| member | source | states |
|---|---|---|
| Seqs.Filter | general.py:189 | a boolean-mask selection keeps, in order, exactly the rows the mask accepts, each as often as before; with every row accepted it is the identity |
| Seqs.FilterFilter | general.py:184-189 | applying two masks one after the other equals applying their conjunction |
| Seqs.FilterThenFilter | general.py:184-189 | two masks applied one after the other equal any single mask that accepts exactly the rows both accept |
| Seqs.Dedupe | general.py:248 | `drop_duplicates` keeps every value, none twice, in the order of first occurrence |
| Seqs.DedupeDistinct | general.py:248 | deduplicating rows that are already distinct changes nothing |
| Seqs.Numbered | general.py:264-265 | after `reset_index` and `index + 1` the rows are numbered 1..n in order |
| Sorting.Sort | general.py:139 | a sort outcome is a permutation of its input, ordered by the key |
| Sorting.SortKeepsRows | general.py:139 | every sort outcome has the same rows as its input, and as many |
| Text.Split | general.py:117 | `str.split()` yields non-empty tokens free of whitespace |
| Text.SplitWord | general.py:117 | a word splits to itself |
| Text.SplitBlank | general.py:117 | a string of whitespace only splits to no words |
| Text.SplitAtSpace | general.py:117 | any whitespace character separates: the words of `a c b` are the words of `a` followed by those of `b` |
| Text.SplitJoin | general.py:117 | joining whitespace-free tokens with one space and splitting again gives the tokens back |
| Text.JoinSingleSpaced | general.py:117 | `" ".join` of words has no leading, trailing, repeated or non-space whitespace |
| Text.SingleSpacedDetermined | general.py:117 | two such single-spaced strings with the same words are equal |
| Text.Contains | general.py:128 | `sub in s` holds exactly when `sub` occurs in `s` at some position |
| Text.EncodeSpaces | animal.py:166 | replacing spaces by `%20` leaves no space and never shortens the string |
| Text.DecodeEncode | animal.py:166 | the `%20` encoding is undone by decoding, for strings without `%` |
| Text.StripLeadingZeros | general.py:124 | `lstrip('0')` removes a prefix made only of zeros, after which the string does not start with 0 |
| Text.StripKeepsValue | general.py:124 | stripping leading zeros keeps a digit string's value, so `int(n.lstrip('0'))` is the value of `n` |
| Collation.OptionList | general.py:164-167 | `sorted(col.dropna().unique())` is strictly ascending and contains exactly the present values |
| Collation.StrictlyAscendingUnique | general.py:164-167 | two strictly ascending lists with the same elements are equal, so option lists depend only on the values |
| Collation.OptionListDependsOnValuesOnly | general.py:172 | option lists built from columns with the same cells are equal |
| Collation.AscNaLastTotalPreorder | general.py:259-261 | ascending order with missing values last is total and transitive |
| Collation.DescNaLastTotalPreorder | general.py:259-261 | descending order with missing values last is total and transitive |
| Collation.AscNaLastAntisymmetric | main.py:68 | two cells that each sort no later than the other are equal |
| Dates.OnOrBeforeAntisymmetric | general.py:139 | two dates each on or before the other are the same date |
| Dates.DateOrdersArePreorders | animal.py:139 | air-date order ascending and descending are total preorders |
| Status.CatalogueConsistent | general.py:18-30 | the label map and the display order cover the same nine codes, the order listing each once |
| Status.Label | general.py:120-121 | a code has a label exactly when it is one of the nine, and that label is the catalogue's entry for the code; a missing or unknown code gives no label, never a fallback |
| Status.LabelsOfCodes | general.py:20-30 | the nine code-to-label pairs of the catalogue, and no label for a missing or unknown code |
| Status.LabelIdentifiesCode | general.py:20-30 | no two codes share a label |
| Status.Rank | general.py:252-257 | the categorical rank is the code's position in the status order, and every code outside the order ranks after all nine |
| Status.ByRankIsTotalPreorder | general.py:252-257 | sorting by categorical rank is a total preorder |
| Status.RankFollowsOrder | general.py:18 | an earlier code of LC, NT, VU, EN, CR, EX, DO, DD, NE sorts strictly before a later one, and every listed code before any unknown or missing one |
| Records.UnderscoresToSpaces | general.py:106 | every underscore becomes a space and every other character stays in place |
| Records.UnderscoresToSpacesInjective | general.py:106-107 | column names without spaces never collide after renaming |
| Records.RenameColumn | general.py:106-114 | a display name has no underscore; a column whose spaced name is not one of the four fixed renames keeps its spaced name |
| Records.FixedRenamesApply | general.py:109-114 | the four renamed columns get "Subspecies status code", "Species status code", "Animal" and "Animal subspecies" |
| Records.OtherColumnsSpaced | general.py:106-107 | columns outside the fixed renames only have their underscores turned into spaces |
| Countries.NumericId | general.py:124 | the id of a numeric code is its decimal value, so "068" gives 68, and is positive |
| Countries.MapOfKeys | general.py:124 | a dict built from pairs has a key exactly for each pair's key |
| Countries.MapOfValues | general.py:124 | in a dict built from pairs, a key maps to the value of its last pair |
| Countries.IdPairs | general.py:124 | each table entry gives its alpha-3 code paired with its numeric id, in table order |
| Countries.Alpha3IdsKeys | general.py:124 | the alpha-3 map has a key for exactly the codes of the table |
| Countries.Alpha3IdsValues | general.py:124 | a code maps to the numeric id of its last entry in the table |
| Countries.IsoCellOf | general.py:125 | a known alpha-3 code becomes its numeric id, an unknown code is left unchanged, and a missing cell stays missing |
| Countries.Resolve | general.py:375-388 | an override name gets exactly its override id even if ISO knows it; otherwise the ISO entry gives the id (leading zeros dropped) and its name; an unknown name stays without id or name |
| Normalize.FirstTwo | general.py:117 | `[:2]` keeps the first min(2, n) tokens |
| Normalize.Binomial | general.py:117 | the binomial is missing exactly when the scientific name is; its words are the first two words of the scientific name, joined by single spaces |
| Normalize.BinomialDetermined | general.py:117 | the binomial is the only single-spaced string with those words |
| Normalize.BinomialOfShortName | general.py:117 | a one-word name is its own binomial; a whitespace-only name gives "" |
| Normalize.BinomialIdempotent | general.py:117 | deriving the binomial of a binomial changes nothing |
| Normalize.IndeterminateExamples | general.py:128 | "Panthera sp." is indeterminate; "Panthera leo" and a missing name are not |
| Normalize.NormalizeEach | general.py:117-125 | deriving the columns row by row keeps the number of rows and gives each row its own derived binomial, statuses and ISO id |
| Normalize.Normalize | animal.py:106-129 | pre-processing keeps exactly the determinate rows in their order, each with its derived columns, and no kept animal contains "sp." |
| Normalize.NormalizeKeeps | animal.py:129 | a row appears normalised in the output exactly when it is a sheet row whose animal is determinate |
| Aggregate.LatestFirstIsTotalPreorder | general.py:139 | air date descending is a total preorder |
| Aggregate.LatestWhere | general.py:142 | on date-descending rows, the first accepted row exists exactly when some row is accepted, and no accepted row is later |
| Aggregate.LatestIn | general.py:142 | `groupby().first()` on date-descending rows finds a row of the group exactly when the group has rows, and no row of the group is later |
| Aggregate.EarliestIn | general.py:145 | `groupby().last()` on date-descending rows finds a row of the group exactly when the group has rows, and no row of the group is earlier |
| Aggregate.LatestNumberIn | general.py:142 | the "Appearance_number" of `groupby().first()` is missing exactly when no row of the group has one, otherwise the number of a row of the group that no numbered row of the group aired after |
| Aggregate.MergeAppearances | general.py:148-160 | the merges keep every row in order with its binomial; a row has last and first sightings exactly when it has a binomial: the show, episode and date of a latest and an earliest row of its group, the last one with the group's latest appearance number, shared by all rows of the group |
| Aggregate.MergeRowSpec | general.py:142-153 | a row with a binomial gets the sightings of a latest and an earliest row of its group |
| Aggregate.LatestNumberOfRows | general.py:139-148 | the number taken from the sorted rows is a latest appearance number of the group in the sheet |
| Aggregate.GroupDatesDetermined | general.py:139-145 | whichever tied row the sort puts first, the last and first appearance dates of a group are determined |
| Aggregate.SpeciesIn | general.py:285-287 | the species of a group are exactly the present binomials of its rows |
| Aggregate.CountsFor | general.py:285-287 | each group gets the number of its distinct species |
| Aggregate.GroupCounts | general.py:285-288 | `groupby(key).agg(nunique)` has one entry per present key, keys strictly ascending, each with its distinct-species count |
| Filters.Apply | general.py:184-189 | a row passes exactly when each of continent, country, class and family has nothing selected or has the row's value selected; with nothing selected the filter is the identity |
| Filters.ApplyIsConjunction | general.py:189 | filtering by the whole selection equals narrowing by continent, country, class and family in turn |
| Filters.Offered | general.py:171-179 | a child option list is strictly ascending and holds exactly the child values of rows whose parent value the parent selection admits |
| Filters.CountryOptions | general.py:165-172 | the countries offered are exactly those of rows on a selected continent, or of all rows when none is selected |
| Filters.FamilyOptions | general.py:167-179 | the families offered are exactly those of rows in a selected class, or of all rows when none is selected |
| Filters.UnnarrowedOptions | general.py:164-179 | with no parent selection, the cascaded lists equal the plain sorted distinct lists |
| Overview.ListedRows | general.py:189-203 | the listed rows are, in order, exactly the rows the filter keeps whose animal is not "sp." |
| Overview.ItalicNameDistinguishes | general.py:205 | the scientific-name cells of two rows are equal exactly when their binomials are, and "-" never equals a present one, so the deduplication merges rows only with equal binomials |
| Overview.SeenCellOf | general.py:208-226 | a "Seen" cell is hidden exactly when its column is off, and shows the show and air year exactly when a sighting exists |
| Overview.TimesFeaturedOfMerge | general.py:142-152 | on the merged sheet, "# Times Featured" is 0 for a row without a binomial or whose species has no appearance number, and otherwise the number of a row of its species that no numbered row of the species aired after |
| Overview.OrderIsTotalPreorder | general.py:231-261 | each of the four sort choices is a total preorder |
| Overview.PreparedRows | general.py:247-250 | the prepared rows are distinct and are exactly the projections of the listed rows |
| Overview.Table | general.py:245-265 | the species table is numbered from 1 and ordered by the chosen sort; every line comes from a listed row and every listed row has its line; the lines are, as a multiset, exactly the cells of the deduplicated prepared rows (family, shown columns and status), so each distinct prepared row gives one line; with one family chosen, no line repeats |
| Overview.ListedGroups | general.py:285-287 | the groups and species counted over the listed rows are those of the listed sheet rows |
| Overview.StatusCounts | general.py:285-288 | the status chart has one entry per status code among the listed rows, in ascending order, each counting the distinct species with that code |
| Overview.MostSpeciesFirstIsTotalPreorder | general.py:329 | most species first is a total preorder |
| Overview.CountryChart | general.py:323-388 | the country chart is numbered from 1, most species first, has each country of the listed rows once with its distinct-species count, and carries the id and name the country resolves to |
| AnimalPage.AnimalOptions | animal.py:135 | the animal choices are strictly ascending and are exactly the present animal names |
| AnimalPage.EarliestFirstIsTotalPreorder | animal.py:139 | air date ascending is a total preorder |
| AnimalPage.SelectAnimal | animal.py:139 | the selection is a sort outcome of exactly the rows of that animal, earliest air date first |
| AnimalPage.OfferedAnimalHasRows | animal.py:135-143 | an animal the selectbox offers always has at least one row |
| AnimalPage.HeaderOf | animal.py:143-145 | the header exists exactly when the selection is non-empty, and its cells are those of an earliest-aired row |
| AnimalPage.StatusBlockAsWritten | animal.py:148 | as written, the status block is always shown, with the label "nan" when the label is missing |
| AnimalPage.StatusBlockOf | animal.py:148 | the block is shown exactly when the species has a status label, with that label and code |
| AnimalPage.StatusBlockDiscrepancy | animal.py:148 | the two blocks agree when a label is present; without one, the written block reads "nan" and the intended one is absent |
| AnimalPage.StatusBlockForKnownCodes | animal.py:144-148 | for a normalised row the block is shown exactly when its species code is one of the nine |
| AnimalPage.LockOrderIsTotalPreorder | animal.py:146 | ascending lock date with missing dates last is a total preorder |
| AnimalPage.LastUpdatedAsWritten | animal.py:146 | as written, "Updated" is missing exactly when some row lacks a lock date; otherwise it is a row's lock date that no row's lock date exceeds |
| AnimalPage.LastUpdated | animal.py:146 | the intended "Updated" date is missing exactly when no row has a lock date; otherwise it is the latest lock date present |
| AnimalPage.LastUpdatedAgrees | animal.py:146 | with every lock date present, the written and intended dates are equal |
| AnimalPage.LastUpdatedLosesDate | animal.py:146-147 | one missing lock date makes the written date missing though another row has one |
| AnimalPage.Loaded | animal.py:66-102 | the page holds no "IUCN_status" cell and leaves every other cell of a row as it is |
| AnimalPage.Listing | animal.py:150-151 | the listed rows are distinct, are exactly the selected rows as the page loads them, and stay earliest first; rows differing only in a column the page does not load give one line |
| AnimalPage.ImageCandidates | animal.py:165 | the candidates are exactly the present images, "Image 1" first when present |
| AnimalPage.ImagePath | animal.py:166 | the URL is the root, then a folder that decodes back to "show/episode - date", then "/", the image name and ".webp"; it has no space when the image name has none |
| AnimalPage.FolderDecodes | animal.py:166 | replacing each "%20" of the folder by a space gives back show, episode and date |
| AnimalPage.EntryOf | animal.py:160-167 | a gallery entry keeps show, episode and air year, and points at one of the row's present images |
| AnimalPage.Gallery | animal.py:159-167 | the gallery has one entry per listed row with "Image 1" present, in order, with its show, episode, air year and one of its images |
| AnimalPage.Points | animal.py:184 | the map points are, in order, exactly the rows with both latitude and longitude |
| AnimalPage.ShowsSubspecies | animal.py:212 | the subspecies columns are shown exactly when two rows differ in their subspecies cell |
| AnimalPage.SubspeciesCount | animal.py:212 | more than one distinct subspecies cell means two rows differ there, and conversely |
| AppearanceTable.JoinRow | animal.py:220 | a row gets at least one line, and its lines are exactly the row paired with each matching episode's link, or with a missing link when nothing matches |
| AppearanceTable.JoinRowCount | animal.py:220 | a row gets exactly as many lines as there are matching episode rows, or a single unmatched line when there are none |
| AppearanceTable.LeftMerge | animal.py:220 | the left merge has exactly the lines that join a listed row to a matching episode, or to none when nothing matches, and at least as many lines as rows |
| AppearanceTable.MergeKeepsEveryRow | animal.py:220 | no listed row is lost by the merge |
| AppearanceTable.IconFor | animal.py:222 | the BBC icon is used exactly when the link contains "bbc", otherwise the Netflix icon |
| AppearanceTable.WatchCellAsWritten | animal.py:222 | as written, an unmatched episode gives a Netflix link to "nan", a blank link gives "", and a URL gives its icon link |
| AppearanceTable.WatchCell | animal.py:222 | the intended cell is empty exactly when there is no URL, and otherwise is the URL's icon link |
| AppearanceTable.WatchCellDiscrepancy | animal.py:222 | the two cells agree except for an unmatched episode |
| AppearanceTable.ItalicOrEmptyDistinguishes | animal.py:214 | the scientific-name cells of two lines are equal exactly when their names are, and "" never equals a present one, so the final deduplication merges lines only with equal names |
| AppearanceTable.Headers | animal.py:205-216 | the six base headers, plus "Name", "Scientific name" and "IUCN status" exactly when subspecies are shown |
| AppearanceTable.OrderIsTotalPreorder | animal.py:227-232 | every header's sort order is a total preorder |
| AppearanceTable.Table | animal.py:224-234 | the table lines are distinct and are exactly the projections of the merged lines; an earlier line always comes from a merged line that sorts no later than any source of a later line |
| Summary.LastAppearances | main.py:28-41 | every row keeps its place with its binomial, and has a last appearance exactly when it has a binomial: that of a latest-aired row of its group, the same for every row of the group |
| Summary.Options | main.py:44-47 | the country and family choices are strictly ascending and contain exactly the present values |
| Summary.OptionsAgree | main.py:44-47 | these choices equal the overview page's unnarrowed option lists over the same rows |
| Summary.SameColumn | main.py:44-47 | a column read through the merged row offers the same choices as the same column read from the sheet rows |
| Summary.Selected | main.py:60-64 | a row passes exactly when its country and its family are each selected or their selection is empty, in order |
| Summary.NothingChosenKeepsAll | main.py:60-64 | with no country and no family chosen, every row is kept |
| Summary.OrderIsTotalPreorder | main.py:68 | ordering by family, then binomial name, missing values last, is a total preorder |
| Summary.Table | main.py:68-71 | the summary is numbered from 1, ordered by family then binomial, has no repeated line, and shows exactly the selected rows' projections |

## Left out

- Fetching the sheets (Google Sheets credentials, `gsheetsdb`), `st.cache_resource` caching, CSS, Streamlit widgets, Altair charts and the choropleth are I/O and UI. The widget choices are parameters: selections, sort choice, shown columns.
- The HTML of the status badges (`status_css`) is left out. A badge is modelled by its label and code; the italic and "-" placeholders are kept.
- `strftime` is the `formatDate` parameter. Only the air year is used directly.
- `random.choice` in the gallery is the `pick` parameter: any choice among the present images.
- The ISO 3166-1 table and the library's name lookup are parameters (`seq<IsoCountry>`, `map<string, IsoCountry>`). Their contents are not modelled.
- Latitude and longitude are kept as `real` and only their presence is read.
- `groupby().first()` and `.last()` take the first non-null value per column. Show, episode and air date are never empty, so they come from a latest (or earliest) row of the group. The appearance number may be empty and is modelled per column (`Aggregate.LatestNumberIn`).
- Tie order of the non-stable sorts is not modelled: any order among equal keys is admitted.
- Overview.Table, Summary.Table: the sorts on two keys are stable in pandas (`lexsort`), so rows that tie on both keys keep the order `drop_duplicates` left. The model states the key order but not this tie order: any order among rows equal on both keys is admitted.
- Overview.Table: the "IUCN status" choice sorts by categorical rank only. The source also passes the `Animal` tie-break column through the categorical key, which turns every animal into NaN, so that tie-break has no effect.
- Overview.CountryChart: the chart's `head(10)` and the debug `print` at general.py:382-383 are left out. The chart data before `head` is modelled.
- The default selections ("Tiger", "Mammalia", "Kenya", "Felidae") are widget defaults, and the model takes any selection. `unique_animals.index("Tiger")` raises when no animal is "Tiger"; that is not modelled.
- AnimalPage.LastUpdatedAsWritten: requires a non-empty selection. `.iloc[-1]` raises on an empty one, and AnimalPage.OfferedAnimalHasRows shows the page never reaches that case.
- AnimalPage.HeaderOf: an empty selection gives no header, where `.iloc[0]` would raise; the page never reaches it, as above.
- AppearanceTable.Table: the whole table uses the corrected "Watch now" cell (`WatchCell`) for the shown cell, the sort and the deduplication key. For an episode with no match in the episodes sheet the source shows, sorts and compares a Netflix anchor to "nan" instead, and the model shows "".
- The `Show (year)` relabelling of map points and the gallery's `alt` text are display strings only.

## Findings

| source | as written | input that shows it | evidently intended | confidence | as-written member | corrected member |
|---|---|---|---|---|---|---|
| animal.py:146 | "Updated" is the last of the lock dates sorted ascending; NaT sorts last, so one row without a lock date makes it NaT and the following `strftime` fails | an animal with two rows, lock dates 2023-05-01 and missing | the latest lock date among the rows that have one | not executed | AnimalPage.LastUpdatedAsWritten (AnimalPage.LastUpdatedLosesDate) | AnimalPage.LastUpdated (AnimalPage.LastUpdatedAgrees) |
| animal.py:148 | the guard `species_status is not None` tests a value produced by `Series.map` over a dict, which is NaN (not None) for a missing or unknown code, so the block is always shown and the badge reads "nan" | a species whose status code cell is empty, or is "XX" | no status block when the species has no status label | not executed | AnimalPage.StatusBlockAsWritten (AnimalPage.StatusBlockDiscrepancy) | AnimalPage.StatusBlockOf (AnimalPage.StatusBlockForKnownCodes) |
| animal.py:222 | after the left merge an unmatched episode has a NaN link; `x is not None` holds for NaN, so the cell is a Netflix icon linking to "nan" | an appearance whose (show, episode) is not in the episodes sheet | an empty "Watch now" cell when there is no link | not executed | AppearanceTable.WatchCellAsWritten (AppearanceTable.WatchCellDiscrepancy) | AppearanceTable.WatchCell (AppearanceTable.Table) |

=== FILE: aggregate.dfy ===
/**
 * First and last appearance of every species, and distinct-species counts
 * per group. The source sorts the rows by air date, latest first, and takes
 * the first and last row of each binomial-name group; rows with equal dates
 * may come out of that sort in any order, so the contracts below speak of
 * "a latest row" and "an earliest row" of a group. `groupby().first()`
 * takes the first non-missing value of each column separately: show,
 * episode and air date are never missing, but the appearance number may
 * be, and then it comes from a later row of the group in that order.
 */
module Aggregate {
  import opened Wrappers
  import opened Records
  import opened Dates
  import Normalize
  import Sorting
  import Seqs
  import Collation

  /** The binomial name of a sheet row. */
  function BinomialOf(row: Row): Option<string> {
    Normalize.Binomial(row.scientificName)
  }

  /** `sort_values("Air_date", ascending=False)`. */
  function LatestFirst(): (Row, Row) -> bool {
    (a: Row, b: Row) => OnOrBefore(b.airDate, a.airDate)
  }

  lemma LatestFirstIsTotalPreorder()
    ensures Sorting.TotalPreorder(LatestFirst())
  {
  }

  /**
   * The cells the aggregate merges back: show, episode, air date and, for
   * the latest appearance only, the appearance number ("# Times Featured");
   * the earliest-appearance merge does not carry a number.
   */
  datatype Sighting = Sighting(show: string, episode: string, date: Date, appearanceNumber: Option<int>)

  /** Row `x` supplies the show, episode and air date of `s`. */
  predicate Supplies(x: Row, s: Sighting) {
    x.show == s.show && x.episode == s.episode && x.airDate == s.date
  }

  /** No row of group `b` that has an appearance number aired after `x`. */
  ghost predicate NoLaterNumber(rows: seq<Row>, b: string, x: Row) {
    forall k :: 0 <= k < |rows| && BinomialOf(rows[k]) == Some(b) && rows[k].appearanceNumber.Some? ==>
      OnOrBefore(rows[k].airDate, x.airDate)
  }

  /**
   * `n` is the appearance number `groupby().first()` can give group `b`:
   * missing exactly when no row of the group has one, otherwise the number of
   * a row of the group that no numbered row of the group aired after.
   */
  ghost predicate IsLatestNumber(rows: seq<Row>, b: string, n: Option<int>) {
    && (n.None? <==> forall j :: 0 <= j < |rows| && BinomialOf(rows[j]) == Some(b) ==> rows[j].appearanceNumber.None?)
    && (n.Some? ==> exists j :: 0 <= j < |rows| && BinomialOf(rows[j]) == Some(b) && rows[j].appearanceNumber == n &&
                               NoLaterNumber(rows, b, rows[j]))
  }

  /**
   * `s` is the last appearance of group `b`: the show, episode and date of a
   * row of the group whose air date no row of the group exceeds, with the
   * group's latest appearance number.
   */
  ghost predicate IsLatestOfGroup(rows: seq<Row>, b: string, s: Sighting) {
    && (exists j :: 0 <= j < |rows| && BinomialOf(rows[j]) == Some(b) && Supplies(rows[j], s))
    && (forall j :: 0 <= j < |rows| && BinomialOf(rows[j]) == Some(b) ==> OnOrBefore(rows[j].airDate, s.date))
    && IsLatestNumber(rows, b, s.appearanceNumber)
  }

  /** `s` is the first appearance of group `b`: show, episode and date of a row no row of the group precedes. */
  ghost predicate IsEarliestOfGroup(rows: seq<Row>, b: string, s: Sighting) {
    && (exists j :: 0 <= j < |rows| && BinomialOf(rows[j]) == Some(b) && Supplies(rows[j], s))
    && (forall j :: 0 <= j < |rows| && BinomialOf(rows[j]) == Some(b) ==> OnOrBefore(s.date, rows[j].airDate))
    && s.appearanceNumber.None?
  }

  function InGroup(b: string): Row -> bool {
    (x: Row) => BinomialOf(x) == Some(b)
  }

  function NumberedInGroup(b: string): Row -> bool {
    (x: Row) => BinomialOf(x) == Some(b) && x.appearanceNumber.Some?
  }

  /** No row of `xs` that `keep` accepts aired after `x`. */
  ghost predicate LatestAmong(xs: seq<Row>, keep: Row -> bool, x: Row) {
    forall y :: y in xs && keep(y) ==> OnOrBefore(y.airDate, x.airDate)
  }

  /**
   * The first row of `sorted` that `keep` accepts; on rows sorted latest
   * first, no accepted row aired after it.
   */
  function LatestWhere(sorted: seq<Row>, keep: Row -> bool): (r: Option<Row>)
    requires Sorting.SortedBy(sorted, LatestFirst())
    ensures r.Some? <==> exists j :: 0 <= j < |sorted| && keep(sorted[j])
    ensures r.Some? ==> r.value in sorted && keep(r.value)
    ensures r.Some? ==> forall x :: x in sorted && keep(x) ==> OnOrBefore(x.airDate, r.value.airDate)
  {
    if |sorted| == 0 then None
    else if keep(sorted[0]) then
      assert forall x :: x in sorted[1..] ==> OnOrBefore(x.airDate, sorted[0].airDate);
      assert sorted == [sorted[0]] + sorted[1..];
      Some(sorted[0])
    else
      var r := LatestWhere(sorted[1..], keep);
      assert sorted == [sorted[0]] + sorted[1..];
      assert forall j :: 0 < j < |sorted| ==> sorted[j] == sorted[1..][j - 1];
      r
  }

  /**
   * `groupby("Binomial_name").first()` on rows sorted latest first: the first
   * row of group `b`, which carries the group's latest air date.
   */
  function LatestIn(sorted: seq<Row>, b: string): (r: Option<Row>)
    requires Sorting.SortedBy(sorted, LatestFirst())
    ensures r.Some? <==> exists j :: 0 <= j < |sorted| && BinomialOf(sorted[j]) == Some(b)
    ensures r.Some? ==> r.value in sorted && BinomialOf(r.value) == Some(b)
    ensures r.Some? ==> forall x :: x in sorted && BinomialOf(x) == Some(b) ==> OnOrBefore(x.airDate, r.value.airDate)
  {
    LatestWhere(sorted, InGroup(b))
  }

  /**
   * The "Appearance_number" cell of `groupby("Binomial_name").first()`: the
   * first number present among the rows of group `b` in latest-first order.
   */
  function LatestNumberIn(sorted: seq<Row>, b: string): (r: Option<int>)
    requires Sorting.SortedBy(sorted, LatestFirst())
    ensures r.None? <==> forall x :: x in sorted && BinomialOf(x) == Some(b) ==> x.appearanceNumber.None?
    ensures r.Some? ==> exists x :: x in sorted && NumberedInGroup(b)(x) && x.appearanceNumber == r && LatestAmong(sorted, NumberedInGroup(b), x)
  {
    var x := LatestWhere(sorted, NumberedInGroup(b));
    if x.Some? then x.value.appearanceNumber
    else
      assert forall y :: y in sorted && BinomialOf(y) == Some(b) ==> y.appearanceNumber.None? by {
        forall y | y in sorted && BinomialOf(y) == Some(b) ensures y.appearanceNumber.None? {
          var j :| 0 <= j < |sorted| && sorted[j] == y;
          assert !NumberedInGroup(b)(sorted[j]);
        }
      }
      None
  }

  /** `groupby("Binomial_name").last()` on rows sorted latest first: the last row of group `b`, the earliest. */
  function EarliestIn(sorted: seq<Row>, b: string): (r: Option<Row>)
    requires Sorting.SortedBy(sorted, LatestFirst())
    ensures r.Some? <==> exists j :: 0 <= j < |sorted| && BinomialOf(sorted[j]) == Some(b)
    ensures r.Some? ==> r.value in sorted && BinomialOf(r.value) == Some(b)
    ensures r.Some? ==> forall x :: x in sorted && BinomialOf(x) == Some(b) ==> OnOrBefore(r.value.airDate, x.airDate)
  {
    if |sorted| == 0 then None
    else
      var n := |sorted| - 1;
      var init := sorted[..n];
      assert sorted == init + [sorted[n]];
      if BinomialOf(sorted[n]) == Some(b) then
        assert forall x :: x in init ==> OnOrBefore(sorted[n].airDate, x.airDate);
        Some(sorted[n])
      else
        assert forall j :: 0 <= j < n ==> sorted[j] == init[j];
        EarliestIn(init, b)
  }

  /** A sheet row with its binomial name and the first/last appearance of that species merged in. */
  datatype Merged = Merged(
    row: Row,
    binomial: Option<string>,
    last: Option<Sighting>,   // "Last Appeared In", "... Episode", "... Date", "# Times Featured"
    first: Option<Sighting>   // "First Appeared In", "... Episode", "... Date"
  )

  function RowOfMerged(m: Merged): Row {
    m.row
  }

  /** The latest and earliest sighting of species `b`, missing when `b` is. */
  function SightingsOf(b: Option<string>, sorted: seq<Row>): (r: (Option<Sighting>, Option<Sighting>))
    requires Sorting.SortedBy(sorted, LatestFirst())
  {
    match b
    case None => (None, None)
    case Some(name) =>
      var latest := LatestIn(sorted, name);
      var earliest := EarliestIn(sorted, name);
      var number := LatestNumberIn(sorted, name);
      (if latest.Some? then Some(Sighting(latest.value.show, latest.value.episode, latest.value.airDate, number)) else None,
       if earliest.Some? then Some(Sighting(earliest.value.show, earliest.value.episode, earliest.value.airDate, None)) else None)
  }

  function MergeRow(row: Row, sorted: seq<Row>): (m: Merged)
    requires Sorting.SortedBy(sorted, LatestFirst())
  {
    var b := BinomialOf(row);
    var s := SightingsOf(b, sorted);
    Merged(row, b, s.0, s.1)
  }

  /**
   * The two left merges of the aggregate back onto the sheet: every row keeps
   * its place; a row with a binomial name gets the sighting of a latest and of
   * an earliest row of its species (the same ones for every row of the
   * species); a row without one gets missing cells.
   */
  function MergeAppearances(rows: seq<Row>, sorted: seq<Row>): (r: seq<Merged>)
    requires Sorting.SortOutcome(rows, sorted, LatestFirst())
    ensures |r| == |rows|
    ensures forall i :: 0 <= i < |r| ==> r[i].row == rows[i] && r[i].binomial == BinomialOf(rows[i])
    ensures forall i :: 0 <= i < |r| ==>
      (r[i].last.Some? <==> r[i].binomial.Some?) && (r[i].first.Some? <==> r[i].binomial.Some?)
    ensures forall i :: 0 <= i < |r| && r[i].binomial.Some? ==>
      IsLatestOfGroup(rows, r[i].binomial.value, r[i].last.value) &&
      IsEarliestOfGroup(rows, r[i].binomial.value, r[i].first.value)
    ensures forall i, j :: 0 <= i < |r| && 0 <= j < |r| && r[i].binomial == r[j].binomial ==>
      r[i].last == r[j].last && r[i].first == r[j].first
  {
    var r := Seqs.Map(rows, row => MergeRow(row, sorted));
    forall i | 0 <= i < |r| && r[i].binomial.Some?
      ensures r[i].last.Some? && IsLatestOfGroup(rows, r[i].binomial.value, r[i].last.value)
      ensures r[i].first.Some? && IsEarliestOfGroup(rows, r[i].binomial.value, r[i].first.value)
    {
      MergeRowSpec(rows, sorted, i);
    }
    r
  }

  lemma MergeRowSpec(rows: seq<Row>, sorted: seq<Row>, i: nat)
    requires Sorting.SortOutcome(rows, sorted, LatestFirst())
    requires i < |rows| && BinomialOf(rows[i]).Some?
    ensures MergeRow(rows[i], sorted).last.Some? && MergeRow(rows[i], sorted).first.Some?
    ensures IsLatestOfGroup(rows, BinomialOf(rows[i]).value, MergeRow(rows[i], sorted).last.value)
    ensures IsEarliestOfGroup(rows, BinomialOf(rows[i]).value, MergeRow(rows[i], sorted).first.value)
  {
    var b := BinomialOf(rows[i]).value;
    Sorting.SortKeepsRows(rows, sorted, LatestFirst());
    assert rows[i] in sorted;
    var k :| 0 <= k < |sorted| && sorted[k] == rows[i];
    var latest := LatestIn(sorted, b).value;
    var earliest := EarliestIn(sorted, b).value;
    assert latest in rows && earliest in rows;
    var jl :| 0 <= jl < |rows| && rows[jl] == latest;
    var je :| 0 <= je < |rows| && rows[je] == earliest;
    forall j | 0 <= j < |rows| && BinomialOf(rows[j]) == Some(b)
      ensures OnOrBefore(rows[j].airDate, latest.airDate) && OnOrBefore(earliest.airDate, rows[j].airDate)
    {
      assert rows[j] in sorted;
    }
    LatestNumberOfRows(rows, sorted, b);
  }

  /** The number taken from the sorted rows is a latest number of the group in the sheet rows. */
  lemma LatestNumberOfRows(rows: seq<Row>, sorted: seq<Row>, b: string)
    requires Sorting.SortOutcome(rows, sorted, LatestFirst())
    ensures IsLatestNumber(rows, b, LatestNumberIn(sorted, b))
  {
    Sorting.SortKeepsRows(rows, sorted, LatestFirst());
    var n := LatestNumberIn(sorted, b);
    if n.None? {
      forall j | 0 <= j < |rows| && BinomialOf(rows[j]) == Some(b) ensures rows[j].appearanceNumber.None? {
        assert rows[j] in sorted;
      }
    } else {
      var x :| x in sorted && NumberedInGroup(b)(x) && x.appearanceNumber == n && LatestAmong(sorted, NumberedInGroup(b), x);
      assert x in rows;
      var j :| 0 <= j < |rows| && rows[j] == x;
      forall k | 0 <= k < |rows| && BinomialOf(rows[k]) == Some(b) && rows[k].appearanceNumber.Some?
        ensures OnOrBefore(rows[k].airDate, x.airDate)
      {
        assert rows[k] in sorted;
      }
      assert NoLaterNumber(rows, b, rows[j]);
      assert !(forall j :: 0 <= j < |rows| && BinomialOf(rows[j]) == Some(b) ==> rows[j].appearanceNumber.None?);
    }
  }

  /** However the sort breaks ties, the latest and earliest dates of a species are fixed. */
  lemma GroupDatesDetermined(rows: seq<Row>, b: string, s1: Sighting, s2: Sighting, e1: Sighting, e2: Sighting)
    requires IsLatestOfGroup(rows, b, s1) && IsLatestOfGroup(rows, b, s2)
    requires IsEarliestOfGroup(rows, b, e1) && IsEarliestOfGroup(rows, b, e2)
    ensures s1.date == s2.date && e1.date == e2.date
  {
    var j1 :| 0 <= j1 < |rows| && BinomialOf(rows[j1]) == Some(b) && Supplies(rows[j1], s1);
    var j2 :| 0 <= j2 < |rows| && BinomialOf(rows[j2]) == Some(b) && Supplies(rows[j2], s2);
    var k1 :| 0 <= k1 < |rows| && BinomialOf(rows[k1]) == Some(b) && Supplies(rows[k1], e1);
    var k2 :| 0 <= k2 < |rows| && BinomialOf(rows[k2]) == Some(b) && Supplies(rows[k2], e2);
    OnOrBeforeAntisymmetric(s1.date, s2.date);
    OnOrBeforeAntisymmetric(e1.date, e2.date);
  }

  /**
   * The species of rows in group `g`: the distinct present values of
   * `species` among rows whose `key` is `g` (`groupby(key)[species].nunique()`).
   */
  function SpeciesIn<T>(rows: seq<T>, key: T -> Option<string>, species: T -> Option<string>, g: string): (r: set<string>)
    ensures forall b :: b in r <==> exists i :: 0 <= i < |rows| && key(rows[i]) == Some(g) && species(rows[i]) == Some(b)
  {
    if |rows| == 0 then {}
    else
      var rest := SpeciesIn(rows[1..], key, species, g);
      assert forall i :: 0 < i < |rows| ==> rows[i] == rows[1..][i - 1];
      if key(rows[0]) == Some(g) && species(rows[0]).Some? then {species(rows[0]).value} + rest else rest
  }

  /** Each group paired with its number of distinct species. */
  function CountsFor<T>(groups: seq<string>, rows: seq<T>, key: T -> Option<string>, species: T -> Option<string>): (r: seq<(string, nat)>)
    ensures |r| == |groups|
    ensures forall i :: 0 <= i < |r| ==> r[i].0 == groups[i] && r[i].1 == |SpeciesIn(rows, key, species, groups[i])|
  {
    if |groups| == 0 then []
    else [(groups[0], |SpeciesIn(rows, key, species, groups[0])|)] + CountsFor(groups[1..], rows, key, species)
  }

  /** A permutation of the counts holds group `g` exactly when some row has key `g`. */
  lemma PermutedGroupKey<T>(rows: seq<T>, key: T -> Option<string>, species: T -> Option<string>,
                            sorted: seq<(string, nat)>, g: string)
    requires multiset(sorted) == multiset(GroupCounts(rows, key, species))
    ensures (exists i :: 0 <= i < |sorted| && sorted[i].0 == g) <==> exists k :: 0 <= k < |rows| && key(rows[k]) == Some(g)
  {
    PermutedFirsts(sorted, GroupCounts(rows, key, species), g);
  }

  /** Two pair lists that are permutations of each other have the same first components. */
  lemma PermutedFirsts<U>(sorted: seq<(string, U)>, counts: seq<(string, U)>, g: string)
    requires multiset(sorted) == multiset(counts)
    ensures (exists i :: 0 <= i < |sorted| && sorted[i].0 == g) <==> exists k :: 0 <= k < |counts| && counts[k].0 == g
  {
    if exists i :: 0 <= i < |sorted| && sorted[i].0 == g {
      var i :| 0 <= i < |sorted| && sorted[i].0 == g;
      assert sorted[i] in multiset(counts);
      var k :| 0 <= k < |counts| && counts[k] == sorted[i];
    }
    if exists k :: 0 <= k < |counts| && counts[k].0 == g {
      var k :| 0 <= k < |counts| && counts[k].0 == g;
      assert counts[k] in multiset(sorted);
      var i :| 0 <= i < |sorted| && sorted[i] == counts[k];
    }
  }

  /**
   * `groupby(key).agg({species: "nunique"})`: one entry per present key value,
   * in ascending key order, with the number of distinct species of its rows.
   */
  function GroupCounts<T>(rows: seq<T>, key: T -> Option<string>, species: T -> Option<string>): (r: seq<(string, nat)>)
    ensures forall i, j :: 0 <= i < j < |r| ==> Collation.Less(r[i].0, r[j].0)
    ensures forall g :: (exists i :: 0 <= i < |r| && r[i].0 == g) <==> exists k :: 0 <= k < |rows| && key(rows[k]) == Some(g)
    ensures forall i :: 0 <= i < |r| ==> r[i].1 == |SpeciesIn(rows, key, species, r[i].0)|
  {
    var keys := Seqs.Map(rows, key);
    var groups := Collation.OptionList(keys);
    var r := CountsFor(groups, rows, key, species);
    forall g ensures (exists i :: 0 <= i < |r| && r[i].0 == g) <==> exists k :: 0 <= k < |rows| && key(rows[k]) == Some(g) {
      Seqs.MapMembership(rows, key, Some(g));
      if g in groups {
        var i :| 0 <= i < |groups| && groups[i] == g;
        assert r[i].0 == g;
      }
    }
    r
  }
}

=== FILE: animal_page.dfy ===
/**
 * The species page: one animal chosen from the normalised rows, its header
 * (binomial name, status badge, "Updated" date), the image gallery and the
 * map points. The table of appearances is in `AppearanceTable`.
 */
module AnimalPage {
  import opened Wrappers
  import opened Records
  import opened Dates
  import opened Normalize
  import Seqs
  import Sorting
  import Collation
  import Status
  import Text
  import Countries

  /** The "Choose animal" options: the sorted distinct animal names present in the rows. */
  function AnimalOptions(data: seq<Appearance>): (r: seq<string>)
    ensures Collation.StrictlyAscending(r)
    ensures forall v :: v in r <==> exists k :: 0 <= k < |data| && AnimalOf(data[k]) == Some(v)
  {
    forall v ensures Some(v) in Seqs.Map(data, AnimalOf) <==> exists k :: 0 <= k < |data| && AnimalOf(data[k]) == Some(v) {
      Seqs.MapMembership(data, AnimalOf, Some(v));
    }
    Collation.OptionList(Seqs.Map(data, AnimalOf))
  }

  function IsAnimal(animal: string): Appearance -> bool {
    (a: Appearance) => AnimalOf(a) == Some(animal)
  }

  /** `sort_values(by=["Air date"])`: earliest first. */
  function EarliestFirst(): (Appearance, Appearance) -> bool {
    (a: Appearance, b: Appearance) => OnOrBefore(a.row.airDate, b.row.airDate)
  }

  lemma EarliestFirstIsTotalPreorder()
    ensures Sorting.TotalPreorder(EarliestFirst())
  {
  }

  /**
   * `raw_data.loc[raw_data["Animal"] == selection].sort_values(by=["Air date"])`:
   * the rows of the chosen animal, earliest air date first; rows aired on
   * the same date may come in any order.
   */
  function SelectAnimal(data: seq<Appearance>, animal: string): (r: seq<Appearance>)
    ensures Sorting.SortOutcome(Seqs.Filter(data, IsAnimal(animal)), r, EarliestFirst())
    ensures forall a :: a in r <==> a in data && AnimalOf(a) == Some(animal)
    ensures forall i, j :: 0 <= i < j < |r| ==> OnOrBefore(r[i].row.airDate, r[j].row.airDate)
  {
    var chosen := Seqs.Filter(data, IsAnimal(animal));
    EarliestFirstIsTotalPreorder();
    var r := Sorting.Sort(chosen, EarliestFirst());
    Sorting.SortKeepsRows(chosen, r, EarliestFirst());
    r
  }

  /** An animal the selectbox offers always has rows, so the page never starts from an empty selection. */
  lemma OfferedAnimalHasRows(data: seq<Appearance>, animal: string)
    requires animal in AnimalOptions(data)
    ensures |SelectAnimal(data, animal)| > 0
  {
    var k :| 0 <= k < |data| && AnimalOf(data[k]) == Some(animal);
    assert data[k] in SelectAnimal(data, animal);
  }

  /** The header cells: binomial name, species status label and species status code. */
  datatype Header = Header(binomial: Option<string>, statusLabel: Option<string>, statusCode: Option<string>)

  function HeaderFields(a: Appearance): Header {
    Header(a.binomial, a.speciesStatus, a.row.speciesStatusOriginal)
  }

  /**
   * The `.iloc[0]` cells of the sorted selection: those of an earliest-aired
   * row; an empty selection has no header (`iloc[0]` raises there).
   */
  function HeaderOf(selected: seq<Appearance>): (r: Option<Header>)
    requires Sorting.SortedBy(selected, EarliestFirst())
    ensures r.Some? <==> |selected| > 0
    ensures r.Some? ==> exists k :: 0 <= k < |selected| && r.value == HeaderFields(selected[k]) &&
                                    forall j :: 0 <= j < |selected| ==> OnOrBefore(selected[k].row.airDate, selected[j].row.airDate)
  {
    if |selected| == 0 then None
    else
      assert forall j :: 0 < j < |selected| ==> EarliestFirst()(selected[0], selected[j]);
      Some(HeaderFields(selected[0]))
  }

  /** The block under the title: binomial name and status badge, or nothing. */
  datatype StatusBlock = NoBlock | Block(binomial: Option<string>, badge: string, code: Option<string>)

  /**
   * The block as written: the label column comes from `Series.map` over a
   * dict, which yields NaN (not None) for a missing or unknown code, so the
   * `is not None` guard always passes and the badge then reads "nan".
   */
  function StatusBlockAsWritten(h: Header): (b: StatusBlock)
    ensures b.Block?
    ensures h.statusLabel.Some? ==> b == Block(h.binomial, h.statusLabel.value, h.statusCode)
    ensures h.statusLabel.None? ==> b == Block(h.binomial, "nan", h.statusCode)
  {
    Block(h.binomial, h.statusLabel.GetOr("nan"), h.statusCode)
  }

  /** The block as intended: shown with the label exactly when the species has a status label. */
  function StatusBlockOf(h: Header): (b: StatusBlock)
    ensures b.Block? <==> h.statusLabel.Some?
    ensures b.Block? ==> b.badge == h.statusLabel.value && b.binomial == h.binomial && b.code == h.statusCode
  {
    match h.statusLabel
    case None => NoBlock
    case Some(text) => Block(h.binomial, text, h.statusCode)
  }

  /** The two agree whenever a label is present; without one the written block shows "nan" where none was meant. */
  lemma StatusBlockDiscrepancy(h: Header)
    ensures h.statusLabel.Some? ==> StatusBlockAsWritten(h) == StatusBlockOf(h)
    ensures h.statusLabel.None? ==> StatusBlockAsWritten(h).badge == "nan" && StatusBlockOf(h) == NoBlock
  {
  }

  /** For a normalised row, the block is shown exactly when its species status code is one of the nine. */
  lemma StatusBlockForKnownCodes(a: Appearance, countries: seq<Countries.IsoCountry>)
    requires Countries.ValidTable(countries)
    requires a == NormalizeRow(a.row, countries)
    ensures StatusBlockOf(HeaderFields(a)).Block? <==> a.row.speciesStatusOriginal.Some? && a.row.speciesStatusOriginal.value in Status.Order
    ensures StatusBlockAsWritten(HeaderFields(a)).badge == "nan" <== a.row.speciesStatusOriginal.None?
  {
  }

  function LockDateOf(a: Appearance): Option<Date> {
    a.row.speciesLockDate
  }

  /** `Series.sort_values()` on dates: ascending, missing dates (NaT) last. */
  function LockOrder(): (Option<Date>, Option<Date>) -> bool {
    (a: Option<Date>, b: Option<Date>) => b.None? || (a.Some? && OnOrBefore(a.value, b.value))
  }

  lemma LockOrderIsTotalPreorder()
    ensures Sorting.TotalPreorder(LockOrder())
  {
  }

  /**
   * `animal_data["Species lock date"].sort_values().iloc[-1]` as written: the
   * last of the lock dates sorted ascending with NaT last. It is NaT as soon
   * as one row lacks a lock date, and the page's `strftime` then fails;
   * otherwise it is the latest lock date.
   */
  function LastUpdatedAsWritten(selected: seq<Appearance>): (r: Option<Date>)
    requires |selected| > 0
    ensures r.None? <==> exists k :: 0 <= k < |selected| && LockDateOf(selected[k]).None?
    ensures r.Some? ==> exists k :: 0 <= k < |selected| && LockDateOf(selected[k]) == r
    ensures r.Some? ==> forall k :: 0 <= k < |selected| ==> LockDateOf(selected[k]).Some? && OnOrBefore(LockDateOf(selected[k]).value, r.value)
  {
    var dates := Seqs.Map(selected, LockDateOf);
    LockOrderIsTotalPreorder();
    var sorted := Sorting.Sort(dates, LockOrder());
    LastOfSorted(selected, dates, sorted);
    sorted[|sorted| - 1]
  }

  lemma LastOfSorted(selected: seq<Appearance>, dates: seq<Option<Date>>, sorted: seq<Option<Date>>)
    requires |selected| > 0
    requires dates == Seqs.Map(selected, LockDateOf)
    requires Sorting.SortOutcome(dates, sorted, LockOrder())
    ensures |sorted| == |selected|
    ensures var r := sorted[|sorted| - 1];
      && (r.None? <==> exists k :: 0 <= k < |selected| && LockDateOf(selected[k]).None?)
      && (r.Some? ==> exists k :: 0 <= k < |selected| && LockDateOf(selected[k]) == r)
      && (r.Some? ==> forall k :: 0 <= k < |selected| ==> LockDateOf(selected[k]).Some? && OnOrBefore(LockDateOf(selected[k]).value, r.value))
  {
    Sorting.SortKeepsRows(dates, sorted, LockOrder());
    var n := |sorted| - 1;
    forall k | 0 <= k < |selected| ensures LockOrder()(dates[k], sorted[n]) {
      assert dates[k] in sorted;
      LockOrderIsTotalPreorder();
      Sorting.UpToLast(sorted, LockOrder(), dates[k]);
    }
    assert sorted[n] in dates;
  }

  /** The latest of two lock cells, a missing one counting as nothing. */
  function Later(a: Option<Date>, b: Option<Date>): Option<Date> {
    if a.None? then b
    else if b.None? then a
    else if OnOrBefore(a.value, b.value) then b else a
  }

  /**
   * The "Updated" date as intended: the latest lock date among the rows that
   * have one, missing only when no row has one.
   */
  function LastUpdated(selected: seq<Appearance>): (r: Option<Date>)
    ensures r.Some? <==> exists k :: 0 <= k < |selected| && LockDateOf(selected[k]).Some?
    ensures r.Some? ==> exists k :: 0 <= k < |selected| && LockDateOf(selected[k]) == r
    ensures r.Some? ==> forall k :: 0 <= k < |selected| && LockDateOf(selected[k]).Some? ==> OnOrBefore(LockDateOf(selected[k]).value, r.value)
  {
    if |selected| == 0 then None
    else
      var rest := LastUpdated(selected[1..]);
      var r := Later(LockDateOf(selected[0]), rest);
      assert forall k :: 1 <= k < |selected| ==> selected[k] == selected[1..][k - 1];
      r
  }

  /** With every lock date present, the written "Updated" date is the intended one. */
  lemma LastUpdatedAgrees(selected: seq<Appearance>)
    requires |selected| > 0
    requires forall k :: 0 <= k < |selected| ==> LockDateOf(selected[k]).Some?
    ensures LastUpdatedAsWritten(selected) == LastUpdated(selected)
  {
    var w := LastUpdatedAsWritten(selected);
    var c := LastUpdated(selected);
    assert LockDateOf(selected[0]).Some?;
    var i :| 0 <= i < |selected| && LockDateOf(selected[i]) == w;
    var j :| 0 <= j < |selected| && LockDateOf(selected[j]) == c;
    OnOrBeforeAntisymmetric(w.value, c.value);
  }

  /** One row without a lock date makes the written "Updated" date NaT, though other rows have dates. */
  lemma LastUpdatedLosesDate(selected: seq<Appearance>, k: nat, j: nat)
    requires k < |selected| && LockDateOf(selected[k]).None?
    requires j < |selected| && LockDateOf(selected[j]).Some?
    ensures LastUpdatedAsWritten(selected).None?
    ensures LastUpdated(selected).Some?
  {
  }

  /**
   * A row as this page holds it: the page loads a fixed list of columns
   * that leaves out "IUCN_status", so that cell is never part of a row here.
   */
  function Loaded(a: Appearance): (r: Appearance)
    ensures r.row.iucnStatus.None?
    ensures r.row.airDate == a.row.airDate
    ensures r.(row := r.row.(iucnStatus := a.row.iucnStatus)) == a
  {
    a.(row := a.row.(iucnStatus := None))
  }

  /**
   * `animal_data.drop_duplicates()`: the selected rows, as the page loads
   * them, with repeats dropped and the first occurrence of each kept in
   * place; two rows that differ only in a column the page does not load
   * give one line. A selection sorted earliest first stays sorted. The reset
   * index is never read again.
   */
  function Listing(selected: seq<Appearance>): (r: seq<Appearance>)
    ensures Seqs.Distinct(r)
    ensures forall a :: a in r <==> exists k :: 0 <= k < |selected| && Loaded(selected[k]) == a
    ensures forall i :: 0 <= i < |r| ==> r[i].row.iucnStatus.None?
    ensures Sorting.SortedBy(selected, EarliestFirst()) ==> Sorting.SortedBy(r, EarliestFirst())
  {
    var loaded := Seqs.Map(selected, Loaded);
    var r := Seqs.Dedupe(loaded);
    forall a ensures a in r <==> exists k :: 0 <= k < |selected| && Loaded(selected[k]) == a {
      Seqs.MapMembership(selected, Loaded, a);
    }
    assert forall i :: 0 <= i < |r| ==> r[i].row.iucnStatus.None? by {
      forall i | 0 <= i < |r| ensures r[i].row.iucnStatus.None? {
        assert r[i] in loaded;
      }
    }
    if Sorting.SortedBy(selected, EarliestFirst()) then
      assert Sorting.SortedBy(r, EarliestFirst()) by {
        forall i, j | 0 <= i < j < |r| ensures EarliestFirst()(r[i], r[j]) {
          var a := Seqs.FirstIndex(loaded, r[i]);
          var b := Seqs.FirstIndex(loaded, r[j]);
          assert EarliestFirst()(selected[a], selected[b]);
        }
      }
      r
    else r
  }

  /** The gallery images are served from this root. */
  const GalleryRoot: string := "https://ulluri.com/wildlifeonscreen/"

  /** `[v for v in [Image 1, Image 2, Image 3] if v is not None]`. */
  function ImageCandidates(row: Row): (r: seq<string>)
    ensures forall x :: x in r <==> Some(x) == row.image1 || Some(x) == row.image2 || Some(x) == row.image3
    ensures row.image1.Some? ==> |r| > 0 && r[0] == row.image1.value
  {
    (if row.image1.Some? then [row.image1.value] else []) +
    (if row.image2.Some? then [row.image2.value] else []) +
    (if row.image3.Some? then [row.image3.value] else [])
  }

  /**
   * The image URL: spaces in show, episode and formatted air date become
   * `%20` (the image name is used as it is).
   */
  function ImagePath(show: string, episode: string, airDate: string, image: string): (p: string)
    ensures |p| >= |GalleryRoot| + |image| + 6
    ensures p[..|GalleryRoot|] == GalleryRoot
    ensures p[|p| - |image| - 6..] == "/" + image + ".webp"
    ensures '%' !in show && '%' !in episode && '%' !in airDate ==>
      Text.DecodeSpaces(p[|GalleryRoot|..|p| - |image| - 6]) == show + "/" + episode + " - " + airDate
    ensures ' ' !in image ==> ' ' !in p
  {
    var folder := Folder(show, episode, airDate);
    var suffix := "/" + image + ".webp";
    Seqs.Framed(GalleryRoot, folder, suffix);
    assert '%' !in show && '%' !in episode && '%' !in airDate ==>
      Text.DecodeSpaces(folder) == show + "/" + episode + " - " + airDate by {
      if '%' !in show && '%' !in episode && '%' !in airDate {
        FolderDecodes(show, episode, airDate);
      }
    }
    assert ' ' !in image ==> ' ' !in suffix by {
      assert forall k :: 0 <= k < |".webp"| ==> ".webp"[k] != ' ';
    }
    assert forall k :: 0 <= k < |GalleryRoot| ==> GalleryRoot[k] != ' ';
    GalleryRoot + folder + suffix
  }

  /** `{show}/{episode}%20-%20{date}` with the spaces of each part encoded. */
  function Folder(show: string, episode: string, airDate: string): (f: string)
    ensures ' ' !in f
  {
    assert forall k :: 0 <= k < |"%20-%20"| ==> "%20-%20"[k] != ' ';
    Text.EncodeSpaces(show) + "/" + Text.EncodeSpaces(episode) + "%20-%20" + Text.EncodeSpaces(airDate)
  }

  /** The encoded folder decodes back to "show/episode - date". */
  lemma FolderDecodes(show: string, episode: string, airDate: string)
    requires '%' !in show && '%' !in episode && '%' !in airDate
    ensures Text.DecodeSpaces(Folder(show, episode, airDate)) == show + "/" + episode + " - " + airDate
  {
    var mid := "/" + (Text.EncodeSpaces(episode) + ("%20-%20" + Text.EncodeSpaces(airDate)));
    EpisodeTailDecodes(episode, airDate);
    Text.DecodeEncodeThen(show, mid);
    Seqs.Associate(Text.EncodeSpaces(show), "/", Text.EncodeSpaces(episode), "%20-%20", Text.EncodeSpaces(airDate));
    Seqs.Associate(show, "/", episode, " - ", airDate);
  }

  /** The encoded "/episode - date" part of the folder decodes back. */
  lemma EpisodeTailDecodes(episode: string, airDate: string)
    requires '%' !in episode && '%' !in airDate
    ensures Text.DecodeSpaces("/" + (Text.EncodeSpaces(episode) + ("%20-%20" + Text.EncodeSpaces(airDate))))
         == "/" + (episode + (" - " + airDate))
  {
    var tail := "%20-%20" + Text.EncodeSpaces(airDate);
    DateTailDecodes(airDate);
    Text.DecodeEncodeThen(episode, tail);
    Text.DecodeCharThen('/', Text.EncodeSpaces(episode) + tail);
  }

  /** The encoded " - date" tail of the folder decodes back. */
  lemma DateTailDecodes(airDate: string)
    requires '%' !in airDate
    ensures Text.DecodeSpaces("%20-%20" + Text.EncodeSpaces(airDate)) == " - " + airDate
  {
    var d := Text.EncodeSpaces(airDate);
    Text.DecodeEncode(airDate);
    Text.DecodeSeparatorThen(d);
  }

  /** One gallery image: show, episode, air year and URL. */
  datatype GalleryEntry = GalleryEntry(show: string, episode: string, year: int, path: string)

  predicate HasImage(a: Appearance) {
    a.row.image1.Some?
  }

  function HasImageMask(): Appearance -> bool {
    (a: Appearance) => HasImage(a)
  }

  /**
   * The entry of one row. `random.choice` is modelled by `pick`, an
   * arbitrary choice of position among the candidates; `formatDate` stands
   * for `strftime("%-d %b %Y")`.
   */
  function EntryOf(a: Appearance, formatDate: Date -> string, pick: seq<string> -> nat): (e: GalleryEntry)
    requires HasImage(a)
    ensures e.show == a.row.show && e.episode == a.row.episode && e.year == a.row.airDate.year
    ensures exists image :: image in ImageCandidates(a.row) &&
                            e.path == ImagePath(a.row.show, a.row.episode, formatDate(a.row.airDate), image)
  {
    var candidates := ImageCandidates(a.row);
    var image := candidates[pick(candidates) % |candidates|];
    GalleryEntry(a.row.show, a.row.episode, a.row.airDate.year, ImagePath(a.row.show, a.row.episode, formatDate(a.row.airDate), image))
  }

  function EntriesOf(rows: seq<Appearance>, formatDate: Date -> string, pick: seq<string> -> nat): (r: seq<GalleryEntry>)
    requires forall i :: 0 <= i < |rows| ==> HasImage(rows[i])
    ensures |r| == |rows|
    ensures forall i :: 0 <= i < |rows| ==> r[i] == EntryOf(rows[i], formatDate, pick)
  {
    if |rows| == 0 then [] else [EntryOf(rows[0], formatDate, pick)] + EntriesOf(rows[1..], formatDate, pick)
  }

  /**
   * The image gallery: one entry per listed row whose "Image 1" is present,
   * in the listing's order, each pointing at one of that row's images.
   */
  function Gallery(rows: seq<Appearance>, formatDate: Date -> string, pick: seq<string> -> nat): (r: seq<GalleryEntry>)
    ensures |r| == |Seqs.Filter(rows, HasImageMask())|
    ensures forall i :: 0 <= i < |r| ==> Seqs.Filter(rows, HasImageMask())[i] in rows
    ensures forall i :: 0 <= i < |r| ==>
      var a := Seqs.Filter(rows, HasImageMask())[i];
      a.row.image1.Some? && r[i].show == a.row.show && r[i].episode == a.row.episode && r[i].year == a.row.airDate.year &&
      exists image :: image in ImageCandidates(a.row) && r[i].path == ImagePath(a.row.show, a.row.episode, formatDate(a.row.airDate), image)
  {
    var withImage := Seqs.Filter(rows, HasImageMask());
    assert forall i :: 0 <= i < |withImage| ==> withImage[i] in withImage;
    EntriesOf(withImage, formatDate, pick)
  }

  predicate Located(a: Appearance) {
    a.row.lat.Some? && a.row.lon.Some?
  }

  function LocatedMask(): Appearance -> bool {
    (a: Appearance) => Located(a)
  }

  /** The map points: the listed rows with both a latitude and a longitude, in order. */
  function Points(rows: seq<Appearance>): (r: seq<Appearance>)
    ensures Seqs.IsSubsequence(r, rows)
    ensures forall a :: a in r <==> a in rows && a.row.lat.Some? && a.row.lon.Some?
  {
    Seqs.Filter(rows, LocatedMask())
  }

  /** The distinct "Animal subspecies" cells, a missing cell counting as one value (as `unique()` does). */
  function SubspeciesCells(rows: seq<Appearance>): set<Option<string>> {
    set a | a in rows :: a.row.animalName
  }

  /** `len(table_data["Animal subspecies"].unique()) > 1`: two rows differ in their subspecies cell. */
  function ShowsSubspecies(rows: seq<Appearance>): (b: bool)
    ensures b <==> exists i, j :: 0 <= i < |rows| && 0 <= j < |rows| && rows[i].row.animalName != rows[j].row.animalName
  {
    SubspeciesCount(rows);
    |SubspeciesCells(rows)| > 1
  }

  lemma SubspeciesCount(rows: seq<Appearance>)
    ensures |SubspeciesCells(rows)| > 1 <==> exists i, j :: 0 <= i < |rows| && 0 <= j < |rows| && rows[i].row.animalName != rows[j].row.animalName
  {
    var cells := SubspeciesCells(rows);
    if exists i, j :: 0 <= i < |rows| && 0 <= j < |rows| && rows[i].row.animalName != rows[j].row.animalName {
      var i, j :| 0 <= i < |rows| && 0 <= j < |rows| && rows[i].row.animalName != rows[j].row.animalName;
      assert rows[i] in rows && rows[j] in rows;
      var pair := {rows[i].row.animalName, rows[j].row.animalName};
      assert pair <= cells;
      assert |pair| == 2;
      Seqs.SubsetCardinality(pair, cells);
    } else if |rows| > 0 {
      assert forall x :: x in cells ==> x == rows[0].row.animalName;
      assert rows[0] in rows;
      assert cells == {rows[0].row.animalName};
    } else {
      assert cells == {};
    }
  }
}

=== FILE: appearance_table.dfy ===
/**
 * The species page's "List of Appearances": the listed rows of the chosen
 * animal joined to the episodes sheet for their streaming link, sorted by
 * the header the reader picks, projected to the shown headers and
 * deduplicated.
 */
module AppearanceTable {
  import opened Wrappers
  import opened Records
  import opened Dates
  import opened Normalize
  import Seqs
  import Sorting
  import Collation
  import Status
  import Text
  import AnimalPage

  /** One row of the episodes sheet: show, episode and its "Streaming_link" (None when the cell is blank). */
  datatype EpisodeLink = EpisodeLink(show: string, episode: string, link: Option<string>)

  /** The "Streaming_link" cell after the left merge: NaN when no episode row matched, None when blank, or a URL. */
  datatype LinkCell = NoMatch | Blank | Url(url: string)

  /** A listed row joined to one matching episode row, or to none. */
  datatype Joined = Joined(a: Appearance, link: LinkCell)

  predicate SameEpisode(a: Appearance, e: EpisodeLink) {
    e.show == a.row.show && e.episode == a.row.episode
  }

  function LinkCellOf(link: Option<string>): LinkCell {
    match link
    case None => Blank
    case Some(u) => Url(u)
  }

  /** `j` is a line the left merge may produce for its row. */
  ghost predicate Joins(episodes: seq<EpisodeLink>, j: Joined) {
    || (j.link == NoMatch && forall e :: e in episodes ==> !SameEpisode(j.a, e))
    || (exists e :: e in episodes && SameEpisode(j.a, e) && j.link == LinkCellOf(e.link))
  }

  function JoinWith(a: Appearance, matches: seq<EpisodeLink>): (r: seq<Joined>)
    ensures |r| == |matches|
    ensures forall k :: 0 <= k < |r| ==> r[k] == Joined(a, LinkCellOf(matches[k].link))
  {
    if |matches| == 0 then [] else [Joined(a, LinkCellOf(matches[0].link))] + JoinWith(a, matches[1..])
  }

  function MatchMask(a: Appearance): EpisodeLink -> bool {
    (e: EpisodeLink) => SameEpisode(a, e)
  }

  /** The lines of one row: one per matching episode row, in sheet order, or a single unmatched line. */
  function JoinRow(a: Appearance, episodes: seq<EpisodeLink>): (r: seq<Joined>)
    ensures |r| >= 1
    ensures forall j :: j in r <==> j.a == a && Joins(episodes, j)
  {
    var matches := Seqs.Filter(episodes, MatchMask(a));
    if |matches| == 0 then
      assert forall e :: e in episodes ==> !SameEpisode(a, e) by {
        forall e | e in episodes ensures !SameEpisode(a, e) {
          assert MatchMask(a)(e) ==> e in matches;
        }
      }
      [Joined(a, NoMatch)]
    else
      var r := JoinWith(a, matches);
      assert forall j :: j in r <==> j.a == a && Joins(episodes, j) by {
        forall j ensures j in r <==> j.a == a && Joins(episodes, j) {
          if j in r {
            var k :| 0 <= k < |r| && r[k] == j;
            assert matches[k] in matches;
          }
          if j.a == a && Joins(episodes, j) {
            assert j.link != NoMatch by {
              assert matches[0] in episodes && SameEpisode(a, matches[0]);
            }
            var e :| e in episodes && SameEpisode(j.a, e) && j.link == LinkCellOf(e.link);
            assert e in matches;
            var k :| 0 <= k < |matches| && matches[k] == e;
            assert r[k] == j;
          }
        }
      }
      r
  }

  /** A row is repeated once per matching episode row, and kept once when none matches. */
  lemma JoinRowCount(a: Appearance, episodes: seq<EpisodeLink>)
    ensures |JoinRow(a, episodes)| == if |Seqs.Filter(episodes, MatchMask(a))| == 0 then 1 else |Seqs.Filter(episodes, MatchMask(a))|
  {
  }

  /**
   * `table_data.merge(df_episodes, on=["Show", "Episode"], how="left")`:
   * every row is kept, repeated once per matching episode row, and carries
   * a missing link when no episode row matches.
   */
  function LeftMerge(rows: seq<Appearance>, episodes: seq<EpisodeLink>): (r: seq<Joined>)
    ensures |r| >= |rows|
    ensures forall j :: j in r <==> j.a in rows && Joins(episodes, j)
  {
    if |rows| == 0 then []
    else
      var head := JoinRow(rows[0], episodes);
      var rest := LeftMerge(rows[1..], episodes);
      MergedMembers(rows, episodes, head, rest);
      head + rest
  }

  /** The lines of the first row followed by the lines of the others are the lines of all rows. */
  lemma MergedMembers(rows: seq<Appearance>, episodes: seq<EpisodeLink>, head: seq<Joined>, rest: seq<Joined>)
    requires |rows| > 0
    requires forall j :: j in head <==> j.a == rows[0] && Joins(episodes, j)
    requires forall j :: j in rest <==> j.a in rows[1..] && Joins(episodes, j)
    ensures forall j :: j in head + rest <==> j.a in rows && Joins(episodes, j)
  {
    forall j ensures j in head + rest <==> j.a in rows && Joins(episodes, j) {
      assert j.a in rows <==> j.a == rows[0] || j.a in rows[1..] by {
        assert rows == [rows[0]] + rows[1..];
      }
    }
  }

  /** The merge loses no row: each listed row has at least one line. */
  lemma {:induction false} MergeKeepsEveryRow(rows: seq<Appearance>, episodes: seq<EpisodeLink>, a: Appearance)
    requires a in rows
    ensures exists j :: j in LeftMerge(rows, episodes) && j.a == a
  {
    if forall e :: e in episodes ==> !SameEpisode(a, e) {
      assert Joined(a, NoMatch) in LeftMerge(rows, episodes);
    } else {
      var e :| e in episodes && SameEpisode(a, e);
      assert Joined(a, LinkCellOf(e.link)) in LeftMerge(rows, episodes);
    }
  }

  const BbcIcon: string := "https://iplayer-web.files.bbci.co.uk/page-builder/51.0.0/img/icons/favicon.ico"
  const NetflixIcon: string := "https://assets.nflxext.com/ffe/siteui/common/icons/nficon2016.ico"

  /** The link with a service icon. */
  function Anchor(href: string, icon: string): (s: string)
    ensures |s| > 0
  {
    "<a href='" + href + "'><img src=" + icon + " width='15px'></a>"
  }

  /** The BBC icon for a URL containing "bbc", the Netflix icon otherwise. */
  function IconFor(url: string): (icon: string)
    ensures icon == BbcIcon <==> Text.Contains(url, "bbc")
    ensures icon == BbcIcon || icon == NetflixIcon
  {
    if Text.Contains(url, "bbc") then BbcIcon else NetflixIcon
  }

  /**
   * The "Watch now" cell as written: the guard `x is not None` lets the NaN
   * of an unmatched episode through, so such a row gets a Netflix link to
   * "nan"; a blank link gives an empty cell.
   */
  function WatchCellAsWritten(link: LinkCell): (c: string)
    ensures link.NoMatch? ==> c == Anchor("nan", NetflixIcon)
    ensures link.Blank? ==> c == ""
    ensures link.Url? ==> c == Anchor(link.url, IconFor(link.url))
  {
    match link
    case NoMatch => Anchor("nan", NetflixIcon)  // `not pd.isna(x)` fails, so the icon test falls to Netflix
    case Blank => ""
    case Url(u) => Anchor(u, IconFor(u))
  }

  /** The "Watch now" cell as intended: a link exactly when there is a URL, with the icon of its service. */
  function WatchCell(link: LinkCell): (c: string)
    ensures c == "" <==> !link.Url?
    ensures link.Url? ==> c == Anchor(link.url, IconFor(link.url))
  {
    if link.Url? then Anchor(link.url, IconFor(link.url)) else ""
  }

  /** The two agree except on an unmatched episode, where the written cell links to "nan". */
  lemma WatchCellDiscrepancy(link: LinkCell)
    ensures !link.NoMatch? ==> WatchCellAsWritten(link) == WatchCell(link)
    ensures link.NoMatch? ==> WatchCellAsWritten(link) == Anchor("nan", NetflixIcon) && WatchCell(link) == ""
  {
  }

  /** `f"<i>{x}</i>" if x is not None else ""`. */
  function ItalicOrEmpty(name: Option<string>): (s: string)
    ensures name.Some? ==> s == "<i>" + name.value + "</i>"
    ensures name.None? ==> s == ""
  {
    match name
    case None => ""
    case Some(n) => "<i>" + n + "</i>"
  }

  /**
   * The subspecies "Scientific name" cell tells names apart, and the blank
   * of a missing name never looks like a present one, so the final
   * deduplication merges lines only when their scientific names agree.
   */
  lemma ItalicOrEmptyDistinguishes(a: Option<string>, b: Option<string>)
    ensures ItalicOrEmpty(a) == ItalicOrEmpty(b) <==> a == b
    ensures a.Some? ==> ItalicOrEmpty(a) != ""
  {
    if a.Some? && b.Some? && ItalicOrEmpty(a) == ItalicOrEmpty(b) {
      assert |a.value| == |b.value|;
      assert a.value == ItalicOrEmpty(a)[3..3 + |a.value|];
      assert b.value == ItalicOrEmpty(b)[3..3 + |b.value|];
    }
  }

  /** The three columns added when the animal has more than one subspecies value. */
  datatype Extra = NoExtra | Subspecies(name: Option<string>, scientificName: string, status: Option<string>)

  /**
   * One line of the table over its headers: "Show", "Episode", "Date",
   * "Watch now", "Country", "Continent", then possibly "Name",
   * "Scientific name" and "IUCN status" (the subspecies status code behind
   * the badge).
   */
  datatype Line = Line(show: string, episode: string, date: string, watch: string,
                       country: Option<string>, continent: Option<string>, extra: Extra)

  function LineOf(j: Joined, showSubspecies: bool, formatDate: Date -> string): Line {
    var row := j.a.row;
    Line(row.show, row.episode, formatDate(row.airDate), WatchCell(j.link), row.country, row.continent,
         if showSubspecies then Subspecies(row.animalName, ItalicOrEmpty(row.scientificName), row.speciesStatus) else NoExtra)
  }

  function LineMask(showSubspecies: bool, formatDate: Date -> string): Joined -> Line {
    (j: Joined) => LineOf(j, showSubspecies, formatDate)
  }

  /** The table headers, which are also the sort options. */
  datatype Column = Show | Episode | AirDate | WatchNow | Country | Continent | Name | ScientificName | IucnStatus

  function Headers(showSubspecies: bool): (h: seq<Column>)
    ensures Name in h <==> showSubspecies
    ensures ScientificName in h <==> showSubspecies
    ensures IucnStatus in h <==> showSubspecies
    ensures |h| == if showSubspecies then 9 else 6
  {
    [Show, Episode, AirDate, WatchNow, Country, Continent] + (if showSubspecies then [Name, ScientificName, IucnStatus] else [])
  }

  /**
   * The order of each sort option: "IUCN status" by the categorical rank of
   * the subspecies status code, "Date" by air date, every other header by
   * its cell in ascending string order, missing cells last.
   */
  predicate Before(c: Column, x: Joined, y: Joined) {
    var a := x.a.row;
    var b := y.a.row;
    match c
    case Show => Collation.LessEq(a.show, b.show)
    case Episode => Collation.LessEq(a.episode, b.episode)
    case AirDate => OnOrBefore(a.airDate, b.airDate)
    case WatchNow => Collation.LessEq(WatchCell(x.link), WatchCell(y.link))
    case Country => Collation.AscNaLast(a.country, b.country)
    case Continent => Collation.AscNaLast(a.continent, b.continent)
    case Name => Collation.AscNaLast(a.animalName, b.animalName)
    case ScientificName => Collation.LessEq(ItalicOrEmpty(a.scientificName), ItalicOrEmpty(b.scientificName))
    case IucnStatus => Status.Rank(a.speciesStatus) <= Status.Rank(b.speciesStatus)
  }

  function Order(c: Column): (Joined, Joined) -> bool {
    (x: Joined, y: Joined) => Before(c, x, y)
  }

  lemma LessEqPreorder(a: string, b: string, c: string)
    ensures Collation.LessEq(a, b) || Collation.LessEq(b, a)
    ensures Collation.LessEq(a, b) && Collation.LessEq(b, c) ==> Collation.LessEq(a, c)
  {
    Collation.AscendingIsTotalPreorder();
    assert Collation.Ascending()(a, b) || Collation.Ascending()(b, a);
    assert Collation.Ascending()(a, b) && Collation.Ascending()(b, c) ==> Collation.Ascending()(a, c);
  }

  lemma OrderIsTotalPreorder(c: Column)
    ensures Sorting.TotalPreorder(Order(c))
  {
    forall x: Joined, y: Joined, z: Joined
      ensures Before(c, x, y) || Before(c, y, x)
      ensures Before(c, x, y) && Before(c, y, z) ==> Before(c, x, z)
    {
      var a, b, d := x.a.row, y.a.row, z.a.row;
      match c
      case Show => LessEqPreorder(a.show, b.show, d.show);
      case Episode => LessEqPreorder(a.episode, b.episode, d.episode);
      case AirDate =>
      case WatchNow => LessEqPreorder(WatchCell(x.link), WatchCell(y.link), WatchCell(z.link));
      case Country => Collation.AscNaLastTotalPreorder(a.country, b.country, d.country);
      case Continent => Collation.AscNaLastTotalPreorder(a.continent, b.continent, d.continent);
      case Name => Collation.AscNaLastTotalPreorder(a.animalName, b.animalName, d.animalName);
      case ScientificName => LessEqPreorder(ItalicOrEmpty(a.scientificName), ItalicOrEmpty(b.scientificName), ItalicOrEmpty(d.scientificName));
      case IucnStatus =>
    }
  }

  /** `line` is the projection of some merged line. */
  ghost predicate FromMerged(merged: seq<Joined>, showSubspecies: bool, formatDate: Date -> string, line: Line) {
    exists j :: j in merged && LineOf(j, showSubspecies, formatDate) == line
  }

  /** Some merged line projecting to `line` sorts no later than `y`. */
  ghost predicate ShownNoLaterThan(merged: seq<Joined>, showSubspecies: bool, formatDate: Date -> string, c: Column, line: Line, y: Joined) {
    exists x :: x in merged && LineOf(x, showSubspecies, formatDate) == line && Before(c, x, y)
  }

  /**
   * The table: the listed rows joined to their episodes, sorted by the
   * chosen header (ties in any order), projected to the shown headers and
   * deduplicated keeping first occurrences. Its lines are distinct, are
   * exactly the projections of the merged lines, and follow the sort: for
   * any line shown later, an earlier line comes from a merged line that
   * sorts no later.
   */
  function Table(rows: seq<Appearance>, episodes: seq<EpisodeLink>, choice: Column, formatDate: Date -> string): (r: seq<Line>)
    requires choice in Headers(AnimalPage.ShowsSubspecies(rows))
    ensures Seqs.Distinct(r)
    ensures forall i :: 0 <= i < |r| ==> FromMerged(LeftMerge(rows, episodes), AnimalPage.ShowsSubspecies(rows), formatDate, r[i])
    ensures forall j :: j in LeftMerge(rows, episodes) ==> LineOf(j, AnimalPage.ShowsSubspecies(rows), formatDate) in r
    ensures forall i, k, y :: 0 <= i < k < |r| && y in LeftMerge(rows, episodes) && LineOf(y, AnimalPage.ShowsSubspecies(rows), formatDate) == r[k] ==>
              ShownNoLaterThan(LeftMerge(rows, episodes), AnimalPage.ShowsSubspecies(rows), formatDate, choice, r[i], y)
  {
    var showSub := AnimalPage.ShowsSubspecies(rows);
    var merged := LeftMerge(rows, episodes);
    OrderIsTotalPreorder(choice);
    var sorted := Sorting.Sort(merged, Order(choice));
    var projected := Seqs.Map(sorted, LineMask(showSub, formatDate));
    var r := Seqs.Dedupe(projected);
    TableLines(merged, sorted, projected, r, showSub, formatDate);
    TableOrder(merged, sorted, projected, r, showSub, formatDate, choice);
    r
  }

  lemma TableLines(merged: seq<Joined>, sorted: seq<Joined>, projected: seq<Line>, r: seq<Line>, showSub: bool, formatDate: Date -> string)
    requires multiset(sorted) == multiset(merged)
    requires projected == Seqs.Map(sorted, LineMask(showSub, formatDate))
    requires forall x :: x in r <==> x in projected
    ensures forall i :: 0 <= i < |r| ==> FromMerged(merged, showSub, formatDate, r[i])
    ensures forall j :: j in merged ==> LineOf(j, showSub, formatDate) in r
  {
    forall i | 0 <= i < |r| ensures FromMerged(merged, showSub, formatDate, r[i]) {
      assert r[i] in projected;
      var c :| 0 <= c < |projected| && projected[c] == r[i];
      assert sorted[c] in multiset(merged);
    }
    forall j | j in merged ensures LineOf(j, showSub, formatDate) in r {
      assert j in multiset(sorted);
      var c :| 0 <= c < |sorted| && sorted[c] == j;
      assert projected[c] == LineOf(j, showSub, formatDate);
    }
  }

  lemma TableOrder(merged: seq<Joined>, sorted: seq<Joined>, projected: seq<Line>, r: seq<Line>, showSub: bool, formatDate: Date -> string, choice: Column)
    requires Sorting.SortOutcome(merged, sorted, Order(choice))
    requires projected == Seqs.Map(sorted, LineMask(showSub, formatDate))
    requires forall x :: x in r <==> x in projected
    requires forall i, j :: 0 <= i < j < |r| ==> Seqs.FirstIndex(projected, r[i]) < Seqs.FirstIndex(projected, r[j])
    ensures forall i, k, y :: 0 <= i < k < |r| && y in merged && LineOf(y, showSub, formatDate) == r[k] ==>
              ShownNoLaterThan(merged, showSub, formatDate, choice, r[i], y)
  {
    forall i, k, y | 0 <= i < k < |r| && y in merged && LineOf(y, showSub, formatDate) == r[k]
      ensures ShownNoLaterThan(merged, showSub, formatDate, choice, r[i], y)
    {
      assert y in multiset(sorted);
      var c :| 0 <= c < |sorted| && sorted[c] == y;
      assert r[i] in projected && r[k] in projected;
      var a := Seqs.FirstIndex(projected, r[i]);
      var b := Seqs.FirstIndex(projected, r[k]);
      assert projected[c] == r[k];
      assert b <= c;
      assert Order(choice)(sorted[a], sorted[c]);
      assert sorted[a] in multiset(merged);
      assert LineOf(sorted[a], showSub, formatDate) == r[i];
    }
  }
}

=== FILE: collation.dfy ===
/**
 * Orders used by `sorted(...)` and `sort_values`: Python compares strings
 * code point by code point, a proper prefix first; pandas puts missing
 * values last whether the sort is ascending or descending.
 */
module Collation {
  import opened Wrappers
  import Seqs
  import Sorting

  /** Python's `a < b` on `str`. */
  predicate Less(a: string, b: string)
    decreases |a|
  {
    |b| > 0 && (|a| == 0 || a[0] < b[0] || (a[0] == b[0] && Less(a[1..], b[1..])))
  }

  predicate LessEq(a: string, b: string) {
    a == b || Less(a, b)
  }

  lemma {:induction false} LessIrreflexive(a: string)
    ensures !Less(a, a)
  {
    if |a| > 0 {
      LessIrreflexive(a[1..]);
    }
  }

  lemma {:induction false} LessTransitive(a: string, b: string, c: string)
    requires Less(a, b) && Less(b, c)
    ensures Less(a, c)
  {
    if |a| > 0 && a[0] == b[0] && b[0] == c[0] {
      LessTransitive(a[1..], b[1..], c[1..]);
    }
  }

  /** Any two different strings are ordered one way. */
  lemma {:induction false} LessTrichotomy(a: string, b: string)
    ensures a == b || Less(a, b) || Less(b, a)
  {
    if |a| > 0 && |b| > 0 && a[0] == b[0] {
      LessTrichotomy(a[1..], b[1..]);
      if a[1..] == b[1..] {
        assert a == [a[0]] + a[1..] && b == [b[0]] + b[1..];
      }
    }
  }

  lemma LessAsymmetric(a: string, b: string)
    requires Less(a, b)
    ensures !Less(b, a)
  {
    if Less(b, a) {
      LessTransitive(a, b, a);
      LessIrreflexive(a);
    }
  }

  /** Ascending string order, as a comparator. */
  function Ascending(): (string, string) -> bool {
    (a: string, b: string) => LessEq(a, b)
  }

  lemma AscendingIsTotalPreorder()
    ensures Sorting.TotalPreorder(Ascending())
  {
    forall a: string, b: string ensures LessEq(a, b) || LessEq(b, a) {
      LessTrichotomy(a, b);
    }
    forall a: string, b: string, c: string | LessEq(a, b) && LessEq(b, c) ensures LessEq(a, c) {
      if a != b && b != c {
        LessTransitive(a, b, c);
      }
    }
  }

  /** Ascending order on a cell that may be missing; missing values last. */
  predicate AscNaLast(a: Option<string>, b: Option<string>) {
    b.None? || (a.Some? && LessEq(a.value, b.value))
  }

  /** Descending order on a cell that may be missing; missing values still last. */
  predicate DescNaLast(a: Option<string>, b: Option<string>) {
    b.None? || (a.Some? && LessEq(b.value, a.value))
  }

  lemma AscNaLastTotalPreorder(a: Option<string>, b: Option<string>, c: Option<string>)
    ensures AscNaLast(a, b) || AscNaLast(b, a)
    ensures AscNaLast(a, b) && AscNaLast(b, c) ==> AscNaLast(a, c)
  {
    AscendingIsTotalPreorder();
    if a.Some? && b.Some? {
      assert Ascending()(a.value, b.value) || Ascending()(b.value, a.value);
    }
    if a.Some? && b.Some? && c.Some? {
      assert Ascending()(a.value, b.value) && Ascending()(b.value, c.value) ==> Ascending()(a.value, c.value);
    }
  }

  /** Two cells each ordered no later than the other are the same cell. */
  lemma AscNaLastAntisymmetric(a: Option<string>, b: Option<string>)
    requires AscNaLast(a, b) && AscNaLast(b, a)
    ensures a == b
  {
    if a.Some? && b.Some? && a.value != b.value {
      LessAsymmetric(a.value, b.value);
    }
  }

  lemma DescNaLastTotalPreorder(a: Option<string>, b: Option<string>, c: Option<string>)
    ensures DescNaLast(a, b) || DescNaLast(b, a)
    ensures DescNaLast(a, b) && DescNaLast(b, c) ==> DescNaLast(a, c)
  {
    AscNaLastTotalPreorder(a, b, c);
    if a.Some? && b.Some? && c.Some? {
      AscendingIsTotalPreorder();
      assert Ascending()(c.value, b.value) && Ascending()(b.value, a.value) ==> Ascending()(c.value, a.value);
    }
  }

  /** Every string is strictly smaller than every later one. */
  predicate StrictlyAscending(s: seq<string>) {
    forall i, j :: 0 <= i < j < |s| ==> Less(s[i], s[j])
  }

  /** `.dropna()`: the values of the cells that are present, in order. */
  function Present(cells: seq<Option<string>>): (r: seq<string>)
    ensures forall v :: v in r <==> Some(v) in cells
  {
    if |cells| == 0 then []
    else
      assert cells == [cells[0]] + cells[1..];
      (if cells[0].Some? then [cells[0].value] else []) + Present(cells[1..])
  }

  /** `sorted(column.dropna().unique())`: the choices a multi-select offers. */
  function OptionList(cells: seq<Option<string>>): (r: seq<string>)
    ensures StrictlyAscending(r)
    ensures forall v :: v in r <==> Some(v) in cells
  {
    var unique := Seqs.Dedupe(Present(cells));
    AscendingIsTotalPreorder();
    var r := Sorting.Sort(unique, Ascending());
    Seqs.DistinctPermutation(unique, r);
    Sorting.SortKeepsRows(unique, r, Ascending());
    r
  }

  /** The head of a strictly ascending list is its least element. */
  lemma HeadIsLeast(s: seq<string>, v: string)
    requires StrictlyAscending(s) && |s| > 0 && v in s
    ensures !Less(v, s[0])
  {
    var m :| 0 <= m < |s| && s[m] == v;
    if m == 0 {
      LessIrreflexive(v);
    } else {
      LessAsymmetric(s[0], v);
    }
  }

  lemma HeadsAgree(s: seq<string>, t: seq<string>)
    requires StrictlyAscending(s) && StrictlyAscending(t)
    requires forall v :: v in s <==> v in t
    requires |s| > 0 && |t| > 0
    ensures s[0] == t[0]
  {
    LessTrichotomy(s[0], t[0]);
    HeadIsLeast(t, s[0]);
    HeadIsLeast(s, t[0]);
  }

  /** Two strictly ascending lists with the same elements are the same list. */
  lemma {:induction false} StrictlyAscendingUnique(s: seq<string>, t: seq<string>)
    requires StrictlyAscending(s) && StrictlyAscending(t)
    requires forall v :: v in s <==> v in t
    ensures s == t
  {
    if |s| > 0 {
      assert s[0] in t;
    }
    if |t| > 0 {
      assert t[0] in s;
    }
    if |s| > 0 && |t| > 0 {
      HeadsAgree(s, t);
      forall v ensures v in s[1..] <==> v in t[1..] {
        if v in s[1..] {
          var k :| 1 <= k < |s| && s[k] == v;
          LessIrreflexive(v);
          assert v in t && v != t[0];
          var m :| 0 <= m < |t| && t[m] == v;
          assert t[1..][m - 1] == v;
        }
        if v in t[1..] {
          var k :| 1 <= k < |t| && t[k] == v;
          LessIrreflexive(v);
          assert v in s && v != s[0];
          var m :| 0 <= m < |s| && s[m] == v;
          assert s[1..][m - 1] == v;
        }
      }
      StrictlyAscendingUnique(s[1..], t[1..]);
      assert s == [s[0]] + s[1..] && t == [t[0]] + t[1..];
    }
  }

  /** The options offered depend only on which values occur, not on row order or repeats. */
  lemma OptionListDependsOnValuesOnly(a: seq<Option<string>>, b: seq<Option<string>>)
    requires forall v :: v in a <==> v in b
    ensures OptionList(a) == OptionList(b)
  {
    StrictlyAscendingUnique(OptionList(a), OptionList(b));
  }
}

=== FILE: countries.dfy ===
/**
 * Numeric region ids for countries, as the choropleth joins them: the
 * ISO 3166-1 table is a parameter (its rows, and the library's `get` index),
 * and a fixed override table handles names the library does not know.
 */
module Countries {
  import opened Wrappers
  import Text

  /** One entry of the ISO 3166-1 table. */
  datatype IsoCountry = IsoCountry(name: string, alpha3: string, numeric: string)

  /** A numeric code as the standard writes it: digits, not all zero. */
  predicate ValidNumeric(numeric: string) {
    Text.IsDigits(numeric) && Text.DecimalValue(numeric) > 0
  }

  predicate ValidTable(countries: seq<IsoCountry>) {
    forall i :: 0 <= i < |countries| ==> ValidNumeric(countries[i].numeric)
  }

  predicate ValidLookup(lookup: map<string, IsoCountry>) {
    forall k :: k in lookup ==> ValidNumeric(lookup[k].numeric)
  }

  /** `int(numeric.lstrip('0'))`: the number the code denotes, so "068" gives 68. */
  function NumericId(numeric: string): (id: nat)
    requires ValidNumeric(numeric)
    ensures id == Text.DecimalValue(numeric)
    ensures id > 0
  {
    Text.StripKeepsValue(numeric);
    Text.DecimalValue(Text.StripLeadingZeros(numeric))
  }

  /** A dict built from key/value pairs in order: a later pair overrides an earlier one with the same key. */
  function MapOf(pairs: seq<(string, nat)>): map<string, nat> {
    if |pairs| == 0 then map[]
    else MapOf(pairs[..|pairs| - 1])[pairs[|pairs| - 1].0 := pairs[|pairs| - 1].1]
  }

  /** The dict has a key for every pair's key, and no other. */
  lemma {:induction false} MapOfKeys(pairs: seq<(string, nat)>, k: string)
    ensures k in MapOf(pairs) <==> exists i :: 0 <= i < |pairs| && pairs[i].0 == k
  {
    if |pairs| > 0 {
      var n := |pairs| - 1;
      var init := pairs[..n];
      MapOfKeys(init, k);
      if exists i :: 0 <= i < n && pairs[i].0 == k {
        var i :| 0 <= i < n && pairs[i].0 == k;
        assert init[i].0 == k;
      }
      if exists i :: 0 <= i < |init| && init[i].0 == k {
        var i :| 0 <= i < |init| && init[i].0 == k;
        assert pairs[i].0 == k;
      }
    }
  }

  /** A key maps to the value of its last pair. */
  lemma {:induction false} MapOfValues(pairs: seq<(string, nat)>, i: nat)
    requires i < |pairs|
    requires forall j :: i < j < |pairs| ==> pairs[j].0 != pairs[i].0
    ensures pairs[i].0 in MapOf(pairs) && MapOf(pairs)[pairs[i].0] == pairs[i].1
  {
    var n := |pairs| - 1;
    if i < n {
      var init := pairs[..n];
      assert init[i] == pairs[i];
      MapOfValues(init, i);
    }
  }

  /** Each country's alpha-3 code with its numeric id, in table order. */
  function IdPairs(countries: seq<IsoCountry>): (r: seq<(string, nat)>)
    requires ValidTable(countries)
    ensures |r| == |countries|
    ensures forall i :: 0 <= i < |r| ==> r[i] == (countries[i].alpha3, NumericId(countries[i].numeric))
  {
    seq(|countries|, i requires 0 <= i < |countries| && ValidTable(countries) => (countries[i].alpha3, NumericId(countries[i].numeric)))
  }

  /** `{c.alpha3: int(c.numeric.lstrip('0')) for c in countries}`. */
  function Alpha3Ids(countries: seq<IsoCountry>): map<string, nat>
    requires ValidTable(countries)
  {
    MapOf(IdPairs(countries))
  }

  /** The comprehension has a key for every alpha-3 code of the table, and no other. */
  lemma Alpha3IdsKeys(countries: seq<IsoCountry>, code: string)
    requires ValidTable(countries)
    ensures code in Alpha3Ids(countries) <==> exists i :: 0 <= i < |countries| && countries[i].alpha3 == code
  {
    var pairs := IdPairs(countries);
    MapOfKeys(pairs, code);
    if exists i :: 0 <= i < |countries| && countries[i].alpha3 == code {
      var i :| 0 <= i < |countries| && countries[i].alpha3 == code;
      assert pairs[i].0 == code;
    }
  }

  /** A code that occurs more than once in the table keeps the id of its last entry. */
  lemma Alpha3IdsValues(countries: seq<IsoCountry>, i: nat)
    requires ValidTable(countries)
    requires i < |countries| && LastWithAlpha3(countries, i)
    ensures countries[i].alpha3 in Alpha3Ids(countries)
    ensures Alpha3Ids(countries)[countries[i].alpha3] == NumericId(countries[i].numeric)
  {
    var pairs := IdPairs(countries);
    assert forall j :: i < j < |pairs| ==> pairs[j].0 != pairs[i].0;
    MapOfValues(pairs, i);
  }

  /** No later entry of the table has the same alpha-3 code as entry `i`. */
  predicate LastWithAlpha3(countries: seq<IsoCountry>, i: nat)
    requires i < |countries|
  {
    forall j :: i < j < |countries| ==> countries[j].alpha3 != countries[i].alpha3
  }

  /** A cell of the "ISO3166 ID" column: the numeric id, or the code left as it was. */
  datatype IsoCell = Numeric(id: nat) | Unmapped(code: string)

  /**
   * `country_code_column.replace(alpha3_ids)`: a code the table knows becomes
   * its numeric id; any other code is left unchanged, and a missing cell
   * stays missing.
   */
  function IsoCellOf(code: Option<string>, countries: seq<IsoCountry>): (r: Option<IsoCell>)
    requires ValidTable(countries)
    ensures r.None? <==> code.None?
    ensures code.Some? && (forall i :: 0 <= i < |countries| ==> countries[i].alpha3 != code.value) ==>
      r == Some(Unmapped(code.value))
    ensures forall i :: 0 <= i < |countries| && code == Some(countries[i].alpha3) && LastWithAlpha3(countries, i) ==>
      r == Some(Numeric(Text.DecimalValue(countries[i].numeric)))
  {
    if code.None? then None
    else
      var ids := Alpha3Ids(countries);
      Alpha3IdsKeys(countries, code.value);
      assert forall i :: 0 <= i < |countries| && code == Some(countries[i].alpha3) && LastWithAlpha3(countries, i) ==>
        ids[code.value] == NumericId(countries[i].numeric) by {
        forall i | 0 <= i < |countries| && code == Some(countries[i].alpha3) && LastWithAlpha3(countries, i) {
          Alpha3IdsValues(countries, i);
        }
      }
      if code.value in ids then Some(Numeric(ids[code.value])) else Some(Unmapped(code.value))
  }

  /** The hand-written table of country names with their numeric ids, consulted before ISO 3166. */
  const Overrides: map<string, nat> := map[
    "Russia" := 643,
    "Tanzania" := 834,
    "Republic of the Congo" := 178,
    "Democratic Republic of the Congo" := 180,
    "Ivory Coast" := 384,
    "USA" := 840,
    "UK" := 826,
    "Falkland Islands" := 238,
    "Central African Republic" := 140,
    "South Sandwich Islands" := 239,
    "Viet Nam" := 704,
    "United Arab Emirates" := 784,
    "T\U{fc}rkiye" := 792,
    "Syria" := 760,
    "Micronesia" := 583,
    "Laos" := 418,
    "South Korea" := 410,
    "Bolivia" := 68,
    "French Guiana" := 254
  ]

  /** The "id" and "Country_Name" cells of one country in the country chart. */
  datatype Resolution = Resolution(id: Option<nat>, name: Option<string>)

  /**
   * The id of a country for the map join: the override table first, then the
   * ISO library's lookup (with leading zeros of its numeric code dropped);
   * a name neither knows stays unmapped.
   */
  function Resolve(country: string, lookup: map<string, IsoCountry>): (r: Resolution)
    requires ValidLookup(lookup)
    ensures country in Overrides ==> r == Resolution(Some(Overrides[country]), Some(country))
    ensures country !in Overrides && country in lookup ==>
      r == Resolution(Some(Text.DecimalValue(lookup[country].numeric)), Some(lookup[country].name))
    ensures country !in Overrides && country !in lookup ==> r.id.None? && r.name.None?
    ensures r.id.Some? ==> r.id.value > 0
  {
    if country in Overrides then Resolution(Some(Overrides[country]), Some(country))
    else if country in lookup then
      var entry := lookup[country];
      Resolution(Some(NumericId(entry.numeric)), Some(entry.name))
    else Resolution(None, None)
  }
}

=== FILE: dates.dfy ===
/**
 * Calendar dates (air dates and species lock dates). Only their order
 * matters to the pipeline; `strftime` formatting is not modelled.
 */
module Dates {
  import Sorting

  datatype Date = Date(year: int, month: int, day: int)

  /** `a` is on or before `b`: year, then month, then day. */
  predicate OnOrBefore(a: Date, b: Date) {
    a.year < b.year ||
    (a.year == b.year && (a.month < b.month || (a.month == b.month && a.day <= b.day)))
  }

  lemma OnOrBeforeAntisymmetric(a: Date, b: Date)
    requires OnOrBefore(a, b) && OnOrBefore(b, a)
    ensures a == b
  {
  }

  /** `sort_values(date)`: earliest first. */
  function Ascending(): (Date, Date) -> bool {
    (a: Date, b: Date) => OnOrBefore(a, b)
  }

  /** `sort_values(date, ascending=False)`: latest first. */
  function Descending(): (Date, Date) -> bool {
    (a: Date, b: Date) => OnOrBefore(b, a)
  }

  lemma DateOrdersArePreorders()
    ensures Sorting.TotalPreorder(Ascending())
    ensures Sorting.TotalPreorder(Descending())
  {
  }
}

=== FILE: filters.dfy ===
/**
 * The sidebar filters: one multi-select per dimension (continent, country,
 * taxon class, taxon family). A row passes a dimension when nothing is
 * selected there or its value is selected; it passes the filter when it
 * passes every dimension. The options a multi-select offers narrow with the
 * selection of its parent dimension (continent above country, class above
 * family).
 */
module Filters {
  import opened Wrappers
  import opened Records
  import Seqs
  import Collation
  import Aggregate

  datatype Selection = Selection(continents: set<string>, countries: set<string>, classes: set<string>, families: set<string>)

  const NoSelection: Selection := Selection({}, {}, {}, {})

  /** `column.isin(chosen) | (len(chosen) == 0)` for one cell; a missing cell is in no selection. */
  predicate Admits(chosen: set<string>, cell: Option<string>) {
    |chosen| == 0 || (cell.Some? && cell.value in chosen)
  }

  /** The conjunction of the four dimension masks. */
  predicate Keeps(sel: Selection, row: Row) {
    && Admits(sel.continents, row.continent)
    && Admits(sel.countries, row.country)
    && Admits(sel.classes, row.taxonClass)
    && Admits(sel.families, row.family)
  }

  /** The row mask of a whole selection. */
  function SelectionMask(sel: Selection): Aggregate.Merged -> bool {
    (m: Aggregate.Merged) => Keeps(sel, m.row)
  }

  /** The row mask of one dimension. */
  function DimensionMask(chosen: set<string>, field: Row -> Option<string>): Aggregate.Merged -> bool {
    (m: Aggregate.Merged) => Admits(chosen, field(m.row))
  }

  /**
   * `merged_df[continents_filter & countries_filter & class_filter &
   * family_filter]`: the rows every selected dimension admits, in their
   * original order; with nothing selected, all rows.
   */
  function Apply(rows: seq<Aggregate.Merged>, sel: Selection): (r: seq<Aggregate.Merged>)
    ensures Seqs.IsSubsequence(r, rows)
    ensures forall m :: m in r <==> m in rows && Keeps(sel, m.row)
    ensures sel == NoSelection ==> r == rows
  {
    Seqs.Filter(rows, SelectionMask(sel))
  }

  /** The rows one dimension admits, the others ignored. */
  function ByDimension(rows: seq<Aggregate.Merged>, chosen: set<string>, field: Row -> Option<string>): seq<Aggregate.Merged> {
    Seqs.Filter(rows, DimensionMask(chosen, field))
  }

  function Continent(row: Row): Option<string> { row.continent }
  function Country(row: Row): Option<string> { row.country }
  function TaxonClass(row: Row): Option<string> { row.taxonClass }
  function Family(row: Row): Option<string> { row.family }

  /**
   * The dimensions are independent: applying the whole selection is the
   * same as narrowing by continent, then country, then class, then family.
   */
  lemma ApplyIsConjunction(rows: seq<Aggregate.Merged>, sel: Selection)
    ensures Apply(rows, sel) ==
      ByDimension(ByDimension(ByDimension(ByDimension(rows,
        sel.continents, Continent), sel.countries, Country), sel.classes, TaxonClass), sel.families, Family)
  {
    var first2 := ContinentCountryMask(sel);
    var first3 := WithoutFamilyMask(sel);
    Seqs.FilterThenFilter(rows, DimensionMask(sel.continents, Continent), DimensionMask(sel.countries, Country), first2);
    Seqs.FilterThenFilter(rows, first2, DimensionMask(sel.classes, TaxonClass), first3);
    Seqs.FilterThenFilter(rows, first3, DimensionMask(sel.families, Family), SelectionMask(sel));
  }

  /** The continent and country masks together. */
  function ContinentCountryMask(sel: Selection): Aggregate.Merged -> bool {
    (m: Aggregate.Merged) => Admits(sel.continents, m.row.continent) && Admits(sel.countries, m.row.country)
  }

  /** Every mask but the family one. */
  function WithoutFamilyMask(sel: Selection): Aggregate.Merged -> bool {
    (m: Aggregate.Merged) => ContinentCountryMask(sel)(m) && Admits(sel.classes, m.row.taxonClass)
  }

  /** The mask of rows whose `parent` value the parent selection admits. */
  function ParentMask(chosen: set<string>, parent: Row -> Option<string>): Row -> bool {
    (row: Row) => Admits(chosen, parent(row))
  }

  /**
   * The options of a child multi-select: the sorted distinct present values
   * of `child` among rows whose `parent` value the parent selection admits
   * (all rows when the parent selection is empty).
   */
  function Offered(rows: seq<Row>, child: Row -> Option<string>, parent: Row -> Option<string>, chosen: set<string>): (r: seq<string>)
    ensures Collation.StrictlyAscending(r)
    ensures forall v :: v in r <==> exists i :: 0 <= i < |rows| && child(rows[i]) == Some(v) && Admits(chosen, parent(rows[i]))
  {
    var narrowed := Seqs.Filter(rows, ParentMask(chosen, parent));
    var cells := Seqs.Map(narrowed, child);
    var r := Collation.OptionList(cells);
    assert forall v :: v in r <==> exists i :: 0 <= i < |rows| && child(rows[i]) == Some(v) && Admits(chosen, parent(rows[i])) by {
      forall v ensures v in r <==> exists i :: 0 <= i < |rows| && child(rows[i]) == Some(v) && Admits(chosen, parent(rows[i])) {
        OfferedValue(rows, narrowed, cells, child, parent, chosen, v);
      }
    }
    r
  }

  lemma OfferedValue(rows: seq<Row>, narrowed: seq<Row>, cells: seq<Option<string>>,
                     child: Row -> Option<string>, parent: Row -> Option<string>, chosen: set<string>, v: string)
    requires narrowed == Seqs.Filter(rows, ParentMask(chosen, parent))
    requires cells == Seqs.Map(narrowed, child)
    ensures Some(v) in cells <==> exists i :: 0 <= i < |rows| && child(rows[i]) == Some(v) && Admits(chosen, parent(rows[i]))
  {
    if Some(v) in cells {
      var k :| 0 <= k < |cells| && cells[k] == Some(v);
      assert narrowed[k] in rows;
      var i :| 0 <= i < |rows| && rows[i] == narrowed[k];
      assert ParentMask(chosen, parent)(rows[i]);
    }
    if exists i :: 0 <= i < |rows| && child(rows[i]) == Some(v) && Admits(chosen, parent(rows[i])) {
      var i :| 0 <= i < |rows| && child(rows[i]) == Some(v) && Admits(chosen, parent(rows[i]));
      assert ParentMask(chosen, parent)(rows[i]);
      assert rows[i] in narrowed;
      var k :| 0 <= k < |narrowed| && narrowed[k] == rows[i];
      assert cells[k] == Some(v);
    }
  }

  /** Country options: the countries of rows on a selected continent, or all countries. */
  function CountryOptions(rows: seq<Row>, continents: set<string>): (r: seq<string>)
    ensures Collation.StrictlyAscending(r)
    ensures forall v :: v in r <==> exists i :: 0 <= i < |rows| && rows[i].country == Some(v) && Admits(continents, rows[i].continent)
  {
    Offered(rows, Country, Continent, continents)
  }

  /** Family options: the families of rows in a selected class, or all families. */
  function FamilyOptions(rows: seq<Row>, classes: set<string>): (r: seq<string>)
    ensures Collation.StrictlyAscending(r)
    ensures forall v :: v in r <==> exists i :: 0 <= i < |rows| && rows[i].family == Some(v) && Admits(classes, rows[i].taxonClass)
  {
    Offered(rows, Family, TaxonClass, classes)
  }

  /** With no parent selection the options are every present value, as for the unfiltered lists. */
  lemma UnnarrowedOptions(rows: seq<Row>)
    ensures CountryOptions(rows, {}) == Collation.OptionList(Seqs.Map(rows, Country))
    ensures FamilyOptions(rows, {}) == Collation.OptionList(Seqs.Map(rows, Family))
  {
    UnnarrowedValues(rows, Country);
    Collation.StrictlyAscendingUnique(CountryOptions(rows, {}), Collation.OptionList(Seqs.Map(rows, Country)));
    UnnarrowedValues(rows, Family);
    Collation.StrictlyAscendingUnique(FamilyOptions(rows, {}), Collation.OptionList(Seqs.Map(rows, Family)));
  }

  lemma UnnarrowedValues(rows: seq<Row>, field: Row -> Option<string>)
    ensures forall v :: Some(v) in Seqs.Map(rows, field) <==> exists i :: 0 <= i < |rows| && field(rows[i]) == Some(v)
  {
    var cells := Seqs.Map(rows, field);
    forall v ensures Some(v) in cells <==> exists i :: 0 <= i < |rows| && field(rows[i]) == Some(v) {
      if Some(v) in cells {
        var k :| 0 <= k < |cells| && cells[k] == Some(v);
        assert field(rows[k]) == Some(v);
      }
    }
  }
}

=== FILE: normalize.dfy ===
/**
 * The pre-processing every page applies to the sheet: the binomial name
 * derived from the scientific name, status labels, the ISO numeric id of the
 * country code, and the removal of indeterminate ("sp.") animals.
 */
module Normalize {
  import opened Wrappers
  import opened Records
  import Text
  import Status
  import Countries
  import Seqs

  /** The first `min(2, n)` of `n` tokens. */
  function FirstTwo(tokens: seq<string>): (r: seq<string>)
    ensures |r| == if |tokens| < 2 then |tokens| else 2
    ensures r == tokens[..|r|]
  {
    if |tokens| < 2 then tokens else tokens[..2]
  }

  /**
   * `scientific_name.str.split().str[:2].str.join(" ")`: the genus and
   * species of a (possibly trinomial) scientific name. A missing name gives
   * a missing binomial; a one-word name gives that word; a name of only
   * whitespace gives the empty string.
   */
  function Binomial(scientificName: Option<string>): (r: Option<string>)
    ensures r.None? <==> scientificName.None?
    ensures r.Some? ==> Text.Split(r.value) == FirstTwo(Text.Split(scientificName.value))
    ensures r.Some? ==> Text.SingleSpaced(r.value)
  {
    match scientificName
    case None => None
    case Some(name) =>
      var tokens := FirstTwo(Text.Split(name));
      Text.SplitJoin(tokens);
      Text.JoinSingleSpaced(tokens);
      Some(Text.Join(tokens, " "))
  }

  /**
   * The binomial is the only single-spaced string whose words are the first
   * two words of the scientific name: "Panthera  leo" or " Panthera leo"
   * never come out of the derivation.
   */
  lemma BinomialDetermined(name: string, b: string)
    requires Text.SingleSpaced(b)
    requires Text.Split(b) == FirstTwo(Text.Split(name))
    ensures Binomial(Some(name)) == Some(b)
  {
    Text.SingleSpacedDetermined(Binomial(Some(name)).value, b);
  }

  /** A name of one word is its own binomial; a name of no words gives the empty string. */
  lemma BinomialOfShortName(name: string)
    ensures |Text.Split(name)| == 1 ==> Binomial(Some(name)) == Some(Text.Split(name)[0])
    ensures |Text.Split(name)| == 0 ==> Binomial(Some(name)) == Some("")
  {
  }

  /** Deriving the binomial of a binomial changes nothing. */
  lemma BinomialIdempotent(scientificName: Option<string>)
    ensures Binomial(Binomial(scientificName)) == Binomial(scientificName)
  {
    if scientificName.Some? {
      var b := Binomial(scientificName).value;
      var tokens := FirstTwo(Text.Split(scientificName.value));
      assert Text.Split(b) == tokens;
      assert FirstTwo(tokens) == tokens;
    }
  }

  /**
   * `isinstance(x, str) and "sp." in x`: an animal not yet identified to
   * species level. The test is a case-sensitive substring test.
   */
  predicate Indeterminate(animal: Option<string>) {
    animal.Some? && Text.Contains(animal.value, "sp.")
  }

  lemma IndeterminateExamples()
    ensures Indeterminate(Some("Panthera sp."))
    ensures !Indeterminate(Some("Panthera leo"))
    ensures !Indeterminate(None)
  {
    assert Text.InfixAt("Panthera sp.", "sp.", 9);
    var leo := "Panthera leo";
    forall i: nat ensures !Text.InfixAt(leo, "sp.", i) {
      if i + 3 <= |leo| {
        assert leo[i..i + 3][0] == leo[i];
        assert leo[i..i + 3][1] == leo[i + 1];
      }
    }
  }

  /** A row that survives the "sp." exclusion. */
  predicate Determinate(row: Row) {
    !Indeterminate(row.animalNameOriginal)
  }

  /** A normalised row: the sheet row together with its derived columns. */
  datatype Appearance = Appearance(
    row: Row,
    binomial: Option<string>,             // "Binomial name"
    speciesStatus: Option<string>,        // "Species status": label of the species code
    subspeciesStatus: Option<string>,     // "Subspecies status": label of the subspecies code
    isoId: Option<Countries.IsoCell>      // "ISO3166 ID"
  )

  function RowOf(a: Appearance): Row {
    a.row
  }

  /** The "Animal" column after renaming. */
  function AnimalOf(a: Appearance): Option<string> {
    a.row.animalNameOriginal
  }

  /** The derived columns of one row. */
  function NormalizeRow(row: Row, countries: seq<Countries.IsoCountry>): (a: Appearance)
    requires Countries.ValidTable(countries)
  {
    Appearance(
      row,
      Binomial(row.scientificName),
      Status.Label(row.speciesStatusOriginal),
      Status.Label(row.speciesStatus),
      Countries.IsoCellOf(row.countryCode, countries))
  }

  /** The derived columns of every row, in order. */
  function NormalizeEach(rows: seq<Row>, countries: seq<Countries.IsoCountry>): (r: seq<Appearance>)
    requires Countries.ValidTable(countries)
    ensures |r| == |rows|
    ensures forall i :: 0 <= i < |r| ==> r[i] == NormalizeRow(rows[i], countries)
  {
    if |rows| == 0 then [] else [NormalizeRow(rows[0], countries)] + NormalizeEach(rows[1..], countries)
  }

  /**
   * The pre-processing block: derive the columns of every row and drop the
   * indeterminate animals. The filter reads only the animal column, which
   * the derivation leaves alone, so the rows are filtered first here. The
   * surviving rows are exactly the determinate ones, in their original
   * order, each with its derived columns.
   */
  function Normalize(rows: seq<Row>, countries: seq<Countries.IsoCountry>): (r: seq<Appearance>)
    requires Countries.ValidTable(countries)
    ensures Seqs.Map(r, RowOf) == Seqs.Filter(rows, Determinate)
    ensures forall i :: 0 <= i < |r| ==> r[i] == NormalizeRow(r[i].row, countries)
    ensures forall i :: 0 <= i < |r| ==> !Indeterminate(AnimalOf(r[i]))
  {
    var kept := Seqs.Filter(rows, Determinate);
    var r := NormalizeEach(kept, countries);
    NormalizedKept(kept, countries, r);
    r
  }

  /** Normalising rows that are all determinate keeps each row, in order, with its derived columns. */
  lemma NormalizedKept(kept: seq<Row>, countries: seq<Countries.IsoCountry>, r: seq<Appearance>)
    requires Countries.ValidTable(countries)
    requires forall x :: x in kept ==> Determinate(x)
    requires r == NormalizeEach(kept, countries)
    ensures Seqs.Map(r, RowOf) == kept
    ensures forall i :: 0 <= i < |r| ==> r[i] == NormalizeRow(r[i].row, countries)
    ensures forall i :: 0 <= i < |r| ==> !Indeterminate(AnimalOf(r[i]))
  {
    assert forall i :: 0 <= i < |r| ==> r[i].row == kept[i] && kept[i] in kept;
  }

  /** Every determinate sheet row appears, normalised, in the output; no other row does. */
  lemma NormalizeKeeps(rows: seq<Row>, countries: seq<Countries.IsoCountry>, row: Row)
    requires Countries.ValidTable(countries)
    ensures NormalizeRow(row, countries) in Normalize(rows, countries) <==> row in rows && Determinate(row)
  {
    if row in rows && Determinate(row) {
      KeptRowNormalized(rows, countries, row);
    }
    if NormalizeRow(row, countries) in Normalize(rows, countries) {
      NormalizedRowKept(rows, countries, row);
    }
  }

  lemma KeptRowNormalized(rows: seq<Row>, countries: seq<Countries.IsoCountry>, row: Row)
    requires Countries.ValidTable(countries)
    requires row in rows && Determinate(row)
    ensures NormalizeRow(row, countries) in Normalize(rows, countries)
  {
    var r := Normalize(rows, countries);
    var kept := Seqs.Filter(rows, Determinate);
    assert row in kept;
    var k :| 0 <= k < |kept| && kept[k] == row;
    assert Seqs.Map(r, RowOf)[k] == row;
    assert r[k] == NormalizeRow(row, countries);
  }

  lemma NormalizedRowKept(rows: seq<Row>, countries: seq<Countries.IsoCountry>, row: Row)
    requires Countries.ValidTable(countries)
    requires NormalizeRow(row, countries) in Normalize(rows, countries)
    ensures row in rows && Determinate(row)
  {
    var r := Normalize(rows, countries);
    var k :| 0 <= k < |r| && r[k] == NormalizeRow(row, countries);
    assert Seqs.Map(r, RowOf)[k] == row;
    assert row in Seqs.Filter(rows, Determinate);
  }
}

=== FILE: overview.dfy ===
/**
 * The overview page: the species table built from the filtered rows, the
 * distinct-species count per conservation status, and the per-country
 * chart whose rows are joined to map shapes by numeric country id.
 */
module Overview {
  import opened Wrappers
  import opened Records
  import opened Aggregate
  import Seqs
  import Sorting
  import Collation
  import Status
  import Filters
  import Normalize
  import Countries

  /** A "First Seen" / "Last Seen" cell: hidden, "-" for a missing date, or "<show> (<year>)". */
  datatype SeenCell = Hidden | Dash | SeenIn(show: string, year: int)

  /** The sidebar checkboxes that add the "First Seen" and "Last Seen" columns. */
  datatype Columns = Columns(firstSeen: bool, lastSeen: bool)

  /**
   * The cells of one row of the species table: "Animal", "Scientific name",
   * "IUCN status" (the code behind the badge, "-" when missing),
   * "# Times Featured" and the two optional "Seen" columns.
   */
  datatype TableRow = TableRow(
    animal: Option<string>,
    scientificName: string,
    status: Option<string>,
    timesFeatured: int,
    firstSeen: SeenCell,
    lastSeen: SeenCell
  )

  /** One row of the projection that is deduplicated: the table cells, plus "Family" unless exactly one family is selected. */
  datatype Prepared = Prepared(family: Option<string>, cells: TableRow)

  /** The rows of the table and the charts: selected by the sidebar, with "sp." animals dropped. */
  predicate Listed(sel: Filters.Selection, m: Merged) {
    Filters.Keeps(sel, m.row) && Normalize.Determinate(m.row)
  }

  function ListedMask(sel: Filters.Selection): Merged -> bool {
    (m: Merged) => Listed(sel, m)
  }

  function DeterminateMask(): Merged -> bool {
    (m: Merged) => Normalize.Determinate(m.row)
  }

  /** `filtered_df` once the "sp." rows are removed: the selected determinate rows, in sheet order. */
  function ListedRows(rows: seq<Merged>, sel: Filters.Selection): (r: seq<Merged>)
    ensures Seqs.IsSubsequence(r, rows)
    ensures forall m :: m in r <==> m in rows && Listed(sel, m)
  {
    var r := Seqs.Filter(Filters.Apply(rows, sel), DeterminateMask());
    Seqs.FilterFilter(rows, Filters.SelectionMask(sel), DeterminateMask());
    Seqs.FilterAgrees(rows, Seqs.Both(Filters.SelectionMask(sel), DeterminateMask()), ListedMask(sel));
    r
  }

  /** `f'<i>{x}</i>' if x is not None else "-"`. */
  function ItalicName(binomial: Option<string>): (r: string)
    ensures binomial.Some? ==> r == "<i>" + binomial.value + "</i>"
    ensures binomial.None? ==> r == "-"
    ensures |r| > 0
  {
    match binomial
    case None => "-"
    case Some(b) => "<i>" + b + "</i>"
  }

  /**
   * The "Scientific name" cell tells binomials apart, and the "-" of a
   * missing one never looks like a present one, so deduplicating the cells
   * merges rows exactly when their binomials agree.
   */
  lemma ItalicNameDistinguishes(a: Option<string>, b: Option<string>)
    ensures ItalicName(a) == ItalicName(b) <==> a == b
    ensures a.Some? ==> ItalicName(a) != "-"
  {
    if a.Some? && b.Some? && ItalicName(a) == ItalicName(b) {
      assert |a.value| == |b.value|;
      assert a.value == ItalicName(a)[3..3 + |a.value|];
      assert b.value == ItalicName(b)[3..3 + |b.value|];
    }
  }

  /** A "Seen" cell for a sighting, when its column is shown. */
  function SeenCellOf(shown: bool, s: Option<Sighting>): (c: SeenCell)
    ensures c.Hidden? <==> !shown
    ensures c.SeenIn? <==> shown && s.Some?
    ensures c.SeenIn? ==> c.show == s.value.show && c.year == s.value.date.year
  {
    if !shown then Hidden
    else if s.None? then Dash
    else SeenIn(s.value.show, s.value.date.year)
  }

  /**
   * "# Times Featured": the appearance number merged from the species'
   * latest numbered appearance, coerced to a number with missing values as 0.
   */
  function TimesFeatured(m: Merged): (n: int)
    ensures m.last.Some? && m.last.value.appearanceNumber.Some? ==> n == m.last.value.appearanceNumber.value
    ensures m.last.None? || m.last.value.appearanceNumber.None? ==> n == 0
  {
    if m.last.Some? then m.last.value.appearanceNumber.GetOr(0) else 0
  }

  /**
   * On the merged sheet, "# Times Featured" of a row is 0 when it has no
   * binomial or no row of its species has an appearance number, and
   * otherwise the appearance number of a row of its species that no
   * numbered row of the species aired after.
   */
  lemma TimesFeaturedOfMerge(rows: seq<Row>, sorted: seq<Row>, i: nat)
    requires Sorting.SortOutcome(rows, sorted, LatestFirst())
    requires i < |rows|
    ensures BinomialOf(rows[i]).None? ==> TimesFeatured(MergeAppearances(rows, sorted)[i]) == 0
    ensures BinomialOf(rows[i]).Some? && NoNumberIn(rows, BinomialOf(rows[i]).value) ==>
      TimesFeatured(MergeAppearances(rows, sorted)[i]) == 0
    ensures BinomialOf(rows[i]).Some? && !NoNumberIn(rows, BinomialOf(rows[i]).value) ==>
      exists j :: 0 <= j < |rows| && BinomialOf(rows[j]) == BinomialOf(rows[i]) &&
        rows[j].appearanceNumber == Some(TimesFeatured(MergeAppearances(rows, sorted)[i])) &&
        NoLaterNumber(rows, BinomialOf(rows[i]).value, rows[j])
  {
    var m := MergeAppearances(rows, sorted)[i];
    if BinomialOf(rows[i]).Some? {
      var b := BinomialOf(rows[i]).value;
      assert IsLatestOfGroup(rows, b, m.last.value);
      TimesFeaturedOfLatest(rows, b, m);
    }
  }

  /** The count shown for a row whose last sighting carries its species' latest number. */
  lemma TimesFeaturedOfLatest(rows: seq<Row>, b: string, m: Merged)
    requires m.last.Some? && IsLatestNumber(rows, b, m.last.value.appearanceNumber)
    ensures NoNumberIn(rows, b) ==> TimesFeatured(m) == 0
    ensures !NoNumberIn(rows, b) ==>
      exists j :: 0 <= j < |rows| && BinomialOf(rows[j]) == Some(b) &&
        rows[j].appearanceNumber == Some(TimesFeatured(m)) && NoLaterNumber(rows, b, rows[j])
  {
    if !NoNumberIn(rows, b) {
      var j :| 0 <= j < |rows| && BinomialOf(rows[j]) == Some(b) && rows[j].appearanceNumber == m.last.value.appearanceNumber &&
        NoLaterNumber(rows, b, rows[j]);
    }
  }

  /** No row of species `b` has an appearance number. */
  ghost predicate NoNumberIn(rows: seq<Row>, b: string) {
    forall j :: 0 <= j < |rows| && BinomialOf(rows[j]) == Some(b) ==> rows[j].appearanceNumber.None?
  }

  /** The table cells of a row. */
  function CellsOf(m: Merged, cols: Columns): TableRow {
    TableRow(
      m.row.animalNameOriginal,
      ItalicName(m.binomial),
      m.row.speciesStatusOriginal,
      TimesFeatured(m),
      SeenCellOf(cols.firstSeen, m.first),
      SeenCellOf(cols.lastSeen, m.last))
  }

  function PrepareMask(familyHidden: bool, cols: Columns): Merged -> Prepared {
    (m: Merged) => Prepared(if familyHidden then None else m.row.family, CellsOf(m, cols))
  }

  function PreparedCells(p: Prepared): TableRow {
    p.cells
  }

  /** The sort choices of the sidebar radio button. */
  datatype SortChoice = Alphabetical | ScientificName | IucnStatus | TimesFeatured

  /**
   * The order each choice sorts the table by. "IUCN status" orders by the
   * status code's categorical rank only: the categorical key also turns
   * every animal name into a missing value, so that second key never
   * separates rows. "# Times Featured" sorts both keys descending, missing
   * animal names still last.
   */
  predicate Before(choice: SortChoice, a: TableRow, b: TableRow) {
    match choice
    case Alphabetical => Collation.AscNaLast(a.animal, b.animal)
    case ScientificName => Collation.LessEq(a.scientificName, b.scientificName)
    case IucnStatus => Status.Rank(a.status) <= Status.Rank(b.status)
    case TimesFeatured =>
      a.timesFeatured > b.timesFeatured ||
      (a.timesFeatured == b.timesFeatured && Collation.DescNaLast(a.animal, b.animal))
  }

  function Order(choice: SortChoice): (TableRow, TableRow) -> bool {
    (a: TableRow, b: TableRow) => Before(choice, a, b)
  }

  lemma OrderIsTotalPreorder(choice: SortChoice)
    ensures Sorting.TotalPreorder(Order(choice))
  {
    forall a: TableRow, b: TableRow, c: TableRow
      ensures Before(choice, a, b) || Before(choice, b, a)
      ensures Before(choice, a, b) && Before(choice, b, c) ==> Before(choice, a, c)
    {
      Collation.AscNaLastTotalPreorder(a.animal, b.animal, c.animal);
      Collation.DescNaLastTotalPreorder(a.animal, b.animal, c.animal);
      Collation.AscendingIsTotalPreorder();
      assert Collation.Ascending()(a.scientificName, b.scientificName) || Collation.Ascending()(b.scientificName, a.scientificName);
      assert Collation.Ascending()(a.scientificName, b.scientificName) && Collation.Ascending()(b.scientificName, c.scientificName)
        ==> Collation.Ascending()(a.scientificName, c.scientificName);
    }
  }

  /** The distinct prepared rows, in the order of their first occurrence. */
  function PreparedRows(rows: seq<Merged>, sel: Filters.Selection, cols: Columns): (r: seq<Prepared>)
    ensures Seqs.Distinct(r)
    ensures forall p :: p in r <==> exists k :: 0 <= k < |ListedRows(rows, sel)| && PrepareMask(|sel.families| == 1, cols)(ListedRows(rows, sel)[k]) == p
  {
    var listed := ListedRows(rows, sel);
    var all := Seqs.Map(listed, PrepareMask(|sel.families| == 1, cols));
    forall p ensures p in all <==> exists k :: 0 <= k < |listed| && PrepareMask(|sel.families| == 1, cols)(listed[k]) == p {
      Seqs.MapMembership(listed, PrepareMask(|sel.families| == 1, cols), p);
    }
    Seqs.Dedupe(all)
  }

  /** Cells `c` are the table cells of some listed row. */
  ghost predicate FromListedRow(rows: seq<Merged>, sel: Filters.Selection, cols: Columns, c: TableRow) {
    exists m :: m in rows && Listed(sel, m) && CellsOf(m, cols) == c
  }

  /** Some numbered row of `r` has cells `c`. */
  predicate InTable(r: seq<(nat, TableRow)>, c: TableRow) {
    exists i :: 0 <= i < |r| && r[i].1 == c
  }

  /** The cells of a numbered table, line by line, without the numbers. */
  function Lines(r: seq<(nat, TableRow)>): (c: seq<TableRow>)
    ensures |c| == |r|
    ensures forall i :: 0 <= i < |r| ==> c[i] == r[i].1
  {
    seq(|r|, i requires 0 <= i < |r| => r[i].1)
  }

  /**
   * The species table: the selected determinate rows projected to the
   * shown columns (with "Family" unless exactly one family is selected),
   * deduplicated, sorted by the chosen order (ties in any order), with the
   * helper columns dropped and the rows numbered from 1.
   */
  function Table(rows: seq<Merged>, sel: Filters.Selection, cols: Columns, choice: SortChoice): (r: seq<(nat, TableRow)>)
    ensures forall i :: 0 <= i < |r| ==> r[i].0 == i + 1
    ensures forall i, j :: 0 <= i < j < |r| ==> Before(choice, r[i].1, r[j].1)
    ensures forall i :: 0 <= i < |r| ==> FromListedRow(rows, sel, cols, r[i].1)
    ensures forall m :: m in rows && Listed(sel, m) ==> InTable(r, CellsOf(m, cols))
    ensures |sel.families| == 1 ==> forall i, j :: 0 <= i < j < |r| ==> r[i].1 != r[j].1
    ensures multiset(Lines(r)) == multiset(Seqs.Map(PreparedRows(rows, sel, cols), PreparedCells))
  {
    var prepared := PreparedRows(rows, sel, cols);
    var cells := Seqs.Map(prepared, PreparedCells);
    OrderIsTotalPreorder(choice);
    var sorted := Sorting.Sort(cells, Order(choice));
    SortedContents(rows, sel, cols, prepared, cells, sorted);
    TableDistinct(rows, sel, cols, prepared, cells, sorted);
    var r := Seqs.Numbered(sorted);
    NumberedTable(rows, sel, cols, choice, sorted, r);
    r
  }

  /** Numbering the sorted rows keeps their order, their origin and their distinctness. */
  lemma NumberedTable(rows: seq<Merged>, sel: Filters.Selection, cols: Columns, choice: SortChoice, sorted: seq<TableRow>, r: seq<(nat, TableRow)>)
    requires r == Seqs.Numbered(sorted)
    requires Sorting.SortedBy(sorted, Order(choice))
    requires forall i :: 0 <= i < |sorted| ==> FromListedRow(rows, sel, cols, sorted[i])
    requires forall m :: m in rows && Listed(sel, m) ==> exists i :: 0 <= i < |sorted| && sorted[i] == CellsOf(m, cols)
    requires |sel.families| == 1 ==> Seqs.Distinct(sorted)
    ensures forall i :: 0 <= i < |r| ==> r[i].0 == i + 1
    ensures forall i, j :: 0 <= i < j < |r| ==> Before(choice, r[i].1, r[j].1)
    ensures forall i :: 0 <= i < |r| ==> FromListedRow(rows, sel, cols, r[i].1)
    ensures forall m :: m in rows && Listed(sel, m) ==> InTable(r, CellsOf(m, cols))
    ensures |sel.families| == 1 ==> forall i, j :: 0 <= i < j < |r| ==> r[i].1 != r[j].1
    ensures Lines(r) == sorted
  {
    assert forall i :: 0 <= i < |r| ==> r[i].1 == sorted[i];
    forall i, j | 0 <= i < j < |r| ensures Before(choice, r[i].1, r[j].1) {
      assert Order(choice)(sorted[i], sorted[j]);
    }
  }

  /** Every sorted row comes from a listed row, and every listed row has its cells among the sorted ones. */
  lemma SortedContents(rows: seq<Merged>, sel: Filters.Selection, cols: Columns, prepared: seq<Prepared>, cells: seq<TableRow>, sorted: seq<TableRow>)
    requires prepared == PreparedRows(rows, sel, cols)
    requires cells == Seqs.Map(prepared, PreparedCells)
    requires multiset(sorted) == multiset(cells)
    ensures forall i :: 0 <= i < |sorted| ==> FromListedRow(rows, sel, cols, sorted[i])
    ensures forall m :: m in rows && Listed(sel, m) ==> exists i :: 0 <= i < |sorted| && sorted[i] == CellsOf(m, cols)
  {
    SortedFromListed(rows, sel, cols, prepared, cells, sorted);
    ListedInSorted(rows, sel, cols, prepared, cells, sorted);
  }

  lemma SortedFromListed(rows: seq<Merged>, sel: Filters.Selection, cols: Columns, prepared: seq<Prepared>, cells: seq<TableRow>, sorted: seq<TableRow>)
    requires prepared == PreparedRows(rows, sel, cols)
    requires cells == Seqs.Map(prepared, PreparedCells)
    requires multiset(sorted) == multiset(cells)
    ensures forall i :: 0 <= i < |sorted| ==> FromListedRow(rows, sel, cols, sorted[i])
  {
    forall i | 0 <= i < |sorted| ensures FromListedRow(rows, sel, cols, sorted[i]) {
      assert sorted[i] in multiset(cells);
      var k :| 0 <= k < |cells| && cells[k] == sorted[i];
      CellFromPrepared(rows, sel, cols, prepared[k]);
    }
  }

  lemma ListedInSorted(rows: seq<Merged>, sel: Filters.Selection, cols: Columns, prepared: seq<Prepared>, cells: seq<TableRow>, sorted: seq<TableRow>)
    requires prepared == PreparedRows(rows, sel, cols)
    requires cells == Seqs.Map(prepared, PreparedCells)
    requires multiset(sorted) == multiset(cells)
    ensures forall m :: m in rows && Listed(sel, m) ==> exists i :: 0 <= i < |sorted| && sorted[i] == CellsOf(m, cols)
  {
    forall m | m in rows && Listed(sel, m) ensures exists i :: 0 <= i < |sorted| && sorted[i] == CellsOf(m, cols) {
      PreparedFromRow(rows, sel, cols, m);
      var k :| 0 <= k < |prepared| && prepared[k] == PrepareMask(|sel.families| == 1, cols)(m);
      assert cells[k] in multiset(sorted);
      var i :| 0 <= i < |sorted| && sorted[i] == cells[k];
    }
  }

  lemma CellFromPrepared(rows: seq<Merged>, sel: Filters.Selection, cols: Columns, p: Prepared)
    requires p in PreparedRows(rows, sel, cols)
    ensures FromListedRow(rows, sel, cols, p.cells)
  {
    var listed := ListedRows(rows, sel);
    var j :| 0 <= j < |listed| && PrepareMask(|sel.families| == 1, cols)(listed[j]) == p;
    assert listed[j] in listed;
  }

  lemma PreparedFromRow(rows: seq<Merged>, sel: Filters.Selection, cols: Columns, m: Merged)
    requires m in rows && Listed(sel, m)
    ensures PrepareMask(|sel.families| == 1, cols)(m) in PreparedRows(rows, sel, cols)
  {
    var listed := ListedRows(rows, sel);
    assert m in listed;
    var j :| 0 <= j < |listed| && listed[j] == m;
  }

  lemma TableDistinct(rows: seq<Merged>, sel: Filters.Selection, cols: Columns, prepared: seq<Prepared>, cells: seq<TableRow>, sorted: seq<TableRow>)
    requires prepared == PreparedRows(rows, sel, cols)
    requires cells == Seqs.Map(prepared, PreparedCells)
    requires multiset(sorted) == multiset(cells)
    ensures |sel.families| == 1 ==> Seqs.Distinct(sorted)
  {
    if |sel.families| != 1 {
      return;
    }
    var listed := ListedRows(rows, sel);
    var prep := PrepareMask(true, cols);
    assert forall k :: 0 <= k < |prepared| ==> prepared[k].family.None? by {
      forall k | 0 <= k < |prepared| ensures prepared[k].family.None? {
        assert prepared[k] in prepared;
        var j :| 0 <= j < |listed| && prep(listed[j]) == prepared[k];
      }
    }
    assert Seqs.Distinct(cells) by {
      forall i, j | 0 <= i < j < |cells| ensures cells[i] != cells[j] {
        assert prepared[i] != prepared[j];
      }
    }
    Seqs.DistinctPermutation(cells, sorted);
  }

  function StatusKey(m: Merged): Option<string> { m.row.speciesStatusOriginal }
  function CountryKey(m: Merged): Option<string> { m.row.country }
  function SpeciesOf(m: Merged): Option<string> { m.binomial }

  /** Some listed row has value `g` under `key`. */
  ghost predicate KeyListed(rows: seq<Merged>, sel: Filters.Selection, key: Merged -> Option<string>, g: string) {
    exists m :: m in rows && Listed(sel, m) && key(m) == Some(g)
  }

  /** The distinct binomial names of the listed rows with value `g` under `key` (missing names not counted). */
  ghost function SpeciesWith(rows: seq<Merged>, sel: Filters.Selection, key: Merged -> Option<string>, g: string): set<string> {
    set m | m in rows && Listed(sel, m) && key(m) == Some(g) && m.binomial.Some? :: m.binomial.value
  }

  lemma ListedGroups(rows: seq<Merged>, sel: Filters.Selection, key: Merged -> Option<string>, g: string)
    ensures (exists k :: 0 <= k < |ListedRows(rows, sel)| && key(ListedRows(rows, sel)[k]) == Some(g)) <==> KeyListed(rows, sel, key, g)
    ensures Aggregate.SpeciesIn(ListedRows(rows, sel), key, SpeciesOf, g) == SpeciesWith(rows, sel, key, g)
  {
    ListedKeys(rows, sel, key, g);
    ListedSpecies(rows, sel, key, g);
  }

  lemma ListedKeys(rows: seq<Merged>, sel: Filters.Selection, key: Merged -> Option<string>, g: string)
    ensures (exists k :: 0 <= k < |ListedRows(rows, sel)| && key(ListedRows(rows, sel)[k]) == Some(g)) <==> KeyListed(rows, sel, key, g)
  {
    var listed := ListedRows(rows, sel);
    if KeyListed(rows, sel, key, g) {
      var m :| m in rows && Listed(sel, m) && key(m) == Some(g);
      assert m in listed;
      var k :| 0 <= k < |listed| && listed[k] == m;
    }
    if exists k :: 0 <= k < |listed| && key(listed[k]) == Some(g) {
      var k :| 0 <= k < |listed| && key(listed[k]) == Some(g);
      assert listed[k] in listed;
    }
  }

  lemma ListedSpecies(rows: seq<Merged>, sel: Filters.Selection, key: Merged -> Option<string>, g: string)
    ensures Aggregate.SpeciesIn(ListedRows(rows, sel), key, SpeciesOf, g) == SpeciesWith(rows, sel, key, g)
  {
    var listed := ListedRows(rows, sel);
    var s := Aggregate.SpeciesIn(listed, key, SpeciesOf, g);
    var w := SpeciesWith(rows, sel, key, g);
    forall b | b in s ensures b in w {
      var k :| 0 <= k < |listed| && key(listed[k]) == Some(g) && SpeciesOf(listed[k]) == Some(b);
      assert listed[k] in listed;
    }
    forall b | b in w ensures b in s {
      var m :| m in rows && Listed(sel, m) && key(m) == Some(g) && m.binomial.Some? && m.binomial.value == b;
      assert m in listed;
      var k :| 0 <= k < |listed| && listed[k] == m;
    }
  }

  /**
   * The status chart's data (`groupby("Species_status_original")` with
   * `nunique` of the binomial name): one entry per status code present among
   * the listed rows, codes in ascending order, each with its number of
   * distinct species.
   */
  function StatusCounts(rows: seq<Merged>, sel: Filters.Selection): (r: seq<(string, nat)>)
    ensures forall i, j :: 0 <= i < j < |r| ==> Collation.Less(r[i].0, r[j].0)
    ensures forall g :: (exists i :: 0 <= i < |r| && r[i].0 == g) <==> KeyListed(rows, sel, StatusKey, g)
    ensures forall i :: 0 <= i < |r| ==> r[i].1 == |SpeciesWith(rows, sel, StatusKey, r[i].0)|
  {
    var r := Aggregate.GroupCounts(ListedRows(rows, sel), StatusKey, SpeciesOf);
    forall g ensures (exists i :: 0 <= i < |r| && r[i].0 == g) <==> KeyListed(rows, sel, StatusKey, g) {
      ListedGroups(rows, sel, StatusKey, g);
    }
    forall i | 0 <= i < |r| ensures r[i].1 == |SpeciesWith(rows, sel, StatusKey, r[i].0)| {
      ListedGroups(rows, sel, StatusKey, r[i].0);
    }
    r
  }

  /** One row of the country chart: `Country`, `NumSpecies`, `RowNumber`, `id` and `Country_Name`. */
  datatype CountryStat = CountryStat(country: string, numSpecies: nat, rowNumber: nat, id: Option<nat>, name: Option<string>)

  /** `sort_values(by="NumSpecies", ascending=False)`. */
  function MostSpeciesFirst(): ((string, nat), (string, nat)) -> bool {
    (a: (string, nat), b: (string, nat)) => a.1 >= b.1
  }

  function StatOf(count: (string, nat), rowNumber: nat, lookup: map<string, Countries.IsoCountry>): CountryStat
    requires Countries.ValidLookup(lookup)
  {
    var res := Countries.Resolve(count.0, lookup);
    CountryStat(count.0, count.1, rowNumber, res.id, res.name)
  }

  function StatsFrom(counts: seq<(string, nat)>, start: nat, lookup: map<string, Countries.IsoCountry>): (r: seq<CountryStat>)
    requires Countries.ValidLookup(lookup)
    ensures |r| == |counts|
    ensures forall i :: 0 <= i < |r| ==> r[i] == StatOf(counts[i], start + i, lookup)
  {
    if |counts| == 0 then [] else [StatOf(counts[0], start, lookup)] + StatsFrom(counts[1..], start + 1, lookup)
  }

  /**
   * The country chart and map data: the distinct-species count of every
   * country among the listed rows, most species first (ties in any order),
   * numbered from 1, each with the numeric id and name the country resolves
   * to.
   */
  function CountryChart(rows: seq<Merged>, sel: Filters.Selection, lookup: map<string, Countries.IsoCountry>): (r: seq<CountryStat>)
    requires Countries.ValidLookup(lookup)
    ensures forall i :: 0 <= i < |r| ==> r[i].rowNumber == i + 1
    ensures forall i, j :: 0 <= i < j < |r| ==> r[i].numSpecies >= r[j].numSpecies
    ensures forall i :: 0 <= i < |r| ==> r[i].numSpecies == |SpeciesWith(rows, sel, CountryKey, r[i].country)|
    ensures forall g :: (exists i :: 0 <= i < |r| && r[i].country == g) <==> KeyListed(rows, sel, CountryKey, g)
    ensures forall i, j :: 0 <= i < j < |r| ==> r[i].country != r[j].country
    ensures forall i :: 0 <= i < |r| ==> Countries.Resolution(r[i].id, r[i].name) == Countries.Resolve(r[i].country, lookup)
  {
    var counts := Aggregate.GroupCounts(ListedRows(rows, sel), CountryKey, SpeciesOf);
    MostSpeciesFirstIsTotalPreorder();
    var sorted := Sorting.Sort(counts, MostSpeciesFirst());
    var r := StatsFrom(sorted, 1, lookup);
    ChartFromCounts(rows, sel, lookup, counts, sorted, r);
    r
  }

  /** The chart built from any sort outcome of the per-country counts has the chart's properties. */
  lemma ChartFromCounts(rows: seq<Merged>, sel: Filters.Selection, lookup: map<string, Countries.IsoCountry>,
                        counts: seq<(string, nat)>, sorted: seq<(string, nat)>, r: seq<CountryStat>)
    requires Countries.ValidLookup(lookup)
    requires counts == Aggregate.GroupCounts(ListedRows(rows, sel), CountryKey, SpeciesOf)
    requires Sorting.SortOutcome(counts, sorted, MostSpeciesFirst())
    requires r == StatsFrom(sorted, 1, lookup)
    ensures forall i :: 0 <= i < |r| ==> r[i].rowNumber == i + 1
    ensures forall i, j :: 0 <= i < j < |r| ==> r[i].numSpecies >= r[j].numSpecies
    ensures forall i :: 0 <= i < |r| ==> r[i].numSpecies == |SpeciesWith(rows, sel, CountryKey, r[i].country)|
    ensures forall g :: (exists i :: 0 <= i < |r| && r[i].country == g) <==> KeyListed(rows, sel, CountryKey, g)
    ensures forall i, j :: 0 <= i < j < |r| ==> r[i].country != r[j].country
    ensures forall i :: 0 <= i < |r| ==> Countries.Resolution(r[i].id, r[i].name) == Countries.Resolve(r[i].country, lookup)
  {
    CountedSpecies(rows, sel, counts, sorted);
    CountedCountries(rows, sel, sorted);
    CountsKeysDistinct(counts, sorted);
    ChartFromSorted(rows, sel, lookup, sorted, r);
  }

  /** Numbering and resolving the sorted counts keeps their order, counts and countries. */
  lemma ChartFromSorted(rows: seq<Merged>, sel: Filters.Selection, lookup: map<string, Countries.IsoCountry>, sorted: seq<(string, nat)>, r: seq<CountryStat>)
    requires Countries.ValidLookup(lookup)
    requires r == StatsFrom(sorted, 1, lookup)
    requires Sorting.SortedBy(sorted, MostSpeciesFirst())
    requires forall i :: 0 <= i < |sorted| ==> sorted[i].1 == |SpeciesWith(rows, sel, CountryKey, sorted[i].0)|
    requires forall g :: (exists i :: 0 <= i < |sorted| && sorted[i].0 == g) <==> KeyListed(rows, sel, CountryKey, g)
    requires forall i, j :: 0 <= i < j < |sorted| ==> sorted[i].0 != sorted[j].0
    ensures forall i :: 0 <= i < |r| ==> r[i].rowNumber == i + 1
    ensures forall i, j :: 0 <= i < j < |r| ==> r[i].numSpecies >= r[j].numSpecies
    ensures forall i :: 0 <= i < |r| ==> r[i].numSpecies == |SpeciesWith(rows, sel, CountryKey, r[i].country)|
    ensures forall g :: (exists i :: 0 <= i < |r| && r[i].country == g) <==> KeyListed(rows, sel, CountryKey, g)
    ensures forall i, j :: 0 <= i < j < |r| ==> r[i].country != r[j].country
    ensures forall i :: 0 <= i < |r| ==> Countries.Resolution(r[i].id, r[i].name) == Countries.Resolve(r[i].country, lookup)
  {
    assert forall i :: 0 <= i < |r| ==> r[i].country == sorted[i].0 && r[i].numSpecies == sorted[i].1;
    forall i, j | 0 <= i < j < |r| ensures r[i].numSpecies >= r[j].numSpecies {
      assert MostSpeciesFirst()(sorted[i], sorted[j]);
    }
    forall g ensures (exists i :: 0 <= i < |r| && r[i].country == g) <==> KeyListed(rows, sel, CountryKey, g) {
      if exists i :: 0 <= i < |sorted| && sorted[i].0 == g {
        var i :| 0 <= i < |sorted| && sorted[i].0 == g;
        assert r[i].country == g;
      }
    }
  }

  lemma MostSpeciesFirstIsTotalPreorder()
    ensures Sorting.TotalPreorder(MostSpeciesFirst())
  {
  }

  lemma CountedSpecies(rows: seq<Merged>, sel: Filters.Selection, counts: seq<(string, nat)>, sorted: seq<(string, nat)>)
    requires counts == Aggregate.GroupCounts(ListedRows(rows, sel), CountryKey, SpeciesOf)
    requires multiset(sorted) == multiset(counts)
    ensures forall i :: 0 <= i < |sorted| ==> sorted[i].1 == |SpeciesWith(rows, sel, CountryKey, sorted[i].0)|
  {
    forall i | 0 <= i < |sorted| ensures sorted[i].1 == |SpeciesWith(rows, sel, CountryKey, sorted[i].0)| {
      assert sorted[i] in multiset(counts);
      var k :| 0 <= k < |counts| && counts[k] == sorted[i];
      ListedSpecies(rows, sel, CountryKey, sorted[i].0);
    }
  }

  lemma CountedCountries(rows: seq<Merged>, sel: Filters.Selection, sorted: seq<(string, nat)>)
    requires multiset(sorted) == multiset(Aggregate.GroupCounts(ListedRows(rows, sel), CountryKey, SpeciesOf))
    ensures forall g :: (exists i :: 0 <= i < |sorted| && sorted[i].0 == g) <==> KeyListed(rows, sel, CountryKey, g)
  {
    forall g ensures (exists i :: 0 <= i < |sorted| && sorted[i].0 == g) <==> KeyListed(rows, sel, CountryKey, g) {
      CountedCountry(ListedRows(rows, sel), rows, sel, sorted, g);
    }
  }

  /** Country `g` is in the sorted counts exactly when some listed row is in `g`. */
  lemma CountedCountry(listed: seq<Merged>, rows: seq<Merged>, sel: Filters.Selection, sorted: seq<(string, nat)>, g: string)
    requires listed == ListedRows(rows, sel)
    requires multiset(sorted) == multiset(Aggregate.GroupCounts(listed, CountryKey, SpeciesOf))
    ensures (exists i :: 0 <= i < |sorted| && sorted[i].0 == g) <==> KeyListed(rows, sel, CountryKey, g)
  {
    Aggregate.PermutedGroupKey(ListedRows(rows, sel), CountryKey, SpeciesOf, sorted, g);
    ListedKeys(rows, sel, CountryKey, g);
  }

  /** A permutation of a key-ascending list of pairs has no key twice. */
  lemma CountsKeysDistinct(counts: seq<(string, nat)>, sorted: seq<(string, nat)>)
    requires forall i, j :: 0 <= i < j < |counts| ==> Collation.Less(counts[i].0, counts[j].0)
    requires multiset(sorted) == multiset(counts)
    ensures forall i, j :: 0 <= i < j < |sorted| ==> sorted[i].0 != sorted[j].0
  {
    assert Seqs.Distinct(counts) by {
      forall a, b | 0 <= a < b < |counts| ensures counts[a] != counts[b] {
        Collation.LessIrreflexive(counts[a].0);
      }
    }
    Seqs.DistinctPermutation(counts, sorted);
    forall i, j | 0 <= i < j < |sorted| ensures sorted[i].0 != sorted[j].0 {
      assert sorted[i] in multiset(counts);
      assert sorted[j] in multiset(counts);
      var a :| 0 <= a < |counts| && counts[a] == sorted[i];
      var b :| 0 <= b < |counts| && counts[b] == sorted[j];
      if a != b {
        Collation.LessIrreflexive(counts[a].0);
        Collation.LessIrreflexive(counts[b].0);
      }
    }
  }
}

=== FILE: records.dfy ===
/**
 * One row of the appearances sheet: one species (or subspecies) seen in one
 * episode. Cells the sheet may leave empty are `Option`s; show, episode and
 * air date are always present.
 */
module Records {
  import opened Wrappers
  import opened Dates

  datatype Row = Row(
    appearanceNumber: Option<int>,      // Appearance_number
    show: string,                       // Show
    episode: string,                    // Episode
    airDate: Date,                      // Air_date
    image1: Option<string>,             // Image_1
    image2: Option<string>,             // Image_2
    image3: Option<string>,             // Image_3
    animalName: Option<string>,         // Animal_name, shown as "Animal subspecies"
    animalNameOriginal: Option<string>, // Animal_name_original, shown as "Animal"
    scientificName: Option<string>,     // Scientific_name
    speciesStatus: Option<string>,      // Species_status, shown as "Subspecies status code"
    speciesStatusOriginal: Option<string>, // Species_status_original, shown as "Species status code"
    taxonClass: Option<string>,         // Class
    family: Option<string>,             // Family
    speciesLockDate: Option<Date>,      // Species_lock_date
    country: Option<string>,            // Country
    countryCode: Option<string>,        // Country_code (ISO 3166-1 alpha-3)
    continent: Option<string>,          // Continent
    lat: Option<real>,                  // Lat
    lon: Option<real>,                  // Lon
    iucnStatus: Option<string>,         // IUCN_status (read by the summary page only)
    otherCells: seq<Option<string>>     // the other loaded columns (Coappearance_number, Other_animals, Is_New, ID,
                                        // Summary, Location, Notes): compared by deduplication, never read
  )

  /** The four renames applied after underscores become spaces. */
  const FixedRenames: map<string, string> := map[
    "Species status" := "Subspecies status code",
    "Species status original" := "Species status code",
    "Animal name original" := "Animal",
    "Animal name" := "Animal subspecies"
  ]

  /** `col.replace("_", " ")`. */
  function UnderscoresToSpaces(col: string): (r: string)
    ensures |r| == |col|
    ensures '_' !in r
    ensures forall i :: 0 <= i < |col| && col[i] != '_' ==> r[i] == col[i]
    ensures forall i :: 0 <= i < |col| && col[i] == '_' ==> r[i] == ' '
  {
    seq(|col|, i requires 0 <= i < |col| => if col[i] == '_' then ' ' else col[i])
  }

  /** Replacing underscores by spaces never merges two column names that have no spaces. */
  lemma {:induction false} UnderscoresToSpacesInjective(a: string, b: string)
    requires ' ' !in a && ' ' !in b
    requires UnderscoresToSpaces(a) == UnderscoresToSpaces(b)
    ensures a == b
  {
    if |a| > 0 {
      assert UnderscoresToSpaces(a)[0] == UnderscoresToSpaces(b)[0];
      assert UnderscoresToSpaces(a)[1..] == UnderscoresToSpaces(a[1..]);
      assert UnderscoresToSpaces(b)[1..] == UnderscoresToSpaces(b[1..]);
      assert a[0] != ' ' && b[0] != ' ';
      UnderscoresToSpacesInjective(a[1..], b[1..]);
      assert a == [a[0]] + a[1..] && b == [b[0]] + b[1..];
    }
  }

  /** The display name of a sheet column: underscores become spaces, then the fixed renames apply. */
  function RenameColumn(col: string): (r: string)
    ensures '_' !in r
    ensures r == UnderscoresToSpaces(col) || r in FixedRenames.Values
    ensures UnderscoresToSpaces(col) !in FixedRenames ==> r == UnderscoresToSpaces(col)
  {
    var spaced := UnderscoresToSpaces(col);
    if spaced in FixedRenames then FixedRenames[spaced] else spaced
  }

  /** The four renamed sheet columns get their display names. */
  lemma FixedRenamesApply()
    ensures RenameColumn("Species_status") == "Subspecies status code"
    ensures RenameColumn("Species_status_original") == "Species status code"
    ensures RenameColumn("Animal_name_original") == "Animal"
    ensures RenameColumn("Animal_name") == "Animal subspecies"
  {
    StatusColumnsRenamed();
    NameColumnsRenamed();
  }

  /** The two status code columns get their display names. */
  lemma StatusColumnsRenamed()
    ensures RenameColumn("Species_status") == "Subspecies status code"
    ensures RenameColumn("Species_status_original") == "Species status code"
  {
    assert UnderscoresToSpaces("Species_status") == "Species status";
    assert UnderscoresToSpaces("Species_status_original") == "Species status original";
  }

  /** The two animal name columns get their display names. */
  lemma NameColumnsRenamed()
    ensures RenameColumn("Animal_name_original") == "Animal"
    ensures RenameColumn("Animal_name") == "Animal subspecies"
  {
    assert UnderscoresToSpaces("Animal_name_original") == "Animal name original";
    assert UnderscoresToSpaces("Animal_name") == "Animal name";
  }

  /** Every other sheet column only has its underscores turned into spaces. */
  lemma OtherColumnsSpaced()
    ensures RenameColumn("Appearance_number") == "Appearance number"
    ensures RenameColumn("Scientific_name") == "Scientific name"
    ensures RenameColumn("Species_lock_date") == "Species lock date"
    ensures RenameColumn("Show") == "Show"
  {
    assert UnderscoresToSpaces("Appearance_number") == "Appearance number";
    assert UnderscoresToSpaces("Scientific_name") == "Scientific name";
    assert UnderscoresToSpaces("Species_lock_date") == "Species lock date";
    assert UnderscoresToSpaces("Show") == "Show";
  }
}

=== FILE: seqs.dfy ===
/**
 * Order-preserving sequence operations that the dashboard pipeline uses on
 * tables: boolean-mask selection (`df[mask]`), `drop_duplicates` and
 * `reset_index` followed by a 1-based index.
 */
module Seqs {

  /** `a` is `b` with some elements removed, the rest kept in order. */
  predicate IsSubsequence<T(==)>(a: seq<T>, b: seq<T>)
    decreases |b|
  {
    |a| <= |b| &&
    (|a| == 0 ||
     (|b| > 0 && ((a[0] == b[0] && IsSubsequence(a[1..], b[1..])) || IsSubsequence(a, b[1..]))))
  }

  /** The elements of `s` that satisfy `p`, in their original order (a boolean-mask selection). */
  function Filter<T(==,!new)>(s: seq<T>, p: T -> bool): (r: seq<T>)
    ensures IsSubsequence(r, s)
    ensures forall x {:trigger multiset(r)[x]} :: multiset(r)[x] == if p(x) then multiset(s)[x] else 0
    ensures forall x :: x in r <==> x in s && p(x)
    ensures (forall x :: x in s ==> p(x)) ==> r == s
  {
    if |s| == 0 then []
    else
      var rest := Filter(s[1..], p);
      assert s == [s[0]] + s[1..];
      if p(s[0]) then [s[0]] + rest else rest
  }

  /** The conjunction of two masks. */
  function Both<T>(p: T -> bool, q: T -> bool): T -> bool {
    x => p(x) && q(x)
  }

  /** Filtering twice is filtering once by the conjunction of the masks. */
  lemma {:induction false} FilterFilter<T(!new)>(s: seq<T>, p: T -> bool, q: T -> bool)
    ensures Filter(Filter(s, p), q) == Filter(s, Both(p, q))
  {
    if |s| > 0 {
      FilterFilter(s[1..], p, q);
    }
  }

  /** Filtering by two predicates that agree on every element gives the same rows. */
  lemma {:induction false} FilterAgrees<T(!new)>(s: seq<T>, p: T -> bool, q: T -> bool)
    requires forall x :: x in s ==> p(x) == q(x)
    ensures Filter(s, p) == Filter(s, q)
  {
    if |s| > 0 {
      FilterAgrees(s[1..], p, q);
    }
  }

  /** Filtering by `p` and then by `q` is filtering by any predicate that is their conjunction. */
  lemma FilterThenFilter<T(!new)>(s: seq<T>, p: T -> bool, q: T -> bool, both: T -> bool)
    requires forall x :: both(x) == (p(x) && q(x))
    ensures Filter(Filter(s, p), q) == Filter(s, both)
  {
    FilterFilter(s, p, q);
    FilterAgrees(s, Both(p, q), both);
  }

  /** No element occurs twice. */
  predicate Distinct<T(==)>(s: seq<T>) {
    forall i, j :: 0 <= i < j < |s| ==> s[i] != s[j]
  }

  /** Position of the first occurrence of `x` in `s`. */
  function FirstIndex<T(==)>(s: seq<T>, x: T): (k: nat)
    requires x in s
    ensures k < |s| && s[k] == x && x !in s[..k]
  {
    if s[0] == x then 0 else 1 + FirstIndex(s[1..], x)
  }

  lemma {:induction false} FirstIndexInPrefix<T>(s: seq<T>, n: nat, x: T)
    requires n <= |s| && x in s[..n]
    ensures FirstIndex(s, x) == FirstIndex(s[..n], x)
  {
    if s[0] != x {
      assert s[..n][1..] == s[1..][..n - 1];
      FirstIndexInPrefix(s[1..], n - 1, x);
    }
  }

  /**
   * `drop_duplicates()`: the first occurrence of every element is kept and
   * later repeats are dropped.
   */
  function Dedupe<T(==,!new)>(s: seq<T>): (r: seq<T>)
    ensures forall x :: x in r <==> x in s
    ensures Distinct(r)
    ensures forall i, j :: 0 <= i < j < |r| ==> FirstIndex(s, r[i]) < FirstIndex(s, r[j])
  {
    if |s| == 0 then []
    else
      var init := s[..|s| - 1];
      var last := s[|s| - 1];
      var d := Dedupe(init);
      assert s == init + [last];
      assert forall x :: x in d ==> FirstIndex(s, x) == FirstIndex(init, x) by {
        forall x | x in d {
          FirstIndexInPrefix(s, |s| - 1, x);
        }
      }
      if last in d then d
      else
        assert FirstIndex(s, last) == |s| - 1;
        d + [last]
  }

  /** Five concatenated pieces, grouped from the left or from the right. */
  lemma Associate<T>(a: seq<T>, b: seq<T>, c: seq<T>, d: seq<T>, e: seq<T>)
    ensures a + b + c + d + e == a + (b + (c + (d + e)))
  {
  }

  /** The three parts of `a + b + c` can be read back by slicing. */
  lemma Framed<T>(a: seq<T>, b: seq<T>, c: seq<T>)
    ensures (a + b + c)[..|a|] == a
    ensures (a + b + c)[|a|..|a| + |b|] == b
    ensures (a + b + c)[|a| + |b|..] == c
  {
  }

  /** A sequence that is already free of duplicates is left unchanged by `Dedupe`. */
  lemma {:induction false} DedupeDistinct<T(!new)>(s: seq<T>)
    requires Distinct(s)
    ensures Dedupe(s) == s
  {
    if |s| > 0 {
      var init := s[..|s| - 1];
      DedupeDistinct(init);
      assert s[|s| - 1] !in init;
      assert s == init + [s[|s| - 1]];
    }
  }

  /** `Distinct` is the same as every multiplicity being at most one. */
  lemma {:induction false} DistinctMultiplicity<T>(s: seq<T>)
    ensures Distinct(s) <==> forall x :: multiset(s)[x] <= 1
  {
    if |s| > 0 {
      var init := s[..|s| - 1];
      DistinctMultiplicity(init);
      assert s == init + [s[|s| - 1]];
      if !Distinct(s) {
        var i, j :| 0 <= i < j < |s| && s[i] == s[j];
        if j < |s| - 1 {
          assert init[i] == init[j];
          var x :| multiset(init)[x] > 1;
          assert multiset(s)[x] >= multiset(init)[x];
        } else {
          assert s[i] in init;
          assert multiset(s)[s[i]] == multiset(init)[s[i]] + 1;
        }
      }
    }
  }

  /** Reordering a table keeps it free of duplicates. */
  lemma DistinctPermutation<T>(s: seq<T>, t: seq<T>)
    requires Distinct(s) && multiset(s) == multiset(t)
    ensures Distinct(t)
  {
    DistinctMultiplicity(s);
    DistinctMultiplicity(t);
  }

  /** `reset_index(drop=True)` then `index + 1`: each row paired with its position counted from `start`. */
  function NumberFrom<T>(s: seq<T>, start: nat): (r: seq<(nat, T)>)
    ensures |r| == |s|
    ensures forall i :: 0 <= i < |r| ==> r[i] == (start + i, s[i])
  {
    if |s| == 0 then [] else [(start, s[0])] + NumberFrom(s[1..], start + 1)
  }

  /** The displayed table: rows in order, indexed 1..n. */
  function Numbered<T>(s: seq<T>): (r: seq<(nat, T)>)
    ensures |r| == |s|
    ensures forall i :: 0 <= i < |r| ==> r[i].0 == i + 1 && r[i].1 == s[i]
  {
    NumberFrom(s, 1)
  }

  /** Applies `f` to every element, keeping the order (a column computed row by row). */
  function Map<T, U>(s: seq<T>, f: T -> U): (r: seq<U>)
    ensures |r| == |s|
    ensures forall i :: 0 <= i < |s| ==> r[i] == f(s[i])
  {
    if |s| == 0 then [] else [f(s[0])] + Map(s[1..], f)
  }

  /** An element is in a mapped sequence exactly when it is the image of an element. */
  lemma MapMembership<T, U>(s: seq<T>, f: T -> U, y: U)
    ensures y in Map(s, f) <==> exists k :: 0 <= k < |s| && f(s[k]) == y
  {
    if y in Map(s, f) {
      var k :| 0 <= k < |s| && Map(s, f)[k] == y;
    }
  }

  /** A subset is no larger than its superset. */
  lemma {:induction false} SubsetCardinality<T>(a: set<T>, b: set<T>)
    requires a <= b
    ensures |a| <= |b|
  {
    if a != {} {
      var x :| x in a;
      SubsetCardinality(a - {x}, b - {x});
    }
  }
}

=== FILE: sorting.dfy ===
/**
 * Sorting a table by a comparator. pandas' `sort_values` gives no promise
 * about the relative order of rows whose keys tie, so the contract here says
 * only what every admissible outcome satisfies: the result is a permutation
 * of the input and is ordered by the comparator. Insertion sort is one
 * concrete way of producing such an outcome.
 */
module Sorting {

  /** `le` is a total preorder: any two rows compare, and comparison chains. */
  ghost predicate TotalPreorder<T(!new)>(le: (T, T) -> bool) {
    && (forall a, b :: le(a, b) || le(b, a))
    && (forall a, b, c :: le(a, b) && le(b, c) ==> le(a, c))
  }

  /** Every row is `le` every later row. */
  predicate SortedBy<T>(s: seq<T>, le: (T, T) -> bool) {
    forall i, j :: 0 <= i < j < |s| ==> le(s[i], s[j])
  }

  /** `t` is one admissible outcome of sorting `s` by `le`. */
  ghost predicate SortOutcome<T>(s: seq<T>, t: seq<T>, le: (T, T) -> bool) {
    multiset(t) == multiset(s) && SortedBy(t, le)
  }

  function Insert<T(!new)>(x: T, s: seq<T>, le: (T, T) -> bool): (r: seq<T>)
    requires TotalPreorder(le)
    requires SortedBy(s, le)
    ensures multiset(r) == multiset(s) + multiset{x}
    ensures SortedBy(r, le)
  {
    if |s| == 0 then [x]
    else if le(x, s[0]) then [x] + s
    else
      var rest := Insert(x, s[1..], le);
      InsertBehind(x, s, le, rest);
      [s[0]] + rest
  }

  /** The head of `s`, placed before the insertion into its tail, keeps the whole sorted. */
  lemma InsertBehind<T(!new)>(x: T, s: seq<T>, le: (T, T) -> bool, rest: seq<T>)
    requires TotalPreorder(le)
    requires SortedBy(s, le)
    requires |s| > 0 && !le(x, s[0])
    requires multiset(rest) == multiset(s[1..]) + multiset{x}
    requires SortedBy(rest, le)
    ensures multiset([s[0]] + rest) == multiset(s) + multiset{x}
    ensures SortedBy([s[0]] + rest, le)
  {
    assert s == [s[0]] + s[1..];
    forall j | 0 <= j < |rest| ensures le(s[0], rest[j]) {
      assert rest[j] in multiset(rest);
      if rest[j] != x {
        assert rest[j] in multiset(s[1..]);
        var k :| 0 <= k < |s[1..]| && s[1..][k] == rest[j];
        assert s[k + 1] == rest[j];
      }
    }
  }

  /** Sorts `s` by `le`; the outcome is a permutation of `s` ordered by `le`. */
  function Sort<T(!new)>(s: seq<T>, le: (T, T) -> bool): (r: seq<T>)
    requires TotalPreorder(le)
    ensures multiset(r) == multiset(s)
    ensures SortedBy(r, le)
  {
    if |s| == 0 then []
    else
      assert s == [s[0]] + s[1..];
      Insert(s[0], Sort(s[1..], le), le)
  }

  /** Sorting leaves the set of rows, and their number, unchanged. */
  lemma SortKeepsRows<T(!new)>(s: seq<T>, t: seq<T>, le: (T, T) -> bool)
    requires SortOutcome(s, t, le)
    ensures |t| == |s|
    ensures forall x :: x in t <==> x in s
  {
    assert |t| == |multiset(t)| == |multiset(s)| == |s|;
    forall x ensures x in t <==> x in s {
      assert x in t <==> x in multiset(t);
      assert x in s <==> x in multiset(s);
    }
  }

  /** In a sorted sequence every row is `le` the last one. */
  lemma UpToLast<T(!new)>(t: seq<T>, le: (T, T) -> bool, x: T)
    requires TotalPreorder(le)
    requires SortedBy(t, le)
    requires x in t
    ensures le(x, t[|t| - 1])
  {
    var i :| 0 <= i < |t| && t[i] == x;
    var n := |t| - 1;
    assert le(t[i], t[n]) || le(t[n], t[i]);
  }
}

=== FILE: status.dfy ===
/**
 * The IUCN conservation status catalogue: the nine codes, their display
 * labels and the fixed display order LC, NT, VU, EN, CR, EX, DO, DD, NE.
 */
module Status {
  import opened Wrappers
  import Seqs
  import Sorting

  /** `status_order`. */
  const Order: seq<string> := ["LC", "NT", "VU", "EN", "CR", "EX", "DO", "DD", "NE"]

  /** `status_code_labels`. */
  const Labels: map<string, string> := map[
    "LC" := "Least Concern",
    "NT" := "Near Threatened",
    "VU" := "Vulnerable",
    "EN" := "Endangered",
    "CR" := "Critically Endangered",
    "DO" := "Domesticated",
    "DD" := "Data Deficient",
    "NE" := "Not Evaluated",
    "EX" := "Extinct"
  ]

  /** The label catalogue and the display order cover exactly the same nine codes, once each. */
  lemma CatalogueConsistent()
    ensures Seqs.Distinct(Order)
    ensures forall c :: c in Labels <==> c in Order
  {
  }

  /**
   * `column.map(status_code_labels)`: the label of a known code; a missing
   * cell or a code outside the catalogue gives a missing label, never a
   * fallback string.
   */
  function Label(code: Option<string>): (r: Option<string>)
    ensures r.Some? <==> code.Some? && code.value in Order
    ensures r.Some? ==> code.value in Labels && r.value == Labels[code.value]
  {
    if code.Some? && code.value in Labels then Some(Labels[code.value]) else None
  }

  /** The nine codes and their labels, as the catalogue lists them. */
  lemma LabelsOfCodes()
    ensures Label(Some("LC")) == Some("Least Concern")
    ensures Label(Some("NT")) == Some("Near Threatened")
    ensures Label(Some("VU")) == Some("Vulnerable")
    ensures Label(Some("EN")) == Some("Endangered")
    ensures Label(Some("CR")) == Some("Critically Endangered")
    ensures Label(Some("DO")) == Some("Domesticated")
    ensures Label(Some("DD")) == Some("Data Deficient")
    ensures Label(Some("NE")) == Some("Not Evaluated")
    ensures Label(Some("EX")) == Some("Extinct")
    ensures Label(None) == None && Label(Some("nan")) == None
  {
    LowRiskLabels();
    HighRiskLabels();
    OtherLabels();
  }

  /** The labels of the three lower-risk codes. */
  lemma LowRiskLabels()
    ensures Label(Some("LC")) == Some("Least Concern")
    ensures Label(Some("NT")) == Some("Near Threatened")
    ensures Label(Some("VU")) == Some("Vulnerable")
  {
  }

  /** The labels of the two higher-risk codes. */
  lemma HighRiskLabels()
    ensures Label(Some("EN")) == Some("Endangered")
    ensures Label(Some("CR")) == Some("Critically Endangered")
  {
  }

  /** The labels of the remaining four codes, and none for a missing or unknown code. */
  lemma OtherLabels()
    ensures Label(Some("DO")) == Some("Domesticated")
    ensures Label(Some("DD")) == Some("Data Deficient")
    ensures Label(Some("NE")) == Some("Not Evaluated")
    ensures Label(Some("EX")) == Some("Extinct")
    ensures Label(None) == None && Label(Some("nan")) == None
  {
  }

  /** Different codes never share a label, so the label identifies the code. */
  lemma LabelIdentifiesCode(a: Option<string>, b: Option<string>)
    requires Label(a).Some? && Label(a) == Label(b)
    ensures a == b
  {
  }

  /**
   * The position of a code under `pd.Categorical(categories=status_order,
   * ordered=True)`; codes outside the categories become NaN, which
   * `sort_values` places after every category.
   */
  function Rank(code: Option<string>): (r: nat)
    ensures r <= |Order|
    ensures r < |Order| <==> code.Some? && code.value in Order
    ensures r < |Order| ==> Order[r] == code.value
  {
    if code.Some? && code.value in Order then Seqs.FirstIndex(Order, code.value) else |Order|
  }

  /** Ascending categorical order of status codes, unknown codes last. */
  function ByRank(): (Option<string>, Option<string>) -> bool {
    (a: Option<string>, b: Option<string>) => Rank(a) <= Rank(b)
  }

  lemma ByRankIsTotalPreorder()
    ensures Sorting.TotalPreorder(ByRank())
  {
  }

  /** A code earlier in `status_order` always sorts before a later one, and known codes before unknown ones. */
  lemma RankFollowsOrder(i: nat, j: nat, other: Option<string>)
    requires i < j < |Order|
    requires other.None? || other.value !in Order
    ensures Rank(Some(Order[i])) < Rank(Some(Order[j]))
    ensures Rank(Some(Order[j])) < Rank(other)
  {
    CatalogueConsistent();
  }
}

=== FILE: summary.dfy ===
/**
 * The standalone summary page: every row gets its binomial name and the
 * latest appearance of its species, the rows are narrowed by a country and
 * a family multi-select, and the distinct (family, animal, binomial, IUCN
 * status, last show, last date) lines are listed by family and binomial
 * name, numbered from 1.
 */
module Summary {
  import opened Wrappers
  import opened Records
  import opened Dates
  import Seqs
  import Sorting
  import Collation
  import Filters
  import Aggregate

  /**
   * `df` with "Binomial_name" added and the latest appearance of the
   * species merged in, one merged row per sheet row in sheet order; `sorted`
   * is the sheet sorted latest first, ties in any order.
   */
  function LastAppearances(rows: seq<Row>, sorted: seq<Row>): (r: seq<Aggregate.Merged>)
    requires Sorting.SortOutcome(rows, sorted, Aggregate.LatestFirst())
    ensures |r| == |rows|
    ensures forall i :: 0 <= i < |r| ==> r[i].row == rows[i] && r[i].binomial == Aggregate.BinomialOf(rows[i])
    ensures forall i :: 0 <= i < |r| ==> (r[i].last.Some? <==> r[i].binomial.Some?)
    ensures forall i :: 0 <= i < |r| && r[i].binomial.Some? ==>
      Aggregate.IsLatestOfGroup(rows, r[i].binomial.value, r[i].last.value)
    ensures forall i, j :: 0 <= i < |r| && 0 <= j < |r| && r[i].binomial == r[j].binomial ==> r[i].last == r[j].last
  {
    Aggregate.MergeAppearances(rows, sorted)
  }

  function Country(m: Aggregate.Merged): Option<string> { m.row.country }
  function Family(m: Aggregate.Merged): Option<string> { m.row.family }

  /** `sorted(merged_df[column].dropna().unique())`: the choices of one multi-select. */
  function Options(merged: seq<Aggregate.Merged>, field: Aggregate.Merged -> Option<string>): (r: seq<string>)
    ensures Collation.StrictlyAscending(r)
    ensures forall v :: v in r <==> exists i :: 0 <= i < |merged| && field(merged[i]) == Some(v)
  {
    var cells := Seqs.Map(merged, field);
    forall v ensures Some(v) in cells <==> exists i :: 0 <= i < |merged| && field(merged[i]) == Some(v) {
      Seqs.MapMembership(merged, field, Some(v));
    }
    Collation.OptionList(cells)
  }

  /**
   * The summary page offers the same countries and families as the
   * dashboard's unnarrowed lists over the same rows.
   */
  lemma {:induction false} OptionsAgree(merged: seq<Aggregate.Merged>)
    ensures Options(merged, Country) == Filters.CountryOptions(Seqs.Map(merged, Aggregate.RowOfMerged), {})
    ensures Options(merged, Family) == Filters.FamilyOptions(Seqs.Map(merged, Aggregate.RowOfMerged), {})
  {
    Filters.UnnarrowedOptions(Seqs.Map(merged, Aggregate.RowOfMerged));
    SameColumn(merged, Country, Filters.Country);
    SameColumn(merged, Family, Filters.Family);
  }

  /** A column read through the merged row gives the same choices as read from the sheet rows. */
  lemma SameColumn(merged: seq<Aggregate.Merged>, field: Aggregate.Merged -> Option<string>, rowField: Row -> Option<string>)
    requires forall m :: field(m) == rowField(m.row)
    ensures Options(merged, field) == Collation.OptionList(Seqs.Map(Seqs.Map(merged, Aggregate.RowOfMerged), rowField))
  {
    assert Seqs.Map(merged, field) == Seqs.Map(Seqs.Map(merged, Aggregate.RowOfMerged), rowField);
  }

  /** The selection the two multi-selects make; continent and class are not offered on this page. */
  function SelectionOf(countries: set<string>, families: set<string>): Filters.Selection {
    Filters.Selection({}, countries, {}, families)
  }

  /**
   * `merged_df[country_filter & family_filter]`: the rows whose country and
   * family are selected, a dimension with nothing selected admitting every
   * row, in their original order.
   */
  function Selected(merged: seq<Aggregate.Merged>, countries: set<string>, families: set<string>): (r: seq<Aggregate.Merged>)
    ensures Seqs.IsSubsequence(r, merged)
    ensures forall m :: m in r <==>
      m in merged && Filters.Admits(countries, m.row.country) && Filters.Admits(families, m.row.family)
  {
    Filters.Apply(merged, SelectionOf(countries, families))
  }

  /** With neither countries nor families chosen the page keeps every row. */
  lemma NothingChosenKeepsAll(merged: seq<Aggregate.Merged>)
    ensures Selected(merged, {}, {}) == merged
  {
    assert SelectionOf({}, {}) == Filters.NoSelection;
  }

  /** One line of the summary table. */
  datatype SummaryRow = SummaryRow(
    family: Option<string>,      // Family
    animalName: Option<string>,  // Animal_name
    binomial: Option<string>,    // Binomial_name
    iucnStatus: Option<string>,  // IUCN_status
    lastShow: Option<string>,    // Last Appeared In
    lastDate: Option<Date>       // Last Appeared Date
  )

  /** The six shown columns of a merged row; a row without a binomial has no last appearance. */
  function SummaryRowOf(m: Aggregate.Merged): SummaryRow {
    SummaryRow(m.row.family, m.row.animalName, m.binomial, m.row.iucnStatus,
               if m.last.Some? then Some(m.last.value.show) else None,
               if m.last.Some? then Some(m.last.value.date) else None)
  }

  /** Strictly ascending on a cell that may be missing, missing values last. */
  predicate StrictlyBefore(a: Option<string>, b: Option<string>) {
    Collation.AscNaLast(a, b) && !Collation.AscNaLast(b, a)
  }

  /** `sort_values(["Family", "Binomial_name"])`: by family, then by binomial name, missing values last. */
  predicate Before(a: SummaryRow, b: SummaryRow) {
    StrictlyBefore(a.family, b.family) ||
    (a.family == b.family && Collation.AscNaLast(a.binomial, b.binomial))
  }

  function Order(): (SummaryRow, SummaryRow) -> bool {
    (a: SummaryRow, b: SummaryRow) => Before(a, b)
  }

  lemma OrderIsTotalPreorder()
    ensures Sorting.TotalPreorder(Order())
  {
    forall a: SummaryRow, b: SummaryRow, c: SummaryRow
      ensures Before(a, b) || Before(b, a)
      ensures Before(a, b) && Before(b, c) ==> Before(a, c)
    {
      Collation.AscNaLastTotalPreorder(a.family, b.family, c.family);
      Collation.AscNaLastTotalPreorder(c.family, b.family, a.family);
      Collation.AscNaLastTotalPreorder(b.family, c.family, a.family);
      Collation.AscNaLastTotalPreorder(c.family, a.family, b.family);
      Collation.AscNaLastTotalPreorder(a.binomial, b.binomial, c.binomial);
      if Collation.AscNaLast(a.family, b.family) && Collation.AscNaLast(b.family, a.family) {
        Collation.AscNaLastAntisymmetric(a.family, b.family);
      }
    }
  }

  /** Line `x` shows a selected row. */
  ghost predicate FromSelected(merged: seq<Aggregate.Merged>, countries: set<string>, families: set<string>, x: SummaryRow) {
    exists m :: m in Selected(merged, countries, families) && SummaryRowOf(m) == x
  }

  /** Line `x` is in the numbered table. */
  predicate Shown(r: seq<(nat, SummaryRow)>, x: SummaryRow) {
    exists i :: 0 <= i < |r| && r[i].1 == x
  }

  /**
   * The summary table: the selected rows' shown columns, duplicates
   * dropped, ordered by family and binomial name (ties in any order), with
   * the index reset to count from 1.
   */
  function Table(merged: seq<Aggregate.Merged>, countries: set<string>, families: set<string>): (r: seq<(nat, SummaryRow)>)
    ensures forall i :: 0 <= i < |r| ==> r[i].0 == i + 1
    ensures forall i, j :: 0 <= i < j < |r| ==> Before(r[i].1, r[j].1)
    ensures forall i, j :: 0 <= i < j < |r| ==> r[i].1 != r[j].1
    ensures forall i :: 0 <= i < |r| ==> FromSelected(merged, countries, families, r[i].1)
    ensures forall m :: m in merged && Filters.Admits(countries, m.row.country) && Filters.Admits(families, m.row.family) ==>
      Shown(r, SummaryRowOf(m))
  {
    var selected := Selected(merged, countries, families);
    var projected := Seqs.Map(selected, SummaryRowOf);
    var unique := Seqs.Dedupe(projected);
    OrderIsTotalPreorder();
    var sorted := Sorting.Sort(unique, Order());
    Seqs.DistinctPermutation(unique, sorted);
    TableContents(merged, countries, families, projected, unique, sorted);
    var r := Seqs.Numbered(sorted);
    NumberedTable(merged, countries, families, sorted, r);
    r
  }

  /** The sorted lines are exactly the projections of the selected rows. */
  lemma TableContents(merged: seq<Aggregate.Merged>, countries: set<string>, families: set<string>,
                      projected: seq<SummaryRow>, unique: seq<SummaryRow>, sorted: seq<SummaryRow>)
    requires projected == Seqs.Map(Selected(merged, countries, families), SummaryRowOf)
    requires unique == Seqs.Dedupe(projected)
    requires multiset(sorted) == multiset(unique)
    ensures forall i :: 0 <= i < |sorted| ==> FromSelected(merged, countries, families, sorted[i])
    ensures forall m :: m in merged && Filters.Admits(countries, m.row.country) && Filters.Admits(families, m.row.family) ==>
      exists i :: 0 <= i < |sorted| && sorted[i] == SummaryRowOf(m)
  {
    var selected := Selected(merged, countries, families);
    forall i | 0 <= i < |sorted| ensures FromSelected(merged, countries, families, sorted[i]) {
      assert sorted[i] in multiset(unique);
      assert sorted[i] in projected;
      Seqs.MapMembership(selected, SummaryRowOf, sorted[i]);
      var k :| 0 <= k < |selected| && SummaryRowOf(selected[k]) == sorted[i];
      assert selected[k] in selected;
    }
    forall m | m in merged && Filters.Admits(countries, m.row.country) && Filters.Admits(families, m.row.family)
      ensures exists i :: 0 <= i < |sorted| && sorted[i] == SummaryRowOf(m)
    {
      assert m in selected;
      var k :| 0 <= k < |selected| && selected[k] == m;
      assert projected[k] == SummaryRowOf(m);
      assert SummaryRowOf(m) in unique;
      assert SummaryRowOf(m) in multiset(sorted);
      var i :| 0 <= i < |sorted| && sorted[i] == SummaryRowOf(m);
    }
  }

  /** Numbering the sorted distinct lines keeps their order, origin and distinctness. */
  lemma NumberedTable(merged: seq<Aggregate.Merged>, countries: set<string>, families: set<string>,
                      sorted: seq<SummaryRow>, r: seq<(nat, SummaryRow)>)
    requires r == Seqs.Numbered(sorted)
    requires Sorting.SortedBy(sorted, Order())
    requires Seqs.Distinct(sorted)
    requires forall i :: 0 <= i < |sorted| ==> FromSelected(merged, countries, families, sorted[i])
    requires forall m :: m in merged && Filters.Admits(countries, m.row.country) && Filters.Admits(families, m.row.family) ==>
      exists i :: 0 <= i < |sorted| && sorted[i] == SummaryRowOf(m)
    ensures forall i :: 0 <= i < |r| ==> r[i].0 == i + 1
    ensures forall i, j :: 0 <= i < j < |r| ==> Before(r[i].1, r[j].1)
    ensures forall i, j :: 0 <= i < j < |r| ==> r[i].1 != r[j].1
    ensures forall i :: 0 <= i < |r| ==> FromSelected(merged, countries, families, r[i].1)
    ensures forall m :: m in merged && Filters.Admits(countries, m.row.country) && Filters.Admits(families, m.row.family) ==>
      Shown(r, SummaryRowOf(m))
  {
    assert forall i :: 0 <= i < |r| ==> r[i].1 == sorted[i];
    forall i, j | 0 <= i < j < |r| ensures Before(r[i].1, r[j].1) {
      assert Order()(sorted[i], sorted[j]);
    }
  }
}

=== FILE: text.dfy ===
/**
 * The string operations the pipeline relies on, with Python's semantics:
 * `str.split()` with no separator, `" ".join`, the `in` substring test,
 * `str.replace(' ', '%20')`, and `int(s.lstrip('0'))` on a digit string.
 */
module Text {

  /** Characters Python's `str.isspace()` accepts, which `str.split()` splits on. */
  predicate IsSpace(c: char) {
    || c == ' '
    || '\t' <= c <= '\r'
    || '\U{1c}' <= c <= '\U{1f}'
    || c == '\U{85}' || c == '\U{a0}' || c == '\U{1680}'
    || '\U{2000}' <= c <= '\U{200a}'
    || c == '\U{2028}' || c == '\U{2029}' || c == '\U{202f}' || c == '\U{205f}' || c == '\U{3000}'
  }

  /** A token of `str.split()`: non-empty and free of whitespace. */
  predicate IsWord(w: string) {
    |w| > 0 && forall i :: 0 <= i < |w| ==> !IsSpace(w[i])
  }

  /** Length of the run of non-whitespace characters that starts `s`. */
  function WordLength(s: string): (n: nat)
    ensures n <= |s|
    ensures forall i :: 0 <= i < n ==> !IsSpace(s[i])
    ensures n == |s| || IsSpace(s[n])
  {
    if |s| == 0 || IsSpace(s[0]) then 0 else 1 + WordLength(s[1..])
  }

  /** `s.split()`: the maximal whitespace-free runs of `s`, in order. */
  function Split(s: string): (r: seq<string>)
    ensures forall i :: 0 <= i < |r| ==> IsWord(r[i])
    decreases |s|
  {
    if |s| == 0 then []
    else if IsSpace(s[0]) then Split(s[1..])
    else
      var n := WordLength(s);
      [s[..n]] + Split(s[n..])
  }

  /** A word splits to itself. */
  lemma SplitWord(w: string)
    requires IsWord(w)
    ensures Split(w) == [w]
  {
    WordLengthOfWord(w, "");
    assert w + "" == w;
    assert w[|w|..] == "";
  }

  /** A string of whitespace only splits to no words. */
  lemma {:induction false} SplitBlank(s: string)
    requires forall i :: 0 <= i < |s| ==> IsSpace(s[i])
    ensures Split(s) == []
    decreases |s|
  {
    if |s| > 0 {
      SplitBlank(s[1..]);
    }
  }

  /** A word run that stops before the end of `x` is not lengthened by what follows `x`. */
  lemma {:induction false} WordLengthPrefix(x: string, y: string)
    requires WordLength(x) < |x|
    ensures WordLength(x + y) == WordLength(x)
  {
    if !IsSpace(x[0]) {
      assert (x + y)[1..] == x[1..] + y;
      WordLengthPrefix(x[1..], y);
    }
  }

  /** A whitespace character separates: the words of `a c b` are those of `a` followed by those of `b`. */
  lemma {:induction false} SplitAtSpace(a: string, c: char, b: string)
    requires IsSpace(c)
    ensures Split(a + [c] + b) == Split(a) + Split(b)
    decreases |a|
  {
    var s := a + [c] + b;
    if |a| == 0 {
      assert s == [c] + b;
      assert s[1..] == b;
    } else if IsSpace(a[0]) {
      assert s[1..] == a[1..] + [c] + b;
      SplitAtSpace(a[1..], c, b);
    } else if WordLength(a) < |a| {
      var m := WordLength(a);
      assert s == a + ([c] + b);
      SplitFirstWord(a, [c] + b);
      assert a[m..] + ([c] + b) == a[m..] + [c] + b;
      SplitAtSpace(a[m..], c, b);
      assert Split(a) == [a[..m]] + Split(a[m..]);
    } else {
      SplitWordThenSpace(a, c, b);
    }
  }

  /** A first word that ends inside `a` is the first word of `a` followed by anything. */
  lemma SplitFirstWord(a: string, rest: string)
    requires |a| > 0 && !IsSpace(a[0]) && WordLength(a) < |a|
    ensures var m := WordLength(a);
      Split(a + rest) == [a[..m]] + Split(a[m..] + rest)
  {
    var m := WordLength(a);
    WordLengthPrefix(a, rest);
    assert (a + rest)[..m] == a[..m];
    assert (a + rest)[m..] == a[m..] + rest;
  }

  /** A word followed by whitespace splits into the word and the words after it. */
  lemma SplitWordThenSpace(a: string, c: char, b: string)
    requires |a| > 0 && !IsSpace(a[0]) && WordLength(a) == |a|
    requires IsSpace(c)
    ensures Split(a + [c] + b) == Split(a) + Split(b)
  {
    var s := a + [c] + b;
    assert IsWord(a);
    assert s == a + ([c] + b);
    WordLengthOfWord(a, [c] + b);
    assert s[..|a|] == a;
    assert s[|a|..] == [c] + b;
    assert ([c] + b)[1..] == b;
    assert a[..|a|] == a && a[|a|..] == "";
  }

  /**
   * A string in the form `" ".join` of words produces: every whitespace
   * character is a single space with a non-space character on either side,
   * so there is no leading, trailing or repeated whitespace.
   */
  predicate SingleSpaced(s: string) {
    forall i :: 0 <= i < |s| ==> SpacedAt(s, i)
  }

  /** Position `i` is not whitespace, or is a single space between two non-space characters. */
  predicate SpacedAt(s: string, i: nat)
    requires i < |s|
  {
    IsSpace(s[i]) ==> s[i] == ' ' && 0 < i < |s| - 1 && !IsSpace(s[i - 1]) && !IsSpace(s[i + 1])
  }

  /** `sep.join(ts)`. */
  function Join(ts: seq<string>, sep: string): string {
    if |ts| == 0 then ""
    else if |ts| == 1 then ts[0]
    else ts[0] + sep + Join(ts[1..], sep)
  }

  lemma {:induction false} WordLengthOfWord(w: string, rest: string)
    requires IsWord(w)
    requires |rest| == 0 || IsSpace(rest[0])
    ensures WordLength(w + rest) == |w|
  {
    if |w| > 1 {
      assert (w + rest)[1..] == w[1..] + rest;
      WordLengthOfWord(w[1..], rest);
    } else {
      assert (w + rest)[1..] == rest;
    }
  }

  /** Joining words with one space and splitting again gives the words back. */
  lemma {:induction false} SplitJoin(ts: seq<string>)
    requires forall i :: 0 <= i < |ts| ==> IsWord(ts[i])
    ensures Split(Join(ts, " ")) == ts
  {
    if |ts| == 1 {
      var w := ts[0];
      WordLengthOfWord(w, "");
      assert w + "" == w;
      assert w[|w|..] == "";
    } else if |ts| > 1 {
      var w := ts[0];
      var tail := Join(ts[1..], " ");
      var s := w + " " + tail;
      assert s == w + (" " + tail);
      WordLengthOfWord(w, " " + tail);
      assert s[..|w|] == w;
      assert s[|w|..] == " " + tail;
      assert (" " + tail)[1..] == tail;
      SplitJoin(ts[1..]);
      assert ts == [w] + ts[1..];
    }
  }

  /** Joining at least one word gives a string at least as long as the first word. */
  lemma {:induction false} JoinLength(ts: seq<string>)
    requires |ts| > 0
    ensures |Join(ts, " ")| >= |ts[0]|
    ensures |ts[0]| > 0 ==> Join(ts, " ")[0] == ts[0][0]
  {
  }

  /** Joining words with one space gives a single-spaced string. */
  lemma {:induction false} JoinSingleSpaced(ts: seq<string>)
    requires forall i :: 0 <= i < |ts| ==> IsWord(ts[i])
    ensures SingleSpaced(Join(ts, " "))
  {
    if |ts| > 1 {
      var w := ts[0];
      var tail := Join(ts[1..], " ");
      JoinSingleSpaced(ts[1..]);
      JoinLength(ts[1..]);
      var s := w + " " + tail;
      assert |tail| > 0 && tail[0] == ts[1][0];
      forall i | 0 <= i < |s| && IsSpace(s[i]) ensures SpacedAt(s, i) {
        if i < |w| {
          assert false;
        } else if i > |w| {
          assert s[i] == tail[i - |w| - 1];
          assert SpacedAt(tail, i - |w| - 1);
          if i > |w| + 1 {
            assert s[i - 1] == tail[i - |w| - 2];
          }
          assert i - |w| - 1 < |tail| - 1;
          assert s[i + 1] == tail[i - |w|];
        } else {
          assert s[i - 1] == w[|w| - 1];
          assert s[i + 1] == tail[0];
        }
      }
      assert forall i :: 0 <= i < |s| ==> SpacedAt(s, i);
    }
  }

  /** A single-spaced string is the one-space join of its own words. */
  lemma {:induction false} SingleSpacedIsJoin(s: string)
    requires SingleSpaced(s)
    ensures s == Join(Split(s), " ")
    decreases |s|
  {
    if |s| > 0 {
      var n := WordLength(s);
      assert SpacedAt(s, 0);
      assert n > 0;
      if n == |s| {
        assert s[..n] == s && s[n..] == "";
      } else {
        var t := s[n + 1..];
        assert SpacedAt(s, n);
        assert |t| > 0 && !IsSpace(t[0]);
        assert SingleSpaced(t) by {
          forall i | 0 <= i < |t| ensures SpacedAt(t, i) {
            assert SpacedAt(s, n + 1 + i);
            assert t[i] == s[n + 1 + i];
            if IsSpace(t[i]) {
              assert s[n + i] == t[i - 1];
              assert s[n + 2 + i] == t[i + 1];
            }
          }
        }
        SingleSpacedIsJoin(t);
        assert s[n..][1..] == t;
        assert Split(s[n..]) == Split(t);
        var words := Split(t);
        assert words == [t[..WordLength(t)]] + Split(t[WordLength(t)..]);
        var ws := [s[..n]] + words;
        assert Split(s) == ws;
        assert |ws| > 1 && ws[0] == s[..n] && ws[1..] == words;
        assert Join(ws, " ") == s[..n] + " " + Join(words, " ");
        AroundSpace(s, n);
      }
    }
  }

  /** A string is the part before one of its spaces, the space, and the part after it. */
  lemma AroundSpace(s: string, n: nat)
    requires n < |s| && s[n] == ' '
    ensures s == s[..n] + " " + s[n + 1..]
  {
    assert s == s[..n] + [s[n]] + s[n + 1..];
  }

  /** Two single-spaced strings with the same words are the same string. */
  lemma SingleSpacedDetermined(a: string, b: string)
    requires SingleSpaced(a) && SingleSpaced(b)
    requires Split(a) == Split(b)
    ensures a == b
  {
    SingleSpacedIsJoin(a);
    SingleSpacedIsJoin(b);
  }

  /** `sub` occurs in `s` starting at position `i`. */
  predicate InfixAt(s: string, sub: string, i: nat) {
    i + |sub| <= |s| && s[i..i + |sub|] == sub
  }

  /** Python's `sub in s`. */
  function Contains(s: string, sub: string): (b: bool)
    ensures b <==> exists i: nat :: InfixAt(s, sub, i)
    decreases |s|
  {
    if |s| < |sub| then false
    else if s[..|sub|] == sub then
      assert InfixAt(s, sub, 0);
      true
    else
      assert |s| > 0;
      var later := Contains(s[1..], sub);
      assert forall i: nat :: InfixAt(s[1..], sub, i) <==> InfixAt(s, sub, i + 1) by {
        forall i: nat ensures InfixAt(s[1..], sub, i) <==> InfixAt(s, sub, i + 1) {
          if i + 1 + |sub| <= |s| {
            assert s[1..][i..i + |sub|] == s[i + 1..i + 1 + |sub|];
          }
        }
      }
      assert (exists i: nat :: InfixAt(s, sub, i)) ==> exists i: nat :: InfixAt(s[1..], sub, i) by {
        if i: nat :| InfixAt(s, sub, i) {
          assert i > 0;
          assert InfixAt(s[1..], sub, i - 1);
        }
      }
      later
  }

  /** `s.replace(' ', '%20')`: the URL path encoding the gallery applies. */
  function EncodeSpaces(s: string): (r: string)
    ensures ' ' !in r
    ensures |r| >= |s|
  {
    if |s| == 0 then ""
    else (if s[0] == ' ' then "%20" else [s[0]]) + EncodeSpaces(s[1..])
  }

  /** The inverse of `EncodeSpaces`: every `%20` becomes a space again. */
  function DecodeSpaces(s: string): string {
    if |s| == 0 then ""
    else if |s| >= 3 && s[..3] == "%20" then " " + DecodeSpaces(s[3..])
    else [s[0]] + DecodeSpaces(s[1..])
  }

  /** Decoding an encoded string gives it back whenever it had no `%` of its own. */
  lemma {:induction false} DecodeEncode(s: string)
    requires '%' !in s
    ensures DecodeSpaces(EncodeSpaces(s)) == s
  {
    if |s| > 0 {
      var head := if s[0] == ' ' then "%20" else [s[0]];
      var tail := EncodeSpaces(s[1..]);
      assert EncodeSpaces(s) == head + tail;
      DecodeEncode(s[1..]);
      if s[0] == ' ' {
        DecodeSpaceThen(tail);
      } else {
        assert s[0] != '%';
        DecodeCharThen(s[0], tail);
      }
      assert s == [s[0]] + s[1..];
    }
  }

  /** A `%20` decodes to a space in front of the rest. */
  lemma DecodeSpaceThen(rest: string)
    ensures DecodeSpaces("%20" + rest) == " " + DecodeSpaces(rest)
  {
    var s := "%20" + rest;
    assert s[..3] == "%20" && s[3..] == rest;
  }

  /** A character other than `%` decodes to itself in front of the rest. */
  lemma DecodeCharThen(c: char, rest: string)
    requires c != '%'
    ensures DecodeSpaces([c] + rest) == [c] + DecodeSpaces(rest)
  {
    var s := [c] + rest;
    assert s[1..] == rest;
    if |s| >= 3 {
      assert s[..3][0] == c;
    }
  }

  /** The encoded " - " separator decodes in front of the rest. */
  lemma DecodeSeparatorThen(rest: string)
    ensures DecodeSpaces("%20-%20" + rest) == " - " + DecodeSpaces(rest)
  {
    DecodeSpaceThen(rest);
    DecodeCharThen('-', "%20" + rest);
    DecodeSpaceThen("-" + ("%20" + rest));
    assert "%20-%20" + rest == "%20" + ("-" + ("%20" + rest));
  }

  /** Decoding an encoded string followed by more text decodes the two parts separately. */
  lemma {:induction false} DecodeEncodeThen(s: string, rest: string)
    requires '%' !in s
    ensures DecodeSpaces(EncodeSpaces(s) + rest) == s + DecodeSpaces(rest)
  {
    if |s| > 0 {
      var head := if s[0] == ' ' then "%20" else [s[0]];
      var tail := EncodeSpaces(s[1..]) + rest;
      assert EncodeSpaces(s) + rest == head + tail;
      DecodeEncodeThen(s[1..], rest);
      var d := DecodeSpaces(rest);
      if s[0] == ' ' {
        DecodeSpaceThen(tail);
      } else {
        assert s[0] != '%';
        DecodeCharThen(s[0], tail);
      }
      assert DecodeSpaces(head + tail) == [s[0]] + (s[1..] + d);
      assert [s[0]] + (s[1..] + d) == s + d by {
        assert s == [s[0]] + s[1..];
      }
    } else {
      assert EncodeSpaces(s) + rest == rest;
    }
  }

  /** A string made only of the digits 0-9. */
  predicate IsDigits(s: string) {
    forall i :: 0 <= i < |s| ==> '0' <= s[i] <= '9'
  }

  function Pow10(n: nat): (p: nat)
    ensures p > 0
  {
    if n == 0 then 1 else 10 * Pow10(n - 1)
  }

  /** The number a digit string denotes, as `int(s)` reads it. */
  function DecimalValue(s: string): nat
    requires IsDigits(s)
  {
    if |s| == 0 then 0
    else (s[0] as int - '0' as int) * Pow10(|s| - 1) + DecimalValue(s[1..])
  }

  /** `s.lstrip('0')`. */
  function StripLeadingZeros(s: string): (r: string)
    ensures |r| <= |s| && r == s[|s| - |r|..]
    ensures |r| == 0 || r[0] != '0'
    ensures forall i :: 0 <= i < |s| - |r| ==> s[i] == '0'
  {
    if |s| > 0 && s[0] == '0' then StripLeadingZeros(s[1..]) else s
  }

  /** Stripping leading zeros does not change the number a digit string denotes. */
  lemma {:induction false} StripKeepsValue(s: string)
    requires IsDigits(s)
    ensures IsDigits(StripLeadingZeros(s))
    ensures DecimalValue(StripLeadingZeros(s)) == DecimalValue(s)
  {
    if |s| > 0 && s[0] == '0' {
      assert IsDigits(s[1..]) by {
        forall i | 0 <= i < |s| - 1 ensures '0' <= s[1..][i] <= '9' {
          assert s[1..][i] == s[i + 1];
        }
      }
      StripKeepsValue(s[1..]);
      assert DecimalValue(s) == 0 * Pow10(|s| - 1) + DecimalValue(s[1..]);
    }
  }
}

=== FILE: wrappers.dfy ===
/** The Option datatype: `None` stands for a missing spreadsheet cell (pandas NaN/None). */
module Wrappers {

  datatype Option<+T> = None | Some(value: T) {

    /** Returns the value in Some, or `default` when absent (pandas `fillna`). */
    function GetOr(default: T): T {
      match this
      case Some(v) => v
      case None => default
    }
  }
}
